=== FILE: README.md ===
# pytenable-was, modelled in Dafny

A model of the core of pytenable-was, a Python SDK and command-line tool for
the Tenable Web App Scanning (WAS) v2 API, with proofs about it. The model
covers both generations of the code side by side: the stand-alone modules
(`cache.py`, `http.py`, `scans.py`, `apps.py`, `findings.py`, `vulns.py`,
`plugins.py`, `findings_export.py`, `auth.py`, `users.py`, `config.py`,
`utils.py`) and the `pytenable_was` package (`http.py`, `utils.py`,
`findings.py`, `config.py`, `cli.py`).

What is modelled, by module:

- `Cache`: the TTL cache of namespaced entries with lazy expiry, the bulk
  clears and `warm`.
- `Http` and `WasHttp`: the two HTTP clients' request loops. Each retries
  a 429 reply at most five times, sleeping 2, 4, 8, 16 and 32 seconds.
  They also model the error payloads, the 204 rule, the headers, the
  proxies and the verbs.
- `Api` and `Models`: calls as values, a server as a function from call
  to outcome, the cache-fronted fetch and the list-and-cache loop shared
  by the resource modules, and `parse_model`.
- `Scans`, `Apps` and `Findings`: the cache-fronted reads. They also model
  the launch-then-poll loop, status classification, application bodies,
  URL refresh, finding filters and summaries.
- `WasUtils`, `Utils` and `Sorting`: the data-shaping helpers.
  - ID, URL and list normalisation, the UUID shape check and `safe_get`.
  - Durations.
  - Severity ranking, the stable sort and both `group_by_severity`
    variants.
  - The dot-path `flatten_dict`.
  - The legacy `utils.py` copies of `normalize_id`, `normalize_url`,
    `normalize_list`, `safe_get`, `duration_seconds`, `severity_rank`,
    `sort_by_severity` and `flatten_dict` have the same bodies as their
    `pytenable_was/utils.py` counterparts, so the `WasUtils` members
    model both. The legacy `group_by_severity`, `parse_timestamp` and
    `flatten_model` have `Utils` members of their own.
- `WasFindings`: per-scan findings and the export of every scan's
  findings, raw or flattened, skipping scans that fail.
- `Vulns`, `Plugins`, `CsvSafe`, `FindingsExport` and `Ids`:
  - vulnerability search and batch lookups, and the filter builder;
  - per-URL row expansion;
  - plugin batches that record failures instead of raising;
  - the CSV-safe flattening and the CSV header rule;
  - comma-separated and file-based ID lists.
- `Auth`, `Config`, `WasConfig`, `Users` and `WasCli`:
  - key masking and request headers;
  - the two `config` command groups' document edits and proxy rules;
  - owner enrichment of scans;
  - the command-line input rules for bulk owner changes and export
    targets.
- `Wrappers`, `Text`, `Dict`, `Json` and `Errors`: the supporting vocabulary.
  - Results and options.
  - Python string operations.
  - Insertion-ordered dicts with Python's update rule.
  - JSON values with Python truthiness.
  - The exceptions the code raises.

Time, the network, the file system and the environment are parameters.
The clock is a `now` argument, and sleeps are recorded in order. A server
is a function from request to outcome. A file system is a function from
path to contents, and the environment is a function from variable to
value. Python's `str()` of floats and containers, and `json.dumps` text,
come from an opaque `Renderer`. Every operation returns the error it
would raise as a value.

## Model

| member | source | states |
|---|---|---|
| Cache.Init | cache.py:69-77 | a fresh cache holds exactly the namespaces scans, apps, findings, urls and raw, all empty |
| Cache.Get | cache.py:82-96 | a missing namespace or key is a miss that changes nothing; a live entry returns its value and changes nothing; an expired entry is a "(expired)" miss that evicts exactly that key and leaves every other key and namespace as it was |
| Cache.Set | cache.py:101-106 | the namespace is created when absent; the key then holds the new value with the current time and the given TTL; no other key or namespace changes |
| Cache.Delete | cache.py:112-116 | deleting an absent key changes nothing; otherwise exactly that key is gone and nothing else changes |
| Cache.ClearNamespace | cache.py:121-125 | an existing namespace is emptied and keeps its name; every other namespace is untouched; no name is added |
| Cache.ClearAll | cache.py:127-131 | every namespace is emptied and every name is kept |
| Cache.WarmInto | cache.py:141-142 | writing a batch into a namespace adds exactly the batch's keys, each holding its batch value stamped with the current time and the given TTL, and leaves keys outside the batch as they were |
| Cache.Warm | cache.py:136-143 | fails with KeyError exactly when the namespace does not exist and the batch is non-empty; otherwise the namespace gains exactly the batch's keys, each holding its batch value with the current time and the TTL, every other key of it is as it was, and no other namespace changes |
| Cache.NoTtlNeverExpires | cache.py:39-47 | an entry stored without TTL is returned by get at any later time |
| Cache.TtlBoundary | cache.py:44-47 | an entry with TTL T is returned while now minus its timestamp is at most T, and strictly beyond T get misses and evicts it |
| Cache.ExpiredThenMiss | cache.py:89-93 | after get has evicted an expired entry, the next get of that key is a plain miss |
| Cache.NamespaceIsolation | cache.py:101-116 | set and delete in one namespace never change what get answers in another |
| Cache.SetThenDelete | cache.py:101-116 | deleting a key just set leaves it absent, whatever the namespace held before |
| Cache.WarmOnFreshCache | cache.py:136-143 | on a fresh cache, warm of a non-empty batch succeeds exactly for the five initial namespaces |
| Cache.SetCreatesWhatWarmRejects | cache.py:101-106 | on a namespace not yet present, warm of one item fails while set of the same item stores it |
| Cache.StoredValues | apps.py:78-81 | the values held in the namespace, one per key in insertion order, whatever their age |
| Models.ParseModel | models.py:35-47 | None parses to None and a dict to the same fields; anything else fails validation |
| Models.CacheId | scans.py:85 | a model is cached exactly when it exists and its id is a non-empty string, and it is cached under that id |
| Models.ParseAll | models.py:165-167 | a list parses exactly when every element is None or a dict, and then to the same elements |
| Models.Iterate | scans.py:80-83 | iterating a list gives its items, a string its characters, a dict its keys; None, booleans and numbers raise TypeError |
| Api.Remember | scans.py:107-108 | a model with an id is written under that id with the resource's TTL; a model without one leaves the cache as it was; no other key changes |
| Api.Received | scans.py:104-110 | one GET of the path; a failed call raises its error and leaves the cache; a parsed model is remembered when it has an id |
| Api.CachedGet | scans.py:92-110 | with the cache on, a live entry answers with no call and no change; otherwise exactly one GET, whose answer is received into the store as the lookup left it (an expired entry evicted), or into the store itself without the cache: the model is returned and written back under its id |
| Api.CachedGetWritesBack | scans.py:92-110 | after a fetch a model with an id is stored under that id with the current time and the resource's TTL; every other key and namespace is as it was; with the cache on, a failed fetch or a model cached under another id leaves the asked key absent |
| Api.FetchedIsCached | scans.py:92-110 | a model fetched under the id it was asked for is served from the cache, with no call, by any cached read within its TTL |
| Api.ParseAndCache | scans.py:82-90 | succeeds exactly when every element parses, keeping count and order; on success every id holds the last model listed under it and other keys are untouched |
| Api.CachedList | scans.py:65-90 | a non-empty namespace is returned straight from the store with no call; otherwise one GET whose first truthy list key is parsed element by element and cached |
| Api.ListingFillsCache | scans.py:65-90 | after a listing with at least one id-carrying model, the next cached listing sends no call |
| Api.ListingIgnoresExpiry | scans.py:69-75 | the cached listing returns an entry that a cached get already treats as expired |
| Errors.Describe | errors.py:44-50 | the message is prefixed with "[HTTP code] " exactly when the status code is truthy, and is the bare message when neither status code nor payload is truthy |
| Http.RetryLoop | http.py:62-88 | the server's replies explain the trace: between one and six requests; every request but the last was answered 429; the last decides: a non-429 reply is returned, a transport failure ends the loop at once, and a 429 ends it only as the sixth request; one sleep before each retry, 2 doubled once per earlier retry, none after the last; the count equals the reference count |
| Http.RequestsFrom | http.py:62-85 | reference count: from request k on, one more request per further 429, up to six in all |
| Http.ExplainsDetermines | http.py:62-88 | two traces explained by the same replies are equal, so requests, sleeps and outcome are a function of the server alone |
| Http.ExplainsCount | http.py:62-85 | a trace the replies explain makes exactly the reference number of requests |
| Http.FirstReplyDecides | http.py:62-75 | a first reply other than 429 ends the loop after one request and no sleep, with that reply as the outcome |
| Http.ThrottledSleeps | http.py:63-84 | a call throttled every time sleeps 2, 4, 8, 16 and 32 seconds |
| Http.ErrorPayload | http.py:94-97 | the error payload is the decoded body, else the body's text |
| Http.LegacyFinish | http.py:75-109 | a transport failure and an exhausted budget raise their messages; any status of 400 or more raises "HTTP status: payload" without retry; below 400 the decoded body, or "Invalid JSON response" when it does not decode |
| Http.Proxies | http.py:38-43 | both schemes map to the proxy exactly when a non-empty proxy is given, else no proxies |
| Http.NewClient | http.py:31-43 | the client keeps both keys and the timeout, and its proxies are those of the proxy rule |
| Http.Headers | http.py:48-53 | exactly Accept, Content-Type and X-ApiKeys, in that order: JSON both ways and "accessKey=ak; secretKey=sk" |
| Http.ApiKeysRoundTrip | http.py:52 | when neither key contains ';', splitting the X-ApiKeys value on ';' gives back both key fields |
| Http.Send | http.py:58-109 | the request is the upper-cased method, BASE_URL followed by the path, the client's headers, proxies and timeout, and the JSON body; the trace is the one the server's replies explain, and the result is the legacy verdict on its outcome; a first reply other than 429 means one request and no sleep |
| Http.Get | http.py:114-115 | a GET with no body to BASE_URL plus the path; the trace is the one the server's replies explain and the result is the legacy verdict on its outcome |
| Http.Post | http.py:117-118 | a POST carrying the JSON body; the trace is the one the server's replies explain and the result is the legacy verdict on its outcome |
| Http.Put | http.py:120-121 | a PUT carrying the JSON body; the trace is the one the server's replies explain and the result is the legacy verdict on its outcome |
| Http.Delete | http.py:123-124 | a DELETE with no body; the trace is the one the server's replies explain and the result is the legacy verdict on its outcome |
| WasHttp.NewClient | pytenable_was/http.py:22-31 | the client keeps the API key and timeout; proxies map both schemes to the proxy exactly when a non-empty one is given |
| WasHttp.Headers | pytenable_was/http.py:36-41 | exactly Accept, Content-Type and X-API-Key, in that order, the last holding the API key verbatim |
| WasHttp.Finish | pytenable_was/http.py:69-103 | a transport failure and an exhausted budget raise; a status of 400 or more raises "Tenable API error" carrying the status code and the payload; 204 returns None whatever the body; any other success returns the decoded body or raises "Invalid JSON response" |
| WasHttp.FinishAgreesWithLegacy | pytenable_was/http.py:72-103 | apart from the transport message, the two clients agree on every outcome except an error reply and a 204 |
| WasHttp.Send | pytenable_was/http.py:46-103 | the request carries the method as given, BASE_URL plus the path, the client's headers, proxies and timeout, the params and the body; the trace is the one the server's replies explain, with the legacy budget and backoff, and the result is the v2 verdict on its outcome; a first reply other than 429 means one request and no sleep |
| WasHttp.Get | pytenable_was/http.py:108-109 | get forwards the params and sends no body; the trace is the one the server's replies explain and the result is the v2 verdict on its outcome |
| WasHttp.Post | pytenable_was/http.py:111-112 | post forwards the body and sends no params; the trace is the one the server's replies explain and the result is the v2 verdict on its outcome |
| WasHttp.Put | pytenable_was/http.py:114-115 | put forwards the body and sends no params; the trace is the one the server's replies explain and the result is the v2 verdict on its outcome |
| WasHttp.Delete | pytenable_was/http.py:117-118 | delete sends neither params nor body; the trace is the one the server's replies explain and the result is the v2 verdict on its outcome |
| Scans.GetScan | scans.py:92-110 | a live cached scan is returned with no call; otherwise one GET of /was/v2/scans/{id}, which succeeds exactly when the answer is a dict or null; a fetched scan is written back for 300 seconds over the store the lookup left, and a failure leaves that store |
| Scans.ListAll | scans.py:65-90 | a non-empty scans namespace is returned from the store with no call; otherwise exactly one GET of /was/v2/scans is sent |
| Scans.ListAllListing | scans.py:65-90 | a listing that reaches the server succeeds exactly when its "scans" (else "items") value is a list holding only dicts and nulls, and then those come back unchanged |
| Scans.ClassifyStatus | scans.py:123-139 | "unknown" exactly for a missing or empty status; a known status, in any case, gives its description; anything else gives "unknown (status)" |
| Scans.ClassifyIgnoresCase | scans.py:139 | any casing of a known status classifies like its lower-case and upper-case forms |
| Scans.TerminalIsCaseSensitive | scans.py:139-175 | "COMPLETED" is classified as completed but is not a terminal state, while "completed" is |
| Scans.TerminalClassification | scans.py:39 | every terminal state classifies as completed, failed or cancelled |
| Scans.LaunchScan | scans.py:145-150 | one POST to the launch path; when it succeeds exactly the scan's cache entry is evicted and nothing else changes; when it fails the cache is untouched |
| Scans.LaunchThenGetFetches | scans.py:145-150 | after a launch, a cached get of that scan sends the GET |
| Scans.VerdictOrder | scans.py:169-181 | a failed fetch ends the wait with its error; a terminal scan is returned whatever the clock says; a timeout needs a non-terminal scan and a strictly passed deadline; polling continues exactly while neither holds |
| Scans.ReceivedDecides | scans.py:170-179 | the loop's checks on a fetched scan, including the AttributeError on a null scan, agree with the verdict of that poll |
| Scans.WaitUntilComplete | scans.py:152-181 | every call is an uncached GET of the scan; the wait ends at the first poll that decides, with what it decides; when that poll does not decide and the interval is negative, `time.sleep` raises ValueError("sleep length must be non-negative") after that one poll; exactly one sleep of interval separates consecutive polls and none follows the last |
| Scans.LaunchAndWait | scans.py:183-191 | exactly one launch call comes first; a failed launch ends there; otherwise the polls follow from the cache the launch left, with the same verdict, negative-interval ValueError, sleep and cache guarantees as the wait |
| Sorting.StableSort | pytenable_was/utils.py:241 | the result is a permutation of the input, ordered by key, and the elements sharing a key keep their relative order |
| Sorting.SortStrings | findings_export.py:133 | the same strings, as a multiset, in ascending code-point order |
| Sorting.SortedUnique | findings_export.py:133 | two ascending orderings of the same strings are equal, so sorting depends on the strings alone |
| WasUtils.NormalizeId | pytenable_was/utils.py:40-50 | None exactly for None; otherwise text with no surrounding whitespace, no longer than str(value), and the stripped string itself for a string |
| WasUtils.NormalizeIdIdempotent | pytenable_was/utils.py:40-50 | normalising a normalised id changes nothing |
| WasUtils.NormalizeIntId | pytenable_was/utils.py:48-50 | an integer id normalises to decimal text that reads back as the same integer |
| WasUtils.NormalizeUrl | pytenable_was/utils.py:53-65 | None exactly for a falsy url; otherwise stripped, lower-case, and no longer than the input |
| WasUtils.NormalizeUrlIdempotent | pytenable_was/utils.py:53-65 | a non-empty normalised url normalises to itself; an all-whitespace url becomes "" and then None |
| WasUtils.NormalizeList | pytenable_was/utils.py:68-80 | None gives [], a list is returned as it is, any other value gives a one-element list |
| WasUtils.NormalizeListIdempotent | pytenable_was/utils.py:68-80 | normalising the list normalise_list returned gives the same list |
| WasUtils.IsUuid | pytenable_was/utils.py:31-37 | false for a falsy value; anything accepted is 36 or 37 characters long |
| WasUtils.UuidOfGroups | pytenable_was/utils.py:83-95 | five hex groups of lengths 8, 4, 4, 4 and 12 joined by dashes are accepted, with or without one final newline |
| WasUtils.GroupsOfUuid | pytenable_was/utils.py:83-95 | everything accepted is such five groups, optionally followed by one newline |
| WasUtils.SafeGet | pytenable_was/utils.py:102-122 | the result is the default or not None; a non-dict start with keys to walk gives the default; with no keys the data itself unless it is None |
| WasUtils.SafeGetConcat | pytenable_was/utils.py:117-122 | walking a + b is walking a and then, from any non-None value reached, walking b |
| WasUtils.SafeGetMissing | pytenable_was/utils.py:119-122 | a key missing from a dict gives the default however many keys follow |
| WasUtils.TruncateReal | pytenable_was/utils.py:147 | int() of a float truncates toward zero |
| WasUtils.ParseTimestamp | pytenable_was/utils.py:129-157 | None stays None; an integer is itself; an integer string parses; any other string goes to the ISO reader; lists and dicts have no timestamp |
| WasUtils.ParseTimestampOfText | pytenable_was/utils.py:145-147 | the decimal text of an epoch parses back to it, whatever the ISO reader does |
| WasUtils.DurationSeconds | pytenable_was/utils.py:178-192 | None exactly when either side fails to parse; otherwise never negative, at least end minus start, and either 0 or exactly that difference |
| WasUtils.DurationOfEpochs | pytenable_was/utils.py:188-192 | a forward interval measures its length and a backward one measures 0 |
| WasUtils.SeverityRank | pytenable_was/utils.py:208-219 | between -1 and 4; non-negative exactly for a known label in any case, and then the label's place in critical, high, medium, low, info |
| WasUtils.SeverityRankIsTableLookup | pytenable_was/utils.py:199-219 | for a non-empty label the rank is the SEVERITY_ORDER entry of the lower-cased label, else -1 |
| WasUtils.SeverityRanking | pytenable_was/utils.py:199-219 | critical 4, high 3, medium 2, low 1, info 0; unknown, empty and missing labels -1 |
| WasUtils.SeverityRankIgnoresCase | pytenable_was/utils.py:219 | the rank of a label equals that of its lower-case and its upper-case forms |
| WasUtils.KeyFault | pytenable_was/utils.py:219-241 | f.get on a non-dict and lower() on a non-string severity both raise AttributeError, told apart by the failing call |
| WasUtils.FirstUnsortable | pytenable_was/utils.py:241 | the first finding the sort key raises on, taken from the input; none exactly when every finding has a key |
| WasUtils.SortBySeverity | pytenable_was/utils.py:222-241 | raises AttributeError exactly when some finding is not a dict or holds a truthy non-string severity, naming the first such; otherwise a permutation of the findings ordered by rank, highest first when reverse, and findings of equal rank keep their input order |
| WasUtils.Bucket | pytenable_was/utils.py:274-278 | every severity text lands in one of the six group names |
| WasUtils.Members | pytenable_was/utils.py:266-278 | a group holds only input findings whose bucket is its name, in input order |
| WasUtils.MembersNonEmpty | pytenable_was/utils.py:266-278 | a group is non-empty exactly when some finding falls in it |
| WasUtils.GroupsPartition | pytenable_was/utils.py:263-280 | every finding lands in exactly one of the six groups, so the group sizes add up to the number of findings |
| WasUtils.GroupsDict | pytenable_was/utils.py:263-264 | the six group names in order, each once, each holding its group |
| WasUtils.Collect | pytenable_was/utils.py:266-278 | the loop leaves each of the six groups holding exactly the findings of its bucket, in input order |
| WasUtils.GroupBySeverity | pytenable_was/utils.py:244-280 | exactly the keys critical, high, medium, low, info and unknown, in that order, each holding its findings in input order |
| WasUtils.FlattenDict | pytenable_was/utils.py:287-308 | no value of the result is a dict, no key repeats, and the keys are exactly the sep-joined paths to the non-dict leaves, so an empty nested dict leaves no key; each path holds the leaf found there, lists and scalars untouched, a later duplicate path winning |
| WasUtils.FlattenObj | pytenable_was/utils.py:305 | the recursive call flattens a nested dict to exactly its leaf paths under the parent key, with no dict values and no repeated key |
| WasUtils.FlattenFrom | pytenable_was/utils.py:302-307 | the loop adds exactly the leaf paths of the remaining entries to what it has built |
| WasUtils.FlattenObjValues | pytenable_was/utils.py:302-307 | each leaf path of the flattened dict holds the leaf value found there |
| WasUtils.FlattenFromValues | pytenable_was/utils.py:302-307 | after the loop a path reached by a remaining entry holds that entry's leaf, the later one when two reach it, and any other path holds what was built before |
| WasUtils.FlattenFlat | pytenable_was/utils.py:302-307 | a dict with no dict values flattens to itself |
| WasUtils.FlattenIdempotent | pytenable_was/utils.py:287-308 | flattening a flattened dict changes nothing |
| WasUtils.FlattenEmptyNested | pytenable_was/utils.py:302-307 | an empty nested dict contributes no key |
| WasUtils.FlattenExample | pytenable_was/utils.py:295-296 | {"a": {"b": 1}} flattens to {"a.b": 1} |
| Utils.GroupBySeverity | utils.py:146-164 | critical, high, medium, low and info always, each holding its findings in input order; "unknown" last and present exactly when some finding belongs there |
| Utils.LegacyGroups | utils.py:157-163 | the five known groups, then "unknown" only when it is non-empty |
| Utils.BucketsAgree | utils.py:159-163 | on a string severity the legacy bucket is the v2 bucket |
| Utils.LegacyParseTimestamp | utils.py:76-100 | the legacy parser, whose ISO branch calls replace on ts itself rather than on str(ts), gives None for lists and dicts and agrees with the v2 parser on every value |
| Utils.FlattenModel | utils.py:187-199 | a dict model flattens from the root with its leaf paths and leaf values; anything else raises ValueError |
| Findings.SetOf | models.py:160-167 | a findings set holds the scan id and exactly the given findings |
| Findings.FromApi | models.py:165-167 | succeeds exactly when every element is a dict, and then holds the scan id and those findings in order |
| Findings.FetchSet | findings.py:84-90 | one GET of the scan's findings; a non-dict answer raises; "findings", else "items", else [] must iterate into dicts; on success the set is cached under the scan id for 600 seconds, and on failure the cache is untouched |
| Findings.ListFindings | findings.py:68-93 | a live cached set answers with no call and no change; otherwise exactly the fetch, and its set is cached under the scan id for 600 seconds over the store the lookup left, a failure leaving that store |
| Findings.ListedSetIsCached | findings.py:76-90 | a set fetched without the cache is what a cached listing returns, with no call, for the next ten minutes |
| Findings.FetchedSetIsLive | findings.py:88-90 | right after an uncached listing the set is live in the cache, is the value returned, and has the findings-set shape |
| Findings.FirstWithId | findings.py:102-106 | a returned finding is in the set and has the asked id; over a set of models, some finding is returned exactly when one has that id |
| Findings.GetFinding | findings.py:95-111 | a live cached set holding the finding answers with no call; otherwise, a miss with the cache on included, exactly the single GET of the finding, whose answer is parsed as a model, over the store the lookup left (an expired set evicted), or the store itself without the cache |
| Findings.CachedSetAnswers | findings.py:95-106 | a live cached findings set that holds a finding with the requested id answers get_finding with no call |
| Findings.ListedFindingIsCached | findings.py:95-106 | a finding listed in a set fetched without the cache is then answered from the cache, with no call |
| Findings.Keeps | findings.py:138-143 | with no criterion every finding is kept; a kept finding's severity, or "" when falsy, matches case-insensitively, and str() of its plugin id equals the wanted one; reading a non-model or lower-casing a non-string severity raises |
| Findings.Select | findings.py:136-145 | the selection is never longer than its input |
| Findings.SelectMeaning | findings.py:136-145 | selection raises exactly when some element raises; otherwise it keeps every accepted finding and nothing else, each taken from the input |
| Findings.SelectAppend | findings.py:136-145 | selecting from a concatenation is selecting from each part in turn, so the result is an order-preserving subsequence |
| Findings.SelectSingle | findings.py:139-145 | one finding is kept exactly when the criteria accept it, and the first error raises |
| Findings.NoCriteriaKeepsAll | findings.py:139-142 | with neither criterion set, filter returns every finding unchanged and in order |
| Findings.SeverityCriterionIgnoresCase | findings.py:139 | upper-casing the wanted severity changes no decision |
| Findings.FilterFindings | findings.py:136-145 | the loop keeps exactly the selection of the criteria, in order, raising at the first finding whose check raises |
| Findings.FindingsOf | models.py:160-167 | reading the findings of a listed set succeeds exactly on a findings set and gives back the findings it was built from |
| Findings.Filter | findings.py:131-146 | the cached listing, then the selection over its findings; its calls and cache effect are the listing's, and any listing error is raised |
| Findings.KnownCountsBounded | findings.py:180-189 | the five known severity counts together never exceed the number of findings |
| Findings.SummaryOf | findings.py:180-189 | the summary carries the scan id, the total, and each known severity's count under its name |
| Findings.KnownCounts | findings.py:183-188 | five counts, critical to info, whose sum is at most the number of findings |
| Findings.GroupSizesAreCounts | findings.py:183-188 | groups holding each severity's members have exactly the known counts as sizes |
| Findings.Summarize | findings.py:178-189 | succeeds exactly when every finding's severity is a string, and then reports the total and the five group sizes |
| Findings.GroupBySeverity | findings.py:124-129 | the cached listing, then the legacy grouping of its findings; the listing's failure is passed on; it raises AttributeError exactly when some finding's severity is not a string, absent and null included, because a FindingModel always has the attribute; otherwise each known severity holds its members in input order and "unknown" is present exactly when some finding falls outside the five |
| Findings.Summary | findings.py:163-189 | the cached listing, then its count; the second listing inside the grouping hits the cache and adds no call; a listing failure or non-string severity raises |
| Findings.GroupSizes | findings.py:183-188 | one size per known severity, in the order critical, high, medium, low, info |
| WasFindings.FindingsList | pytenable_was/findings.py:111-115 | succeeds exactly on a dict whose "findings", defaulting to [], is a list, and returns that list, [] when the key is absent; a non-list raises the given API error and a non-dict payload raises AttributeError |
| WasFindings.ListFindings | pytenable_was/findings.py:70-81 | one GET of the scan's findings; any client failure becomes the one "Failed retrieving findings" error, otherwise the findings-list rule applies |
| WasFindings.ExportFull | pytenable_was/findings.py:83-100 | one POST of {"scan_id": id} to the export endpoint; a client failure becomes "Failed exporting findings for scan" with the id's str(); otherwise the findings-list rule applies; every other error comes from a non-dict payload |
| WasFindings.ScanIdOf | pytenable_was/findings.py:181 | the scan's "scan_id" when truthy, else its "id"; a non-dict scan record raises |
| WasFindings.ExportStep | pytenable_was/findings.py:181-192 | a step that aborts has made at most one call |
| WasFindings.ExportStepMeaning | pytenable_was/findings.py:181-192 | a scan is skipped without a call exactly when its id is falsy; otherwise its export is asked for; it is dropped exactly when that export raises an API error, kept with exactly its findings when it succeeds, and any other error ends the loop |
| WasFindings.Exports | pytenable_was/findings.py:177-194 | no more exported scans than calls, and no more calls than scans |
| WasFindings.ExportsAreAnswers | pytenable_was/findings.py:177-194 | every exported scan had a truthy id, was asked for, and carries exactly the findings its export answered |
| WasFindings.ExportsAreAllAnswered | pytenable_was/findings.py:177-194 | the walk succeeds exactly when every scan record is a dict whose export, when its id is truthy, answers or raises an API error; then it holds exactly the scans whose export answered, in scan order, each with its answer |
| WasFindings.ExportNeedsDicts | pytenable_was/findings.py:181 | an export that completes saw only dict scan records |
| WasFindings.RecordOf | pytenable_was/findings.py:188-191 | the appended record carries the scan id and its findings |
| WasFindings.ExportAllFindings | pytenable_was/findings.py:167-194 | the same calls as the walk over the scans; one record per exported scan, in scan order; an error that is not an API error is raised |
| WasFindings.FlatRow | pytenable_was/findings.py:223-225 | a dict finding flattens; the row's "scan_id" is the scan's id, overriding any flattened key, and every other key is the flattened value |
| WasFindings.FlatRows | pytenable_was/findings.py:222-226 | succeeds exactly when every finding is a dict, with one row per finding, each the flat row of the finding in the same place, so carrying the scan id |
| WasFindings.TotalFindings | pytenable_was/findings.py:209-227 | the number of findings over the exported scans: zero exactly when none has a finding, and at least the size of each |
| WasFindings.FlatAll | pytenable_was/findings.py:222-226 | a successful flattening has one row per finding of the exported scans |
| WasFindings.FlatAllMeaning | pytenable_was/findings.py:222-226 | flattening the exported scans fails exactly when some finding is not a dict; otherwise there are as many rows as findings |
| WasFindings.FlatAllRowsTagged | pytenable_was/findings.py:222-226 | every flattened row is a dict carrying the id of one of the exported scans |
| WasFindings.ExportAllFindingsFlat | pytenable_was/findings.py:196-227 | no more calls than scans, and every returned row is a dict |
| WasFindings.FlatIsFlattenedExport | pytenable_was/findings.py:196-227 | a successful flat export makes the raw export's calls and equals the raw export flattened scan by scan |
| WasFindings.FlattenableExportIsFlat | pytenable_was/findings.py:196-227 | when the raw export succeeds and all its findings flatten, the flat export succeeds too |
| WasFindings.FlatRowCount | pytenable_was/findings.py:209-227 | the flat row count is the total number of findings over the scans exported successfully |
| Apps.AppFromApi | models.py:73-78 | a non-dict raises AttributeError; a dict parses exactly when its falsy-or-list "urls" holds only dicts and nulls, and then "urls" is replaced by that list, or [] when falsy, with every other field kept |
| Apps.AppFromApiIdempotent | models.py:73-78 | an application that went through from_api is unchanged by a second pass |
| Apps.GetApp | apps.py:96-112 | a live cached application is returned with no call; otherwise one GET whose answer goes through from_api; a fetched application is written back for 600 seconds over the store the lookup left, and a failure leaves that store |
| Apps.ListAll | apps.py:73-94 | a non-empty apps namespace is returned from the store with no call; otherwise one GET, and on success every element of "items" (else "applications") comes back through from_api, in order |
| Apps.UrlEntries | apps.py:124 | one {"url": u} entry per URL |
| Apps.UrlEntriesRoundTrip | apps.py:124 | reading the entries' "url" fields back gives the URLs they were built from |
| Apps.CreateBody | apps.py:122-124 | name and description always, "urls" exactly when the URL list is non-empty, and then its entries read back as the given URLs |
| Apps.UpdateBody | apps.py:138-142 | "name" and "description" are present exactly when given, nothing else is, and they hold the given values |
| Apps.Stored | apps.py:126-130 | the answer to the call goes through from_api and is remembered under its id for 600 seconds; a failure leaves the cache |
| Apps.CreateApp | apps.py:118-132 | one POST of the create body to /was/v2/applications; a failed call raises its error and leaves the cache; otherwise the result is from_api of the answer, remembered under its id |
| Apps.UpdateApp | apps.py:134-150 | one POST of the update body to the application's path; a failed call raises its error and leaves the cache; otherwise the result is from_api of the answer, remembered under its id |
| Apps.DeleteApp | apps.py:152-157 | one DELETE; when it succeeds exactly that application is evicted and nothing else changes; when it fails the cache is untouched |
| Apps.DeleteThenGetFetches | apps.py:152-157 | after a delete, a cached get of that application sends the GET |
| Apps.UrlModels | apps.py:167-169 | a non-dict answer raises; a falsy "urls" gives []; a list parses element by element |
| Apps.ListUrls | apps.py:163-169 | one GET of the application's urls path; a failure raises it, otherwise the parsed URL models |
| Apps.Refresh | apps.py:181-187 | one uncached GET of the application; when it succeeds the application, carrying the new URL models, is cached under the asked id for 600 seconds; a failure is swallowed and leaves the cache |
| Apps.RefreshUpdatesAlias | apps.py:181-187 | the object get_app cached under the fetched application's own id is the one refresh mutates, so that entry carries the new URLs too; no other key changes |
| Apps.SetUrls | apps.py:171-189 | one POST of the new URL entries; a failure raises and leaves the cache; otherwise the URL models are returned and the refresh follows |
| Apps.SetUrlsThenCachedRead | apps.py:171-189 | after set_urls with a successful refresh, a cached read within ten minutes returns the application with the new URLs and sends nothing |
| Apps.Len | apps.py:203 | len() of a list, string or dict is its size; None, booleans and numbers raise |
| Apps.UrlCount | apps.py:203 | 0 when "urls" is falsy, the list's length when it is a list, and a TypeError exactly for a truthy boolean or number |
| Apps.SummaryOf | apps.py:200-205 | the summary exists exactly when the URL count does, and holds id, name, the URL count and the tags, [] when falsy |
| Apps.SummaryFields | apps.py:200-205 | exactly the keys id, name, urls and tags, in that order, holding the given values |
| Apps.Summary | apps.py:195-205 | the cached get of the application, then its summary; a failed get raises its error |
| Ids.NonBlank | vulns.py:39 | never more IDs than pieces, and every ID is non-blank with no surrounding whitespace |
| Ids.NonBlankAppend | vulns.py:39 | cleaning distributes over concatenation, so the pieces' order is the IDs' order |
| Ids.NonBlankSingle | vulns.py:39 | one piece survives exactly when its stripped form is not blank, and survives stripped |
| Ids.NonBlankKeeps | vulns.py:39 | every piece that is not blank appears in the output, stripped |
| Ids.NonBlankFrom | vulns.py:39 | every output ID is some piece, stripped |
| Ids.NonBlankOfClean | vulns.py:39 | pieces that are already clean pass through unchanged |
| Ids.ParseIds | pytenable_was/cli.py:74-78 | every parsed ID is clean |
| Ids.CommaIds | pytenable_was/cli.py:74-78 | every ID parsed from the comma-separated argument is clean |
| Ids.MultiIds | vulns.py:32-39 | an empty value gives []; every ID is clean |
| Ids.UniversalNewlines | pytenable_was/cli.py:91-92 | the text as text-mode iteration sees it: every '\r' becomes a line end and every other character is kept |
| Ids.FileIds | pytenable_was/cli.py:88-95 | every ID kept from the file's lines is clean, the lines being those of the text after Ids.UniversalNewlines |
| Ids.ParseJoin | pytenable_was/cli.py:74-78 | joining clean, separator-free IDs with the separator and parsing them gives the IDs back |
| Ids.MultiIdsIsCommaIds | vulns.py:32-39 | the empty-value guard is redundant: both comma parsers agree on every input |
| Ids.FileIdsCarriageReturn | pytenable_was/cli.py:91-95 | a file holding "101\r102" gives the two IDs 101 and 102 |
| Vulns.SearchBody | vulns.py:89-93 | the posted body carries the caller's "filters", or [] when absent |
| Vulns.Chosen | vulns.py:103 | the answer's "vulns" when truthy, else its "items" when truthy, else [] |
| Vulns.Search | vulns.py:83-106 | a non-dict filter raises before any call; otherwise one POST of the body; a non-dict answer raises; the chosen value is returned exactly when len() accepts it, and otherwise the logging call raises TypeError |
| Vulns.SearchRejectsUnsized | vulns.py:103-105 | an answer whose "vulns" is a non-zero number makes search raise TypeError from len() |
| Vulns.GetVuln | vulns.py:108-115 | an empty ID raises "vuln_id is required" with no call; otherwise one GET of the vulnerability and its answer |
| Vulns.GetMany | vulns.py:117-133 | no more calls and no more answers than IDs; only an error other than TenableAPIError escapes |
| Vulns.AnswersAppend | vulns.py:128-132 | answers and requests of a concatenation are those of each part in turn |
| Vulns.GetManyMeaning | vulns.py:117-133 | a batch fails exactly when some lookup raises something other than TenableAPIError; otherwise it returns the successful answers in input order after one request per non-empty ID |
| Vulns.AnswersAreReplies | vulns.py:128-133 | every returned answer is the server's reply to the request for one of the non-empty IDs |
| Vulns.Candidates | vulns.py:161-210 | one slot per argument: a filter exactly when the argument is truthy, with its field, operator and value |
| Vulns.Compact | vulns.py:161-212 | keeps exactly the present entries, each one taken from the input |
| Vulns.CompactAt | vulns.py:161-212 | a present entry lands right after the present entries before it |
| Vulns.BuildFilters | vulns.py:139-212 | the result is {"filters": list} |
| Vulns.FilterPositions | vulns.py:161-212 | each truthy argument's filter is emitted, after exactly the filters of the truthy arguments before it in the order severity, plugin_id, scan_id, application_id, state, since, until |
| Vulns.FiltersComeFromArguments | vulns.py:161-212 | every emitted filter is the filter of some truthy argument, with severity lower-cased, plugin_id wrapped unless a list, scan and application IDs wrapped, since as last_seen gte and until as last_seen lte |
| Vulns.NoArgumentsNoFilters | vulns.py:161-212 | with every argument falsy the builder returns {"filters": []} |
| Vulns.SeverityIgnoresCase | vulns.py:163-168 | the filters do not depend on the case the severity is given in |
| Vulns.Base | vulns.py:233-238 | the shared row is the vulnerability flattened, with no dict values |
| Vulns.RowFor | vulns.py:241-242 | a row is the flattened vulnerability with only affected_url set to the URL |
| Vulns.FlattenSingle | vulns.py:218-245 | every row is a dict |
| Vulns.FlattenSingleMeaning | vulns.py:218-245 | an empty vulnerability gives no rows; without affected URLs there is exactly one row with affected_url None; otherwise one row per URL, in order, each the flattened vulnerability with that URL |
| Vulns.RowCountAppend | vulns.py:247-254 | row counts add over concatenation |
| Vulns.RowsOfMeaning | vulns.py:247-254 | the expansion succeeds exactly when every vulnerability does, and then has the sum of their row counts |
| Vulns.RowsOfLast | vulns.py:252-253 | one step of the loop appends the last vulnerability's rows |
| Vulns.RowsOfAppendStep | vulns.py:252-253 | the inductive step of expanding a concatenation |
| Vulns.RowsOfAppend | vulns.py:247-254 | expanding a concatenation concatenates the expansions, so order is kept |
| Vulns.RowsOfFailureSticks | vulns.py:252-253 | once the expansion fails, further vulnerabilities do not change the error |
| Vulns.FlattenMulti | vulns.py:247-254 | the loop returns exactly the rows of each vulnerability, appended in turn |
| Vulns.ExportOne | vulns.py:260-265 | the lookup's calls; its error is raised, otherwise the expansion of its answer |
| Vulns.ExportMany | vulns.py:267-275 | the batch lookup's calls; its error is raised; otherwise the answers in order, and the rows exist exactly when every answer expands and then number the sum of their row counts |
| CsvSafe.Strs | plugins.py:111 | one str() per element, in order |
| CsvSafe.FlattenValue | plugins.py:98-124 | every value becomes a cell: None and scalars unchanged, a list its ", "-joined str() of elements, a dict its json.dumps text |
| CsvSafe.FlattenFields | plugins.py:96-126 | exactly the input's keys, in order, each holding a cell |
| CsvSafe.FlattenObject | plugins.py:87-126 | a dict gives a row with exactly its keys and only cells; anything else raises AttributeError |
| CsvSafe.FlattenEach | plugins.py:141-156 | succeeds exactly when every object is a dict, with one row per object, in order, each that object's flattening |
| CsvSafe.FlattenFieldsGet | findings_export.py:74-102 | looking a key up after flattening is flattening the value looked up before, and a missing key stays missing |
| CsvSafe.FlattenFieldsIdempotent | findings_export.py:74-102 | flattening a flat row again changes nothing |
| CsvSafe.FlattenFieldsOfCells | findings_export.py:74-102 | a row of cells is its own flattening |
| Plugins.ListPlugins | plugins.py:52-57 | one GET; "items", else "plugins", else []; a non-dict answer raises |
| Plugins.GetPlugin | plugins.py:59-63 | one GET of the plugin, its answer as it is |
| Plugins.ErrorEntry | plugins.py:81 | the error record holds the plugin id and the error's text |
| Plugins.GetMultiple | plugins.py:68-82 | no more calls than IDs; the only error that ends the batch is one other than TenableAPIError |
| Plugins.Lookups | plugins.py:75-77 | one request per ID |
| Plugins.GetMultipleSucceeds | plugins.py:68-82 | the batch fails exactly when some lookup raises something other than TenableAPIError |
| Plugins.GetMultipleEntries | plugins.py:68-82 | a successful batch holds one entry per requested ID, in order, each the plugin or its error record, after one request per ID |
| Plugins.FlattenSingle | plugins.py:131-136 | one GET; a failure raises, otherwise the plugin made CSV-safe |
| Plugins.FlattenAll | plugins.py:141-146 | the listing's calls; its failure raises; a listed list is made CSV-safe element by element, in order; a listing that is not a list, necessarily a truthy string, dict, number or boolean, always raises |
| Plugins.FlattenMultiple | plugins.py:151-156 | the batch's calls; its failure raises; otherwise every entry made CSV-safe, in order |
| Plugins.ErrorEntryIsFlat | plugins.py:81 | an error record is already CSV-safe |
| Plugins.FlattenMultipleRows | plugins.py:68-82 | when every lookup answers a dict or raises TenableAPIError, flatten_multiple gives one CSV-safe row per requested ID, in order |
| FindingsExport.ApiExport | findings_export.py:41-60 | one POST of {"scan_id": id}; a dict answer is returned, a client failure raises, anything else raises "Malformed export response" |
| FindingsExport.HeadersOf | findings_export.py:133 | the header is the row's keys in ascending order |
| FindingsExport.Tabulate | findings_export.py:133-138 | the rows are written exactly when every row's keys are in the header; then the header is the first row's sorted keys and the rows are written in order; otherwise the writer raises ValueError |
| FindingsExport.ExportCsv | findings_export.py:118-140 | one POST; its error raises; a missing or empty findings list raises "No findings returned for scan"; a non-empty list raises unless it is a list of dicts, and is then flattened row by row and tabulated, the written table or the writer's error being the result |
| FindingsExport.HeadersIgnoreKeyOrder | findings_export.py:133 | the header does not depend on the order the first row lists its keys |
| FindingsExport.SameKeysExportWhole | findings_export.py:133-138 | rows that all have the first row's keys are written whole |
| Users.FetchAllUsers | users.py:62-79 | one GET of /was/v2/users; "items", else "users", else [] is returned exactly when it is a list, and otherwise raises "Malformed /users response"; a non-dict answer raises |
| Users.GetUserDetails | users.py:81-90 | one GET of the user; a dict answer is returned, anything else raises "Malformed user details for" the id |
| Users.EntryOf | users.py:110-118 | a user gives an entry exactly when it is a dict whose user_id is truthy, and then its key is that user_id and its owner holds only email and name; a falsy user_id is skipped; an unhashable one raises TypeError |
| Users.OwnerEntries | users.py:107-120 | no more entries than users, and every key is truthy and hashable |
| Users.OwnerOf | users.py:140 | the owner of a key is the owner of the last entry with that key, and there is none exactly when no entry has it |
| Users.BuildOwnerMap | users.py:95-120 | the user listing's calls; its error raises; otherwise one assignment per user with a truthy user_id |
| Users.UsersAreDicts | users.py:110-111 | an owner map that builds saw only dict users |
| Users.LastWith | users.py:110-118 | the index of the last user carrying the key, with no later user carrying it, or -1 |
| Users.OwnerOfLastUser | users.py:110-118 | for a truthy key the map's owner is the email and name of the last user with that user_id, and no owner when no user has it |
| Users.EnrichOne | users.py:139-145 | a dict scan with a hashable owner_id gets owner_email and owner_name from its owner, both None for an unknown owner; anything else raises |
| Users.EnrichOneKeeps | users.py:139-145 | enriching a scan leaves every key other than owner_email and owner_name as it was |
| Users.EnrichAll | users.py:137-147 | a finished loop yields exactly one scan per input scan |
| Users.EnrichAllSucceeds | users.py:137-147 | the loop succeeds exactly when every scan enriches on its own |
| Users.EnrichAllEach | users.py:137-147 | after a successful loop each place holds the enrichment of the scan in that place, in order |
| Users.EnrichScans | users.py:122-147 | the owner map is built first, with the user listing's calls; its error raises; otherwise every scan is enriched |
| Users.EnrichKeepsScans | users.py:137-147 | enrichment returns the same scans, in the same order and number, each carrying its owner's email and name and everything else as before |
| Config.NormalizeProxyUrl | config.py:67-76 | accepted exactly when the stripped URL starts with http:// or https:// in any case, and then the scheme is rewritten in lower case with the rest kept; anything else raises the proxy-URL ClickException |
| Config.LowerKeepsScheme | config.py:71-73 | lower-casing keeps a lower-case prefix in place |
| Config.NormalizeIsNormal | config.py:67-74 | an accepted URL comes out stripped with a lower-case scheme |
| Config.NormalUrlFixed | config.py:67-74 | a normal URL is its own normal form |
| Config.NormalizeIdempotent | config.py:67-74 | normalising an already normalised URL returns it unchanged |
| Config.Index | config.py:81-82 | indexing succeeds exactly on a dict holding the key, giving its value; a missing key raises KeyError |
| Config.CheckProxyBlock | config.py:79-85 | on a document with the three proxy-auth keys, the check passes exactly when authentication is off or both credentials are truthy, and otherwise raises the given ClickException; a non-dict raises |
| Config.ValidateProxyComponents | config.py:79-85 | fails exactly when proxy_auth is truthy and the username or password is falsy, with this CLI's message |
| Config.DefaultConfig | config.py:54-61 | five settings, each once: api_key and the proxy strings None and proxy_auth False |
| Config.DefaultValid | config.py:54-61 | the default document passes the proxy-auth rule |
| Config.Store | config.py:173 | item assignment sets that key and leaves every other one |
| Config.SetProxy | config.py:151-163 | a bad URL raises before the document is touched; otherwise the normalised URL is stored under proxy_url and nothing else changes |
| Config.ClearProxy | config.py:169-179 | URL, username and password become None and authentication False; only a dict can be written |
| Config.ClearProxyAuth | config.py:209-217 | authentication False and both credentials None; only a dict can be written |
| Config.ClearProxyKeeps | config.py:169-179 | clear-proxy changes only its four keys, so the API key and everything else stay |
| Config.ClearProxyAuthKeeps | config.py:209-217 | clear-proxy-auth changes only its three keys, so the proxy URL and the API key stay |
| Config.WithProxyAuthKeeps | config.py:195-198 | storing credentials changes only the three authentication keys |
| Config.ClearProxyValid | config.py:169-179 | a cleared proxy always passes the proxy-auth rule |
| Config.ClearProxyAuthValid | config.py:209-217 | a cleared authentication always passes the proxy-auth rule |
| Config.WithProxyAuth | config.py:195-198 | the credentials are stored and authentication is on |
| Config.SetProxyAuth | config.py:185-203 | a blank username raises before the password is read, then a blank password raises; a success stores the stripped credentials with authentication on |
| Config.WithProxyAuthValid | config.py:195-200 | non-blank credentials with authentication on pass the proxy-auth rule |
| Config.SetProxyAuthValid | config.py:185-203 | set-proxy-auth succeeds exactly when both stripped answers are non-blank and the document is a dict, and what it saves always passes the validation |
| WasConfig.DefaultConfig | pytenable_was/config.py:22-30 | five settings, each once, including api_key, proxy_url and the whole proxy block |
| WasConfig.DefaultValues | pytenable_was/config.py:22-30 | in the default document proxy_auth is False and every other setting is None |
| WasConfig.ValidateProxyBlock | pytenable_was/config.py:86-92 | fails exactly when proxy_auth is truthy and the username or password is falsy, with this CLI's message |
| WasConfig.DefaultValid | pytenable_was/config.py:22-30 | the default document passes the proxy-auth rule |
| WasConfig.ClearProxy | pytenable_was/config.py:180-190 | all four proxy settings are reset; only a dict can be written |
| WasConfig.ClearProxyAgrees | pytenable_was/config.py:180-190 | in whichever order the two CLIs write, clear-proxy leaves every setting with the same value |
| WasConfig.WithProxyAuth | pytenable_was/config.py:205-208 | authentication on and the credentials stored |
| WasConfig.SetProxyAuth | pytenable_was/config.py:197-213 | a blank stripped username or password raises before the document is read; a success is the stored credentials with authentication on |
| WasConfig.WithProxyAuthValid | pytenable_was/config.py:205-210 | non-blank credentials with authentication on pass the proxy-auth rule |
| WasConfig.SetProxyAuthValid | pytenable_was/config.py:197-213 | set-proxy-auth succeeds exactly when both answers are non-blank and the document is a dict, and the block it saves always validates |
| WasConfig.SetProxyAuthAgrees | pytenable_was/config.py:197-213 | when it succeeds, both CLIs' set-proxy-auth store the same value under every setting |
| Auth.SliceFrom | auth.py:33 | Python's s[start:], a negative start counting from the end, both ends clamped |
| Auth.MaskKeyAsWritten | auth.py:21-33 | a blank key stays blank; a key no longer than visible is all stars; for 0 < visible < length the length is kept and only the last visible characters show |
| Auth.MaskKeyZeroLeaks | auth.py:31-33 | with visible 0 the masked key is twice as long and ends with the whole key |
| Auth.MaskKeyZeroExample | auth.py:31-33 | masking "ABCDEFGH" with visible 0 gives "********ABCDEFGH" |
| Auth.Shown | auth.py:31-33 | at most the whole length is shown, and something is shown exactly when 0 < visible < length |
| Auth.MaskKey | auth.py:21-33 | the intended mask: the length is kept, every character before the shown tail is a star and the tail is the key's |
| Auth.MaskKeyAgrees | auth.py:21-33 | for every positive visible the intended mask is the one written |
| Auth.MaskKeyHidesAll | auth.py:21-33 | a non-positive visible hides the whole key |
| Auth.BaseHeaders | auth.py:68-72 | exactly Accept and Content-Type application/json and X-ApiKeys "accessKey=..; secretKey=.." |
| Auth.WithAgent | auth.py:74-76 | the base headers, plus User-Agent exactly when one is given |
| Auth.BuildHeaders | auth.py:36-82 | either key empty raises ValueError; otherwise the base headers, User-Agent when given and the extra headers, every other name as before |
| Auth.Overlay | auth.py:78-80 | extra headers add their names and leave every other name unchanged |
| Auth.BuildHeadersExtraWins | auth.py:78-80 | every extra header reaches the result with its given value, overriding earlier ones |
| Auth.LoadCredentials | auth.py:85-121 | succeeds exactly when both variables are set to non-empty values, giving them; otherwise ValueError naming both variables |
| Auth.LoadedCredentialsBuild | auth.py:85-121 | credentials loaded from the environment always build a header set carrying them |
| WasCli.LoadIdsFromFile | pytenable_was/cli.py:81-95 | a missing file raises "File not found: path"; otherwise its stripped non-blank lines, in order |
| WasCli.OwnerBulkIds | pytenable_was/cli.py:222-233 | both sources or neither raise; otherwise the IDs of the one given, and a missing ids file raises "File not found: path"; an empty list raises "No scan IDs provided."; a success is non-empty and clean |
| WasCli.OwnerBulkIdsRoundTrip | pytenable_was/cli.py:222-233 | any non-empty list of clean comma-free IDs typed as one argument reaches the bulk change unchanged |
| WasCli.JoinLength | pytenable_was/cli.py:74-78 | the joined argument is at least as long as its first ID |
| WasCli.PathOf | pytenable_was/cli.py:267-276 | "auto" means an automatic file name, any other value is the path |
| WasCli.ExportTargets | pytenable_was/cli.py:260-277 | at least one export runs; JSON exactly when --json-out is given; CSV when --csv-out is given or JSON is not; "auto" becomes an automatic name |
| WasCli.OptionFor | pytenable_was/cli.py:260-277 | an option is given exactly for a target that runs |
| WasCli.ExportTargetsRoundTrip | pytenable_was/cli.py:260-277 | every choice of exports that runs at least one is produced by the options naming it |

## Left out

- The network, TLS, per-request timeouts and the `requests` library: a server is a function from call, or from request ordinal, to outcome.
- Real time: `time.time` and `time.sleep` become an explicit clock value and a recorded list of sleeps.
- The cache's `threading.Lock`: the cache is modelled sequentially.
- Pydantic validation: a model is the JSON object it was parsed from (`extra="allow"`), and a non-dict fails.
- Models.CacheId: only a non-empty string id is a cache key. For a non-string id, `parse_model` falls back to `WASBaseModel` (models.py:43-47), which keeps the raw id. The source then caches the model under that value, for example the number 5, and a cached listing returns it; a list or dict id raises TypeError in `cache.set` (cache.py:106). The model caches nothing for such an id and raises nothing, because its cache keys are strings. Field types are not validated either, so `ApplicationModel.from_api` does not raise ValidationError on a non-string id.
- Logging and tqdm progress bars are not modelled. They change no result, with one exception: `search` in vulns.py computes `len(vulns)` for its log line, and that can raise, so `Vulns.Search` models it.
- ISO-8601 parsing in `parse_timestamp` is a parameter; `format_iso` is not modelled, because it depends on `datetime` formatting; `timestamp_filename` is not part of this model.
- The text of `str()` of floats and containers, `json.dumps`, and `TenableAPIError.__str__` comes from the opaque `Renderer` parameter.
- Unicode case mapping: `lower()` and `upper()` are modelled for ASCII letters only.
- Reading and writing the configuration file, the atomic rename, `chmod`, and the `getpass`/`input`/`isatty` prompts are not modelled: a command receives the loaded document and the prompted answers.
- The `config` commands `show`, `set-key`, `clear-key` and `reset` only print, prompt, or save a constant document.
- Click and argparse wiring, `_load_http_from_config` and every `click.echo` in both CLIs are not modelled: only the input rules are.
- `export_json`, `export_findings_json`/`_csv`, `export_all_findings_json`/`_csv`, and the JSON and CSV file writers are not modelled: only the rows and headers they would write are.
- `list_scans` and `change_owner_bulk` are called by the CLI but defined in no file of this repository, so pagination and bulk owner changes are not modelled.
- The endpoint-only wrappers (`templates.py`, `user_templates.py`, `configs.py`, `pytenable_was/folders.py`, `notes.py`) are not modelled: they only pick a list out of an answer, the rule `Api` models once.
- `FindingsAPI.sort_by_severity` and `flatten` (findings.py:117-122, 152-157) are not stated again. Each is the cached listing followed by a legacy `utils.py` helper, modelled by `WasUtils.SortBySeverity` and `Utils.FlattenModel`. Both hand the helper `model_dump()` of each `FindingModel`, which fills every declared field the answer lacks (`id`, `scan_id`, `severity`, `plugin_id`, `description`, `evidence`, `url`) with None. The model keeps the answer's dicts as they are, so a sorted finding or a flattened row lacks the None-valued entries for fields the answer left out. The sort order is the same, because `f.get("severity")` is None in both forms. `group_by_severity` (findings.py:124-129) is modelled by `Findings.GroupBySeverity`.
- Legacy `parse_timestamp` (utils.py:96) calls `ts.replace` without `str()`. On a Python object outside JSON, such as a `datetime` whose `str()` is ISO text, it returns None where the v2 helper parses; on JSON values the two agree, as `Utils.LegacyParseTimestamp` states.
- Utils.GroupBySeverity: requires every finding to be a dict whose severity is a string or absent; the AttributeError the legacy helper raises on any other finding is not modelled here. Through `FindingsAPI.group_by_severity` every finding is a `FindingModel`, and there the AttributeError on an absent or null severity is modelled by `Findings.GroupBySeverity`.
- WasUtils.ParseTimestamp: `str()` of a list or dict is not handed to the ISO reader; the result is None directly, because `datetime.fromisoformat` rejects text starting with `[` or `{`.
- In-place mutation and aliasing: `enrich_scans` writes the owner fields into the caller's own scan dicts, but the model returns new values. The one alias a later read can see, the application object that `refresh` mutates after `get_app` cached it, is modelled by `Apps.Refresh` and `Apps.RefreshUpdatesAlias`.
- Users.OwnerOf: keys are compared as JSON values, so Python's collisions between equal keys of different types (`1`, `1.0`, `True`) are not modelled.
- Scans.WaitUntilComplete: a ghost `horizon` argument must name a poll whose clock is past the deadline, so the loop terminates. A clock that never advances, which would make the original loop forever, is not modelled.
- Scans.LaunchAndWait: carries the same horizon precondition as `WaitUntilComplete`.
- Api.ParseAndCache: when an element fails to parse, the contract states only that other namespaces are unchanged, not which earlier models were already cached.

## Findings

| source | as written | input that shows it | evidently intended | confidence | as-written member | corrected member |
|---|---|---|---|---|---|---|
| auth.py:31-33 | `value[-visible:]` with `visible == 0` is the whole key, so the mask is stars followed by the key in clear | `_mask_key("ABCDEFGH", 0)` gives `"********ABCDEFGH"` | a mask as long as the key, showing the last `visible` characters, so none when `visible` is 0 | not executed | Auth.MaskKeyAsWritten, Auth.MaskKeyZeroExample | Auth.MaskKey (with Auth.MaskKeyAgrees and Auth.MaskKeyHidesAll) |

=== FILE: api.dfy ===
/**
  The API as the resource modules see it: each call is a value, the server
  is a function from call to outcome (the decoded JSON, or the error the
  HTTP client raised), and every operation reports the calls it made, in
  order, together with the cache it leaves behind.
*/
module Api {
  import opened Wrappers
  import opened Json
  import opened Errors
  import Cache
  import Dict
  import opened Models

  datatype Call =
    | GetCall(path: string, params: Option<Json>)
    | PostCall(path: string, body: Option<Json>)
    | PutCall(path: string, body: Option<Json>)
    | DeleteCall(path: string)

  type Server = Call -> Result<Json, Error>

  /** An outcome a batch's `except TenableAPIError` does not catch: any other error. */
  predicate Escapes<T>(out: Result<T, Error>) {
    out.Failure? && !out.error.ApiError?
  }

  /** An operation's result, the cache it leaves, and the calls it sent. */
  datatype Effect<T> = Effect(result: Result<T, Error>, store: Cache.Store<Json>, calls: seq<Call>)

  /** An operation's result and the calls it sent, for operations without a cache. */
  datatype Exchange<T> = Exchange(result: Result<T, Error>, calls: seq<Call>)

  /** `if model and model.id: cache.set(ns, model.id, model, ttl=...)`. */
  function Remember(store: Cache.Store<Json>, ns: string, m: Json, ttl: Option<int>, now: real): (r: Cache.Store<Json>)
    ensures CacheId(m).None? ==> r == store
    ensures CacheId(m).Some? ==> Cache.Find(r, ns, CacheId(m).value) == Some(Cache.Entry(m, now, ttl))
    ensures forall k :: Some(k) != CacheId(m) ==> Cache.Find(r, ns, k) == Cache.Find(store, ns, k)
    ensures store.Keys <= r.Keys <= store.Keys + {ns}
    ensures forall n :: n in store && n != ns ==> r[n] == store[n]
  {
    match CacheId(m)
    case None => store
    case Some(id) => Cache.Set(store, ns, id, m, ttl, now)
  }

  /**
    A cache-fronted resource: the namespace its models are cached in, the
    TTL they are cached with, and how a fetched body becomes a model.
  */
  datatype Resource = Resource(ns: string, ttl: Option<int>, parse: Json -> Result<Json, Error>)

  /** A fetched body parsed into a model, which is remembered when it has an id. */
  function Received(res: Resource, store: Cache.Store<Json>, path: string, now: real, out: Result<Json, Error>): (r: Effect<Json>)
    ensures r.calls == [GetCall(path, None)]
    ensures out.Failure? ==> r.result == out
    ensures out.Success? ==> r.result == res.parse(out.value)
    ensures r.result.Success? ==> r.store == Remember(store, res.ns, r.result.value, res.ttl, now)
    ensures r.result.Failure? ==> r.store == store
  {
    var call := GetCall(path, None);
    match out
    case Failure(e) => Effect(Failure(e), store, [call])
    case Success(raw) =>
      match res.parse(raw)
      case Failure(e) => Effect(Failure(e), store, [call])
      case Success(m) => Effect(Success(m), Remember(store, res.ns, m, res.ttl, now), [call])
  }

  /** A live entry under `key` in the resource's namespace at time `now`. */
  predicate LiveHit(res: Resource, store: Cache.Store<Json>, key: string, now: real) {
    Cache.Find(store, res.ns, key).Some? && !Cache.Expired(Cache.Find(store, res.ns, key).value, now)
  }

  /**
    `get_scan` / `get_app`: with the cache, a live entry answers without any
    call; otherwise (after the lookup has evicted a stale entry) the model
    is fetched from `path` and written back.
  */
  function CachedGet(res: Resource, store: Cache.Store<Json>, key: string, path: string, useCache: bool, now: real, server: Server)
    : (r: Effect<Json>)
    ensures useCache && LiveHit(res, store, key, now) ==>
      r == Effect(Success(Cache.Find(store, res.ns, key).value.value), store, [])
    ensures !(useCache && LiveHit(res, store, key, now)) ==>
      r.calls == [GetCall(path, None)]
      && r.result == Received(res, store, path, now, server(GetCall(path, None))).result
    ensures !useCache ==> r == Received(res, store, path, now, server(GetCall(path, None)))
    // a cached miss fetches over the store the lookup left (a stale entry evicted) and writes back there
    ensures useCache && !LiveHit(res, store, key, now) ==>
      r == Received(res, Cache.Get(store, res.ns, key, now).store, path, now, server(GetCall(path, None)))
  {
    if useCache then
      var l := Cache.Get(store, res.ns, key, now);
      match l.result
      case Success(v) => Effect(Success(v), store, [])
      case Failure(_) => Received(res, l.store, path, now, server(GetCall(path, None)))
    else Received(res, store, path, now, server(GetCall(path, None)))
  }

  /**
    Whatever the cache flag, a fetch writes the model back under its own id
    with the resource's TTL and changes no other key of the namespace, and
    no other namespace, except that a cached read first evicts the stale
    entry it found; so after a cached miss, `key` holds an entry only when
    the fetched model carries that id.
  */
  lemma CachedGetWritesBack(res: Resource, store: Cache.Store<Json>, key: string, path: string, useCache: bool, now: real, server: Server)
    requires !(useCache && LiveHit(res, store, key, now))
    ensures var r := CachedGet(res, store, key, path, useCache, now, server);
      r.result.Success? && CacheId(r.result.value).Some? ==>
      Cache.Find(r.store, res.ns, CacheId(r.result.value).value) == Some(Cache.Entry(r.result.value, now, res.ttl))
    ensures var r := CachedGet(res, store, key, path, useCache, now, server);
      forall k :: k != key && (r.result.Failure? || Some(k) != CacheId(r.result.value)) ==>
      Cache.Find(r.store, res.ns, k) == Cache.Find(store, res.ns, k)
    ensures var r := CachedGet(res, store, key, path, useCache, now, server);
      useCache && (r.result.Failure? || CacheId(r.result.value) != Some(key)) ==> Cache.Find(r.store, res.ns, key).None?
    ensures var r := CachedGet(res, store, key, path, useCache, now, server);
      forall n :: n in store && n != res.ns ==> n in r.store && r.store[n] == store[n]
  {
    var out := server(GetCall(path, None));
    var base := if useCache then Cache.Get(store, res.ns, key, now).store else store;
    var r := CachedGet(res, store, key, path, useCache, now, server);
    assert r == Received(res, base, path, now, out);
    assert forall k :: k != key ==> Cache.Find(base, res.ns, k) == Cache.Find(store, res.ns, k);
    assert useCache ==> Cache.Find(base, res.ns, key).None?;
    assert forall n :: n in store && n != res.ns ==> n in base && base[n] == store[n];
  }

  /**
    A model fetched without the cache whose id is the key it was asked for
    is served from the cache, with no call, by any cached read within its
    TTL.
  */
  lemma FetchedIsCached(res: Resource, store: Cache.Store<Json>, key: string, path: string, now: real, later: real,
                        ttl: int, server: Server, server2: Server)
    requires res.ttl == Some(ttl)
    requires var f := CachedGet(res, store, key, path, false, now, server);
      f.result.Success? && CacheId(f.result.value) == Some(key)
    requires now <= later <= now + ttl as real
    ensures var f := CachedGet(res, store, key, path, false, now, server);
      CachedGet(res, f.store, key, path, true, later, server2) == Effect(f.result, f.store, [])
  {
  }

  /** The last model in `models` cached under `k`, if any. */
  function LastWithId(models: seq<Json>, k: string): Option<Json> {
    if |models| == 0 then None
    else match LastWithId(models[1..], k)
      case Some(m) => Some(m)
      case None => if CacheId(models[0]) == Some(k) then Some(models[0]) else None
  }

  /** What `ns:k` holds once `models` were remembered in order over `store`. */
  function CachedAfter(store: Cache.Store<Json>, ns: string, models: seq<Json>, k: string, ttl: Option<int>, now: real): Option<Cache.Entry<Json>> {
    match LastWithId(models, k)
    case Some(m) => Some(Cache.Entry(m, now, ttl))
    case None => Cache.Find(store, ns, k)
  }

  /**
    The listing loop shared by `list_all` of scans and apps: each element is
    parsed in turn and, when it has an id, written to the cache before the
    next one is parsed; the first element that fails to parse raises, after
    the earlier ones were cached.
  */
  function ParseAndCache(store: Cache.Store<Json>, ns: string, items: seq<Json>, parse: Json -> Result<Json, Error>, ttl: Option<int>, now: real)
    : (r: (Result<seq<Json>, Error>, Cache.Store<Json>))
    ensures r.0.Success? <==> forall x <- items :: parse(x).Success?
    ensures r.0.Success? ==>
      |r.0.value| == |items| && forall i :: 0 <= i < |items| ==> r.0.value[i] == parse(items[i]).value
    ensures r.0.Failure? ==> exists x <- items :: parse(x) == Failure(r.0.error)
    ensures store.Keys <= r.1.Keys <= store.Keys + {ns}
    ensures forall n :: n in store && n != ns ==> r.1[n] == store[n]
    // on success, every id ends up holding the last model listed under it; other keys are untouched
    ensures r.0.Success? ==> forall k :: Cache.Find(r.1, ns, k) == CachedAfter(store, ns, r.0.value, k, ttl, now)
    decreases |items|
  {
    if |items| == 0 then (Success([]), store)
    else match parse(items[0])
      case Failure(e) => (Failure(e), store)
      case Success(m) =>
        var s1 := Remember(store, ns, m, ttl, now);
        var rest := ParseAndCache(s1, ns, items[1..], parse, ttl, now);
        assert forall x <- items[1..] :: x in items;
        assert items == [items[0]] + items[1..];
        match rest.0
        case Failure(e) => (Failure(e), rest.1)
        case Success(ms) =>
          var models := [m] + ms;
          assert models[1..] == ms;
          assert forall k :: Cache.Find(rest.1, ns, k) == CachedAfter(store, ns, models, k, ttl, now) by {
            forall k ensures Cache.Find(rest.1, ns, k) == CachedAfter(store, ns, models, k, ttl, now) {
              assert Cache.Find(rest.1, ns, k) == CachedAfter(s1, ns, ms, k, ttl, now);
              if LastWithId(ms, k).None? && Some(k) != CacheId(m) {
                assert Cache.Find(s1, ns, k) == Cache.Find(store, ns, k);
              }
            }
          }
          (Success(models), rest.1)
  }

  /** The namespace holds at least one entry: `list_all` then reads the store instead of the server. */
  predicate Stocked(res: Resource, store: Cache.Store<Json>) {
    res.ns in store && |store[res.ns]| > 0
  }

  /**
    `list_all(use_cache)` of scans and apps: a non-empty namespace is
    returned straight from the store, expired entries included; otherwise
    the list is fetched from `path`, the items are read from the first
    truthy of `keys`, and every element is parsed and cached.
  */
  function CachedList(res: Resource, store: Cache.Store<Json>, path: string, keys: seq<string>, useCache: bool, now: real, server: Server)
    : (r: Effect<seq<Json>>)
    ensures useCache && Stocked(res, store) ==>
      r == Effect(Success(Cache.StoredValues(store, res.ns)), store, [])
    ensures !(useCache && Stocked(res, store)) ==> r.calls == [GetCall(path, None)]
    ensures r.calls != [] && server(GetCall(path, None)).Failure? ==>
      r.result == Failure(server(GetCall(path, None)).error) && r.store == store
    ensures var out := server(GetCall(path, None));
      r.calls != [] && out.Success? && !out.value.JObj? ==>
      r.result == Failure(RuntimeFault("AttributeError", "get")) && r.store == store
    ensures var out := server(GetCall(path, None));
      r.calls != [] && out.Success? && out.value.JObj? ==>
      var elems := Iterate(FirstTruthy(out.value, keys, JList([])));
      (r.result.Success? <==> elems.Success? && forall x <- elems.value :: res.parse(x).Success?)
      && (r.result.Success? ==>
            |r.result.value| == |elems.value|
            && (forall i :: 0 <= i < |elems.value| ==> r.result.value[i] == res.parse(elems.value[i]).value)
            && forall k :: Cache.Find(r.store, res.ns, k) == CachedAfter(store, res.ns, r.result.value, k, res.ttl, now))
  {
    if useCache && Stocked(res, store) then
      Effect(Success(Cache.StoredValues(store, res.ns)), store, [])
    else
      var call := GetCall(path, None);
      match server(call)
      case Failure(e) => Effect(Failure(e), store, [call])
      case Success(raw) =>
        if !raw.JObj? then Effect(Failure(RuntimeFault("AttributeError", "get")), store, [call])
        else
          match Iterate(FirstTruthy(raw, keys, JList([])))
          case Failure(e) => Effect(Failure(e), store, [call])
          case Success(xs) =>
            var pc := ParseAndCache(store, res.ns, xs, res.parse, res.ttl, now);
            Effect(pc.0, pc.1, [call])
  }

  /** A listing with at least one id-carrying model fills the cache, so the next cached listing sends no call. */
  lemma ListingFillsCache(res: Resource, store: Cache.Store<Json>, path: string, keys: seq<string>, now: real, later: real,
                          server: Server, server2: Server)
    requires var r := CachedList(res, store, path, keys, false, now, server);
      r.result.Success? && exists m <- r.result.value :: CacheId(m).Some?
    ensures var r := CachedList(res, store, path, keys, false, now, server);
      CachedList(res, r.store, path, keys, true, later, server2).calls == []
  {
    var r := CachedList(res, store, path, keys, false, now, server);
    var m :| m in r.result.value && CacheId(m).Some?;
    var k := CacheId(m).value;
    LastWithIdSome(r.result.value, m, k);
    assert Cache.Find(r.store, res.ns, k).Some?;
  }

  lemma {:induction false} LastWithIdSome(models: seq<Json>, m: Json, k: string)
    requires m in models && CacheId(m) == Some(k)
    ensures LastWithId(models, k).Some?
    decreases |models|
  {
    if models[0] != m {
      assert m in models[1..];
      LastWithIdSome(models[1..], m, k);
    }
  }

  /**
    The cached listing reads the stored models directly: an entry that a
    cached read already treats as expired is still listed.
  */
  lemma ListingIgnoresExpiry(res: Resource, m: Json, path: string, keys: seq<string>, server: Server)
    requires res.ttl == Some(300)
    ensures var s: Cache.Store<Json> := map[res.ns := [("k", Cache.Entry(m, 0.0, res.ttl))]];
      Cache.Get(s, res.ns, "k", 301.0).result.Failure?
      && CachedList(res, s, path, keys, true, 301.0, server) == Effect(Success([m]), s, [])
  {
    var s: Cache.Store<Json> := map[res.ns := [("k", Cache.Entry(m, 0.0, res.ttl))]];
    Dict.GetAt(s[res.ns], 0);
    assert Cache.StoredValues(s, res.ns) == [m];
  }
}

=== FILE: apps.dfy ===
/**
  `ApplicationsAPI` (apps.py): cache-fronted application reads, the create
  and update request bodies, deletion with eviction, URL management and
  the dashboard summary. Applications are cached for ten minutes.
*/
module Apps {
  import opened Wrappers
  import opened Json
  import opened Errors
  import Dict
  import Cache
  import opened Models
  import opened Api

  const AppsPath: string := "/was/v2/applications"

  function AppPath(id: string): string {
    AppsPath + "/" + id
  }

  function UrlsPath(id: string): string {
    AppPath(id) + "/urls"
  }

  /**
    `ApplicationModel.from_api(data)`: the application with its "urls"
    replaced by the parsed URL models (an absent or falsy list becomes `[]`);
    every other field is kept. Calling `.get` on a non-dict raises.
  */
  function AppFromApi(raw: Json): (r: Result<Json, Error>)
    ensures !raw.JObj? ==> r == Failure(RuntimeFault("AttributeError", "get"))
    ensures raw.JObj? ==>
      var urls := Get(raw, "urls");
      (r.Success? <==>
        !Truthy(urls) || (urls.JList? && forall u <- urls.items :: u.JNull? || u.JObj?))
      && (r.Success? ==>
            r.value == Put(raw, "urls", if Truthy(urls) then urls else JList([])))
  {
    if !raw.JObj? then Failure(RuntimeFault("AttributeError", "get"))
    else
      var listed := FirstTruthy(raw, ["urls"], JList([]));
      assert listed == if Truthy(Get(raw, "urls")) then Get(raw, "urls") else JList([]);
      var urls :- Iterate(listed);
      var parsed :- ParseAll(urls);
      Success(Put(raw, "urls", JList(parsed)))
  }

  /** An application that went through `from_api` once is unchanged by a second pass. */
  lemma AppFromApiIdempotent(raw: Json)
    requires AppFromApi(raw).Success?
    ensures AppFromApi(AppFromApi(raw).value) == AppFromApi(raw)
  {
    var app := AppFromApi(raw).value;
    var urls := Get(app, "urls");
    assert urls.JList? && forall u <- urls.items :: u.JNull? || u.JObj?;
    if Truthy(urls) {
      Dict.PutSame(app.fields, "urls", urls);
    } else {
      assert urls == JList([]);
      Dict.PutSame(app.fields, "urls", JList([]));
    }
  }

  /** Applications are cached for ten minutes under their id, as parsed by `from_api`. */
  const App: Resource := Resource("apps", Some(600), AppFromApi)

  /** `get_app(app_id, use_cache)`. */
  function GetApp(store: Cache.Store<Json>, id: string, useCache: bool, now: real, server: Server): (r: Effect<Json>)
    ensures useCache && LiveHit(App, store, id, now) ==>
      r == Effect(Success(Cache.Find(store, "apps", id).value.value), store, [])
    ensures !(useCache && LiveHit(App, store, id, now)) ==>
      var out := server(GetCall(AppPath(id), None));
      r.calls == [GetCall(AppPath(id), None)]
      && (out.Failure? ==> r.result == out)
      && (out.Success? ==> r.result == AppFromApi(out.value))
    // a fetch writes the model back over the store the lookup left, which without the cache is the store itself
    ensures !(useCache && LiveHit(App, store, id, now)) ==>
      var base := if useCache then Cache.Get(store, "apps", id, now).store else store;
      (r.result.Success? ==> r.store == Remember(base, "apps", r.result.value, Some(600), now))
      && (r.result.Failure? ==> r.store == base)
  {
    CachedGet(App, store, id, AppPath(id), useCache, now, server)
  }

  /** `list_all(use_cache)`: the stored applications, else the "items" (else "applications") list. */
  function ListAll(store: Cache.Store<Json>, useCache: bool, now: real, server: Server): (r: Effect<seq<Json>>)
    ensures useCache && Stocked(App, store) ==>
      r == Effect(Success(Cache.StoredValues(store, "apps")), store, [])
    ensures !(useCache && Stocked(App, store)) ==> r.calls == [GetCall(AppsPath, None)]
    // every listed element must be a dict, and comes back through `from_api`
    ensures var out := server(GetCall(AppsPath, None));
      r.calls != [] && out.Success? && out.value.JObj? && r.result.Success? ==>
      var items := FirstTruthy(out.value, ["items", "applications"], JList([]));
      items.JList? && |r.result.value| == |items.items|
      && forall i :: 0 <= i < |items.items| ==> AppFromApi(items.items[i]) == Success(r.result.value[i])
  {
    CachedList(App, store, AppsPath, ["items", "applications"], useCache, now, server)
  }

  // ---------------------------------------------------------------------
  // Request bodies
  // ---------------------------------------------------------------------

  /** `[{"url": u} for u in urls]`. */
  function UrlEntries(urls: seq<string>): (r: seq<Json>)
    ensures |r| == |urls|
  {
    seq(|urls|, i requires 0 <= i < |urls| => JObj([("url", JStr(urls[i]))]))
  }

  /** The "url" of each entry that has a string one, in order. */
  function EntryUrls(entries: seq<Json>): seq<string> {
    if |entries| == 0 then []
    else (match StrField(entries[0], "url") case Some(u) => [u] case None => []) + EntryUrls(entries[1..])
  }

  /** Reading the entries' "url" fields back gives the URLs they were built from. */
  lemma {:induction false} UrlEntriesRoundTrip(urls: seq<string>)
    ensures EntryUrls(UrlEntries(urls)) == urls
  {
    if |urls| > 0 {
      var e := UrlEntries(urls);
      Dict.GetAt([("url", JStr(urls[0]))], 0);
      assert e[1..] == UrlEntries(urls[1..]);
      UrlEntriesRoundTrip(urls[1..]);
      assert urls == [urls[0]] + urls[1..];
    }
  }

  /** The body `create_app` posts: name and description always, "urls" only for a non-empty list. */
  function CreateBody(name: string, description: string, urls: Option<seq<string>>): (r: Json)
    ensures r.JObj? && Dict.NoDupKeys(r.fields)
    ensures Get(r, "name") == JStr(name) && Get(r, "description") == JStr(description)
    ensures Dict.KeySet(r.fields) == {"name", "description"} + (if urls.Some? && |urls.value| > 0 then {"urls"} else {})
    ensures urls.Some? && |urls.value| > 0 ==>
      Get(r, "urls").JList? && EntryUrls(Get(r, "urls").items) == urls.value
  {
    var base := [("name", JStr(name)), ("description", JStr(description))];
    Dict.GetAt(base, 0);
    Dict.GetAt(base, 1);
    assert Dict.KeySet(base) == {"name", "description"} by {
      Dict.KeySetCons(base[1], []);
      Dict.KeySetCons(base[0], [base[1]]);
      assert base == [base[0]] + [base[1]];
    }
    assert Dict.NoDupKeys(base);
    if urls.Some? && |urls.value| > 0 then
      UrlEntriesRoundTrip(urls.value);
      Put(JObj(base), "urls", JList(UrlEntries(urls.value)))
    else JObj(base)
  }

  /** The body `update_app` posts: exactly the arguments that were given. */
  function UpdateBody(name: Option<string>, description: Option<string>): (r: Json)
    ensures r.JObj? && Dict.NoDupKeys(r.fields)
    ensures "name" in Dict.KeySet(r.fields) <==> name.Some?
    ensures "description" in Dict.KeySet(r.fields) <==> description.Some?
    ensures Dict.KeySet(r.fields) <= {"name", "description"}
    ensures Get(r, "name") == OptStr(name) && Get(r, "description") == OptStr(description)
  {
    var withName := if name.Some? then Put(JObj([]), "name", JStr(name.value)) else JObj([]);
    assert Dict.KeySet(withName.fields) == if name.Some? then {"name"} else {};
    assert "name" != "description";
    if description.Some? then Put(withName, "description", JStr(description.value)) else withName
  }

  /** The response to a create or update, parsed and remembered under its id. */
  function Stored(store: Cache.Store<Json>, call: Call, now: real, server: Server): (r: Effect<Json>)
    ensures r.calls == [call]
    ensures server(call).Failure? ==> r.result == server(call) && r.store == store
    ensures server(call).Success? ==> r.result == AppFromApi(server(call).value)
    ensures r.result.Success? ==> r.store == Remember(store, "apps", r.result.value, Some(600), now)
    ensures r.result.Failure? ==> r.store == store
  {
    match server(call)
    case Failure(e) => Effect(Failure(e), store, [call])
    case Success(raw) =>
      match AppFromApi(raw)
      case Failure(e) => Effect(Failure(e), store, [call])
      case Success(m) => Effect(Success(m), Remember(store, "apps", m, Some(600), now), [call])
  }

  /** `create_app(name, description, urls)`. */
  function CreateApp(store: Cache.Store<Json>, name: string, description: string, urls: Option<seq<string>>, now: real, server: Server)
    : (r: Effect<Json>)
    ensures r.calls == [PostCall(AppsPath, Some(CreateBody(name, description, urls)))]
    // the server's answer, parsed as an application, or its error
    ensures var out := server(PostCall(AppsPath, Some(CreateBody(name, description, urls))));
      (out.Failure? ==> r.result == out) && (out.Success? ==> r.result == AppFromApi(out.value))
    ensures r.result.Success? ==> r.store == Remember(store, "apps", r.result.value, Some(600), now)
    ensures r.result.Failure? ==> r.store == store
  {
    Stored(store, PostCall(AppsPath, Some(CreateBody(name, description, urls))), now, server)
  }

  /** `update_app(app_id, name, description)`: a POST to the application's path. */
  function UpdateApp(store: Cache.Store<Json>, id: string, name: Option<string>, description: Option<string>, now: real, server: Server)
    : (r: Effect<Json>)
    ensures r.calls == [PostCall(AppPath(id), Some(UpdateBody(name, description)))]
    // the server's answer, parsed as an application, or its error
    ensures var out := server(PostCall(AppPath(id), Some(UpdateBody(name, description))));
      (out.Failure? ==> r.result == out) && (out.Success? ==> r.result == AppFromApi(out.value))
    ensures r.result.Success? ==> r.store == Remember(store, "apps", r.result.value, Some(600), now)
    ensures r.result.Failure? ==> r.store == store
  {
    Stored(store, PostCall(AppPath(id), Some(UpdateBody(name, description))), now, server)
  }

  /** `delete_app(app_id)`: the DELETE, then the cache entry is evicted. */
  function DeleteApp(store: Cache.Store<Json>, id: string, server: Server): (r: Effect<()>)
    ensures r.calls == [DeleteCall(AppPath(id))]
    ensures r.result.Success? <==> server(DeleteCall(AppPath(id))).Success?
    ensures r.result.Failure? ==> r.store == store
    ensures r.result.Success? ==>
      Cache.Find(r.store, "apps", id).None?
      && (forall k :: k != id ==> Cache.Find(r.store, "apps", k) == Cache.Find(store, "apps", k))
      && r.store.Keys == store.Keys
  {
    var call := DeleteCall(AppPath(id));
    match server(call)
    case Failure(e) => Effect(Failure(e), store, [call])
    case Success(_) => Effect(Success(()), Cache.Delete(store, "apps", id), [call])
  }

  /** After a delete, `get_app` cannot answer from the cache. */
  lemma DeleteThenGetFetches(store: Cache.Store<Json>, id: string, now: real, server: Server)
    requires DeleteApp(store, id, server).result.Success?
    ensures GetApp(DeleteApp(store, id, server).store, id, true, now, server).calls == [GetCall(AppPath(id), None)]
  {
  }

  // ---------------------------------------------------------------------
  // URL management
  // ---------------------------------------------------------------------

  /** `raw.get("urls") or []`, each element through `parse_model`. */
  function UrlModels(raw: Json): (r: Result<seq<Json>, Error>)
    ensures !raw.JObj? ==> r == Failure(RuntimeFault("AttributeError", "get"))
    ensures raw.JObj? && !Truthy(Get(raw, "urls")) ==> r == Success([])
    ensures raw.JObj? && Get(raw, "urls").JList? ==> r == ParseAll(Get(raw, "urls").items)
  {
    if !raw.JObj? then Failure(RuntimeFault("AttributeError", "get"))
    else
      var urls :- Iterate(FirstTruthy(raw, ["urls"], JList([])));
      ParseAll(urls)
  }

  /** `list_urls(app_id)`. */
  function ListUrls(id: string, server: Server): (r: Exchange<seq<Json>>)
    ensures r.calls == [GetCall(UrlsPath(id), None)]
    ensures var out := server(GetCall(UrlsPath(id), None));
      (out.Failure? ==> r.result == Failure(out.error))
      && (out.Success? ==> r.result == UrlModels(out.value))
  {
    var call := GetCall(UrlsPath(id), None);
    match server(call)
    case Failure(e) => Exchange(Failure(e), [call])
    case Success(raw) => Exchange(UrlModels(raw), [call])
  }

  /** The body `set_urls` posts. */
  function UrlsBody(urls: seq<string>): Json {
    JObj([("urls", JList(UrlEntries(urls)))])
  }

  /**
    The cache refresh at the end of `set_urls`: an uncached `get_app` whose
    failure is ignored; the application it returns, carrying the new URL
    models, is cached under `app_id`. That application is the very object
    `get_app` has just cached under its own id, so the entry there carries
    the new URL models as well.
  */
  function Refresh(store: Cache.Store<Json>, id: string, models: seq<Json>, now: real, server: Server): (r: Effect<()>)
    ensures r.calls == [GetCall(AppPath(id), None)]
    ensures r.result.Success?
    ensures var out := server(GetCall(AppPath(id), None));
      out.Success? && AppFromApi(out.value).Success? ==>
      Cache.Find(r.store, "apps", id) == Some(Cache.Entry(Put(AppFromApi(out.value).value, "urls", JList(models)), now, Some(600)))
    ensures var out := server(GetCall(AppPath(id), None));
      (out.Failure? || AppFromApi(out.value).Failure?) ==> r.store == store
  {
    var g := GetApp(store, id, false, now, server);
    match g.result
    case Failure(_) => Effect(Success(()), store, g.calls)
    case Success(app) =>
      var updated := Put(app, "urls", JList(models));
      Effect(Success(()), Cache.Set(Remember(store, "apps", updated, Some(600), now), "apps", id, updated, Some(600), now), g.calls)
  }

  /**
    The refresh also reaches the entry `get_app` made under the fetched
    application's own id, which holds the same object; no other key of the
    namespace changes.
  */
  lemma RefreshUpdatesAlias(store: Cache.Store<Json>, id: string, models: seq<Json>, now: real, server: Server)
    requires var out := server(GetCall(AppPath(id), None));
      out.Success? && AppFromApi(out.value).Success?
    ensures var app := AppFromApi(server(GetCall(AppPath(id), None)).value).value;
      var r := Refresh(store, id, models, now, server);
      && (CacheId(app).Some? ==>
            Cache.Find(r.store, "apps", CacheId(app).value) == Some(Cache.Entry(Put(app, "urls", JList(models)), now, Some(600))))
      && forall k :: k != id && Some(k) != CacheId(app) ==> Cache.Find(r.store, "apps", k) == Cache.Find(store, "apps", k)
  {
    var app := AppFromApi(server(GetCall(AppPath(id), None)).value).value;
    var updated := Put(app, "urls", JList(models));
    assert Get(updated, "id") == Get(app, "id");
    assert CacheId(updated) == CacheId(app);
    assert Refresh(store, id, models, now, server).store
      == Cache.Set(Remember(store, "apps", updated, Some(600), now), "apps", id, updated, Some(600), now);
  }

  /** `set_urls(app_id, urls)`: posts the new list, returns the URL models, and refreshes the cache. */
  function SetUrls(store: Cache.Store<Json>, id: string, urls: seq<string>, now: real, server: Server): (r: Effect<seq<Json>>)
    ensures var out := server(PostCall(UrlsPath(id), Some(UrlsBody(urls))));
      (out.Failure? ==> r == Effect(Failure(out.error), store, [PostCall(UrlsPath(id), Some(UrlsBody(urls)))]))
      && (out.Success? ==> r.result == UrlModels(out.value))
    ensures r.result.Failure? ==> r.store == store
    ensures r.result.Success? ==>
      var f := Refresh(store, id, r.result.value, now, server);
      r.calls == [PostCall(UrlsPath(id), Some(UrlsBody(urls)))] + f.calls && r.store == f.store
  {
    var call := PostCall(UrlsPath(id), Some(UrlsBody(urls)));
    match server(call)
    case Failure(e) => Effect(Failure(e), store, [call])
    case Success(raw) =>
      match UrlModels(raw)
      case Failure(e) => Effect(Failure(e), store, [call])
      case Success(models) =>
        var f := Refresh(store, id, models, now, server);
        Effect(Success(models), f.store, [call] + f.calls)
  }

  /** After `set_urls` with a successful refresh, a cached read within ten minutes returns the application with the new URLs and sends nothing. */
  lemma SetUrlsThenCachedRead(store: Cache.Store<Json>, id: string, urls: seq<string>, now: real, later: real,
                              server: Server, server2: Server)
    requires SetUrls(store, id, urls, now, server).result.Success?
    requires var out := server(GetCall(AppPath(id), None));
      out.Success? && AppFromApi(out.value).Success?
    requires now <= later <= now + 600.0
    ensures var r := SetUrls(store, id, urls, now, server);
      var app := AppFromApi(server(GetCall(AppPath(id), None)).value).value;
      GetApp(r.store, id, true, later, server2) == Effect(Success(Put(app, "urls", JList(r.result.value))), r.store, [])
  {
  }

  /** `len(x)` of a JSON value; numbers, booleans and `None` have no length. */
  function Len(v: Json): (r: Result<nat, Error>)
    ensures v.JList? ==> r == Success(|v.items|)
    ensures v.JStr? ==> r == Success(|v.s|)
    ensures v.JObj? ==> r == Success(|v.fields|)
    ensures r.Success? <==> Sized(v)
  {
    match v
    case JList(xs) => Success(|xs|)
    case JStr(s) => Success(|s|)
    case JObj(fs) => Success(|fs|)
    case _ => Failure(RuntimeFault("TypeError", "len"))
  }

  /** `len(app.urls or [])`: the number of URLs, 0 when there are none. */
  function UrlCount(app: Json): (r: Result<nat, Error>)
    requires app.JObj?
    ensures !Truthy(Get(app, "urls")) ==> r == Success(0)
    ensures Get(app, "urls").JList? ==> r == Success(|Get(app, "urls").items|)
    ensures r.Failure? <==> Truthy(Get(app, "urls")) && (Get(app, "urls").JBool? || Get(app, "urls").JInt? || Get(app, "urls").JFloat?)
  {
    Len(FirstTruthy(app, ["urls"], JList([])))
  }

  /** The dashboard record `summary` builds from an application; tags default to `[]`. */
  function SummaryOf(app: Json): (r: Result<Json, Error>)
    requires app.JObj?
    ensures r.Success? <==> UrlCount(app).Success?
    ensures r.Success? ==>
      r.value == JObj(SummaryFields(Get(app, "id"), Get(app, "name"), UrlCount(app).value, FirstTruthy(app, ["tags"], JList([]))))
  {
    var n :- UrlCount(app);
    Success(JObj(SummaryFields(Get(app, "id"), Get(app, "name"), n, FirstTruthy(app, ["tags"], JList([])))))
  }

  /** `{"id": .., "name": .., "urls": .., "tags": ..}`. */
  function SummaryFields(id: Json, name: Json, urls: int, tags: Json): (d: Dict.Dict<Json>)
    ensures Dict.Keys(d) == ["id", "name", "urls", "tags"] && Dict.NoDupKeys(d)
    ensures Dict.Get(d, "id") == Some(id) && Dict.Get(d, "name") == Some(name)
    ensures Dict.Get(d, "urls") == Some(JInt(urls)) && Dict.Get(d, "tags") == Some(tags)
  {
    var d := [("id", id), ("name", name), ("urls", JInt(urls)), ("tags", tags)];
    Dict.GetAt(d, 0);
    Dict.GetAt(d, 1);
    Dict.GetAt(d, 2);
    Dict.GetAt(d, 3);
    d
  }

  /** `summary(app_id)`: the (possibly cached) application, summarised. */
  function Summary(store: Cache.Store<Json>, id: string, now: real, server: Server): (r: Effect<Json>)
    ensures var g := GetApp(store, id, true, now, server);
      r.calls == g.calls && r.store == g.store
      && (g.result.Failure? ==> r.result == Failure(g.result.error))
      && (g.result.Success? && g.result.value.JObj? ==> r.result == SummaryOf(g.result.value))
  {
    var g := GetApp(store, id, true, now, server);
    match g.result
    case Failure(e) => Effect(Failure(e), g.store, g.calls)
    case Success(app) =>
      if app.JObj? then Effect(SummaryOf(app), g.store, g.calls)
      else Effect(Failure(RuntimeFault("AttributeError", "id")), g.store, g.calls)
  }
}

=== FILE: auth.dfy ===
/**
  Authentication helpers: the masked form of a key used in log lines, the
  header set every WAS request carries, and credentials read from the
  environment. The environment is a parameter (`os.getenv` as a function
  from variable name to value); logging is not modelled.
*/
module Auth {
  import opened Wrappers
  import opened Errors
  import Text
  import Dict
  import Http

  /** Python's `s[start:]` for any integer `start`: a negative start counts from the end, and both ends clamp. */
  function SliceFrom(s: string, start: int): (r: string)
    ensures start >= 0 ==> r == (if start <= |s| then s[start..] else "")
    ensures start < 0 ==> r == (if -start <= |s| then s[|s| + start..] else s)
  {
    var from := if start < 0 then (if |s| + start < 0 then 0 else |s| + start) else (if start > |s| then |s| else start);
    s[from..]
  }

  /**
    `_mask_key(value, visible)` as written: blank stays blank, a key no
    longer than `visible` is all stars, otherwise stars then
    `value[-visible:]`. With `visible == 0` that slice is the whole key.
  */
  function MaskKeyAsWritten(value: string, visible: int): (r: string)
    ensures value == "" ==> r == ""
    ensures value != "" && |value| <= visible ==> r == Text.Repeat('*', |value|)
    ensures 0 < visible < |value| ==>
      && |r| == |value|
      && (forall i :: 0 <= i < |value| - visible ==> r[i] == '*')
      && r[|value| - visible..] == value[|value| - visible..]
  {
    if value == "" then ""
    else if |value| <= visible then Text.Repeat('*', |value|)
    else Text.Repeat('*', |value| - visible) + SliceFrom(value, -visible)
  }

  /** With `visible == 0` the "masked" key is twice as long and ends with the whole key in clear. */
  lemma MaskKeyZeroLeaks(value: string)
    requires value != ""
    ensures MaskKeyAsWritten(value, 0) == Text.Repeat('*', |value|) + value
    ensures |MaskKeyAsWritten(value, 0)| == 2 * |value|
  {
  }

  /** The smallest instance: `_mask_key("ABCDEFGH", 0)` prints the key. */
  lemma MaskKeyZeroExample()
    ensures MaskKeyAsWritten("ABCDEFGH", 0) == "********ABCDEFGH"
  {
    MaskKeyZeroLeaks("ABCDEFGH");
  }

  /** How many trailing characters the mask shows: `visible`, unless that is not less than the length or not positive. */
  function Shown(len: nat, visible: int): (n: nat)
    ensures n <= len
    ensures n > 0 <==> 0 < visible < len
  {
    if 0 < visible < len then visible else 0
  }

  /**
    The mask as intended: stars in place of every character but the last
    `visible`, which a non-positive `visible` makes none.
  */
  function MaskKey(value: string, visible: int): (r: string)
    ensures |r| == |value|
    ensures forall i :: 0 <= i < |value| - Shown(|value|, visible) ==> r[i] == '*'
    ensures forall i :: |value| - Shown(|value|, visible) <= i < |value| ==> r[i] == value[i]
  {
    var n := Shown(|value|, visible);
    Text.Repeat('*', |value| - n) + value[|value| - n..]
  }

  /** For every positive `visible` the intended mask is the one written. */
  lemma MaskKeyAgrees(value: string, visible: int)
    requires visible > 0
    ensures MaskKey(value, visible) == MaskKeyAsWritten(value, visible)
  {
    if value != "" && |value| <= visible {
      assert MaskKey(value, visible) == Text.Repeat('*', |value|) + [];
    }
  }

  /** A non-positive `visible` hides the key entirely. */
  lemma MaskKeyHidesAll(value: string, visible: int)
    requires visible <= 0
    ensures MaskKey(value, visible) == Text.Repeat('*', |value|)
  {
    assert MaskKey(value, visible) == Text.Repeat('*', |value|) + [];
  }

  const MissingKeys: string := "Both access_key and secret_key are required."

  /** The three headers every request carries. */
  function BaseHeaders(accessKey: string, secretKey: string): (h: Dict.Dict<string>)
    ensures Dict.NoDupKeys(h)
    ensures Dict.KeySet(h) == {"Accept", "Content-Type", "X-ApiKeys"}
    ensures Dict.Get(h, "Accept") == Some("application/json")
    ensures Dict.Get(h, "Content-Type") == Some("application/json")
    ensures Dict.Get(h, "X-ApiKeys") == Some(Http.ApiKeysValue(accessKey, secretKey))
  {
    var h := [("Accept", "application/json"),
              ("Content-Type", "application/json"),
              ("X-ApiKeys", Http.ApiKeysValue(accessKey, secretKey))];
    Dict.GetAt(h, 0);
    Dict.GetAt(h, 1);
    Dict.GetAt(h, 2);
    assert h[0].0 == "Accept" && h[1].0 == "Content-Type" && h[2].0 == "X-ApiKeys";
    h
  }

  /** A header value or header dict given by the caller counts only when truthy. */
  predicate GivenText(s: Option<string>) {
    s.Some? && s.value != ""
  }

  predicate GivenHeaders(d: Option<Dict.Dict<string>>) {
    d.Some? && |d.value| > 0
  }

  /** The base headers and, when one is given, `User-Agent`. */
  function WithAgent(accessKey: string, secretKey: string, userAgent: Option<string>): (h: Dict.Dict<string>)
    ensures Dict.NoDupKeys(h)
    ensures Dict.KeySet(h) == {"Accept", "Content-Type", "X-ApiKeys"} + (if GivenText(userAgent) then {"User-Agent"} else {})
    ensures Dict.Get(h, "User-Agent") == (if GivenText(userAgent) then userAgent else None)
    ensures forall k :: k != "User-Agent" ==> Dict.Get(h, k) == Dict.Get(BaseHeaders(accessKey, secretKey), k)
  {
    var base := BaseHeaders(accessKey, secretKey);
    if GivenText(userAgent) then Dict.Put(base, "User-Agent", userAgent.value) else base
  }

  /**
    `build_headers(access_key, secret_key, extra_headers, user_agent)`:
    both keys must be non-empty; the base headers, then `User-Agent` when
    one is given, then the caller's extra headers, which win over anything
    before them.
  */
  function BuildHeaders(accessKey: string, secretKey: string, extra: Option<Dict.Dict<string>>,
                        userAgent: Option<string>): (r: Result<Dict.Dict<string>, Error>)
    ensures r.Failure? <==> accessKey == "" || secretKey == ""
    ensures r.Failure? ==> r.error == ValueError(MissingKeys)
    ensures r.Success? ==>
      (Dict.KeySet(r.value) == Dict.KeySet(WithAgent(accessKey, secretKey, userAgent))
         + (if GivenHeaders(extra) then Dict.KeySet(extra.value) else {}))
    ensures r.Success? ==> forall k :: !(GivenHeaders(extra) && k in Dict.KeySet(extra.value)) ==>
      Dict.Get(r.value, k) == Dict.Get(WithAgent(accessKey, secretKey, userAgent), k)
  {
    if accessKey == "" || secretKey == "" then Failure(ValueError(MissingKeys))
    else Success(Overlay(WithAgent(accessKey, secretKey, userAgent), extra))
  }

  /** `headers.update(extra_headers)` when the extra headers are given. */
  function Overlay(h: Dict.Dict<string>, extra: Option<Dict.Dict<string>>): (r: Dict.Dict<string>)
    ensures Dict.KeySet(r) == Dict.KeySet(h) + (if GivenHeaders(extra) then Dict.KeySet(extra.value) else {})
    ensures forall k :: !(GivenHeaders(extra) && k in Dict.KeySet(extra.value)) ==> Dict.Get(r, k) == Dict.Get(h, k)
  {
    if GivenHeaders(extra) then Dict.Update(h, extra.value) else h
  }

  /** Every extra header reaches the request as given, whatever the base set says for that name. */
  lemma BuildHeadersExtraWins(accessKey: string, secretKey: string, extra: Dict.Dict<string>,
                              userAgent: Option<string>, k: string)
    requires accessKey != "" && secretKey != ""
    requires Dict.NoDupKeys(extra) && k in Dict.KeySet(extra)
    ensures Dict.Get(BuildHeaders(accessKey, secretKey, Some(extra), userAgent).value, k) == Dict.Get(extra, k)
  {
    assert BuildHeaders(accessKey, secretKey, Some(extra), userAgent).value
      == Dict.Update(WithAgent(accessKey, secretKey, userAgent), extra);
    Dict.UpdateGet(WithAgent(accessKey, secretKey, userAgent), extra, k);
  }

  /** `"Environment variables {access_var} and {secret_var} must be set."` */
  function MissingEnv(accessVar: string, secretVar: string): string {
    "Environment variables " + accessVar + " and " + secretVar + " must be set."
  }

  /**
    `load_credentials_from_env(access_var, secret_var)`: both variables
    must be set to a non-empty value.
  */
  function LoadCredentials(env: string -> Option<string>, accessVar: string, secretVar: string)
    : (r: Result<(string, string), Error>)
    ensures r.Success? <==> GivenText(env(accessVar)) && GivenText(env(secretVar))
    ensures r.Failure? ==> r.error == ValueError(MissingEnv(accessVar, secretVar))
    ensures r.Success? ==> r.value == (env(accessVar).value, env(secretVar).value)
  {
    var a, s := env(accessVar), env(secretVar);
    if !GivenText(a) || !GivenText(s) then Failure(ValueError(MissingEnv(accessVar, secretVar)))
    else Success((a.value, s.value))
  }

  /** Credentials loaded from the environment always build a header set carrying them. */
  lemma LoadedCredentialsBuild(env: string -> Option<string>, accessVar: string, secretVar: string,
                               extra: Option<Dict.Dict<string>>, userAgent: Option<string>)
    requires LoadCredentials(env, accessVar, secretVar).Success?
    ensures var (a, s) := LoadCredentials(env, accessVar, secretVar).value;
      && BuildHeaders(a, s, extra, userAgent).Success?
      && (!GivenHeaders(extra) ==>
            Dict.Get(BuildHeaders(a, s, extra, userAgent).value, "X-ApiKeys") == Some(Http.ApiKeysValue(a, s)))
  {
  }
}

=== FILE: cache.dfy ===
/**
  `InMemoryCache`: named namespaces, each an insertion-ordered dict of
  entries carrying a value, the time it was stored and an optional TTL.
  Expiry is lazy: only `Get` notices it, and evicts the one stale key.
  The clock is an explicit `now` argument; the lock is not modelled.
*/
module Cache {
  import opened Wrappers
  import Dict
  import opened Errors

  /** One cached value, stamped with the time it was stored. `ttl == None` never expires. */
  datatype Entry<V> = Entry(value: V, timestamp: real, ttl: Option<int>)

  type Store<V> = map<string, Dict.Dict<Entry<V>>>

  /** A lookup's outcome together with the store it leaves behind. */
  datatype Lookup<V> = Lookup(result: Result<V, Error>, store: Store<V>)

  /** `CacheEntry.expired()` at time `now`: strictly more than `ttl` seconds old. */
  predicate Expired<V>(e: Entry<V>, now: real) {
    e.ttl.Some? && now - e.timestamp > e.ttl.value as real
  }

  /** The entry under `key` in namespace `ns`, if both exist. */
  function Find<V>(s: Store<V>, ns: string, key: string): Option<Entry<V>> {
    if ns in s then Dict.Get(s[ns], key) else None
  }

  /** The namespaces a fresh cache starts with, all empty. */
  const InitialNamespaces: set<string> := {"scans", "apps", "findings", "urls", "raw"}

  function Init<V>(): (s: Store<V>)
    ensures s.Keys == InitialNamespaces
    ensures forall ns :: ns in s ==> s[ns] == []
  {
    map ns | ns in InitialNamespaces :: []
  }

  /** `get(namespace, key)` at time `now`. */
  function Get<V>(s: Store<V>, ns: string, key: string, now: real): (r: Lookup<V>)
    // a missing namespace or key: a miss, nothing changes
    ensures Find(s, ns, key).None? ==>
      r.result == Failure(CacheKeyError(ns + ":" + key)) && r.store == s
    // a live entry: its value, nothing changes
    ensures Find(s, ns, key).Some? && !Expired(Find(s, ns, key).value, now) ==>
      r.result == Success(Find(s, ns, key).value.value) && r.store == s
    // an expired entry: a miss, and exactly that key is evicted
    ensures Find(s, ns, key).Some? && Expired(Find(s, ns, key).value, now) ==>
      r.result == Failure(CacheKeyError(ns + ":" + key + " (expired)"))
      && r.store.Keys == s.Keys
      && Dict.Get(r.store[ns], key).None?
      && (forall k :: k != key ==> Dict.Get(r.store[ns], k) == Dict.Get(s[ns], k))
      && (forall n :: n in s && n != ns ==> r.store[n] == s[n])
  {
    match Find(s, ns, key)
    case None => Lookup(Failure(CacheKeyError(ns + ":" + key)), s)
    case Some(e) =>
      if Expired(e, now) then
        Lookup(Failure(CacheKeyError(ns + ":" + key + " (expired)")), s[ns := Dict.Remove(s[ns], key)])
      else Lookup(Success(e.value), s)
  }

  /** `set(namespace, key, value, ttl)` at time `now`: creates the namespace if needed, overwrites. */
  function Set<V>(s: Store<V>, ns: string, key: string, value: V, ttl: Option<int>, now: real): (r: Store<V>)
    ensures r.Keys == s.Keys + {ns}
    ensures Find(r, ns, key) == Some(Entry(value, now, ttl))
    ensures forall k :: k != key ==> Find(r, ns, k) == Find(s, ns, k)
    ensures forall n :: n in s && n != ns ==> r[n] == s[n]
  {
    var d := if ns in s then s[ns] else [];
    s[ns := Dict.Put(d, key, Entry(value, now, ttl))]
  }

  /** `delete(namespace, key)`: removes the key when present; otherwise nothing changes. */
  function Delete<V>(s: Store<V>, ns: string, key: string): (r: Store<V>)
    ensures Find(s, ns, key).None? ==> r == s
    ensures r.Keys == s.Keys
    ensures Find(r, ns, key).None?
    ensures forall k :: k != key ==> Find(r, ns, k) == Find(s, ns, k)
    ensures forall n :: n in s && n != ns ==> r[n] == s[n]
  {
    if ns in s && Dict.Get(s[ns], key).Some? then s[ns := Dict.Remove(s[ns], key)] else s
  }

  /** `clear_namespace(namespace)`: empties an existing namespace and keeps its name. */
  function ClearNamespace<V>(s: Store<V>, ns: string): (r: Store<V>)
    ensures r.Keys == s.Keys
    ensures ns in s ==> r[ns] == []
    ensures forall n :: n in s && n != ns ==> r[n] == s[n]
  {
    if ns in s then s[ns := []] else s
  }

  /** `clear_all()`: every namespace emptied, every name kept. */
  function ClearAll<V>(s: Store<V>): (r: Store<V>)
    ensures r.Keys == s.Keys
    ensures forall n :: n in r ==> r[n] == []
  {
    map n | n in s :: []
  }

  /** The entries `items` written, in order, into namespace dict `d` with one timestamp and TTL. */
  function WarmInto<V>(d: Dict.Dict<Entry<V>>, items: Dict.Dict<V>, ttl: Option<int>, now: real): (r: Dict.Dict<Entry<V>>)
    ensures Dict.KeySet(r) == Dict.KeySet(d) + Dict.KeySet(items)
    ensures forall k :: k !in Dict.KeySet(items) ==> Dict.Get(r, k) == Dict.Get(d, k)
    // each key of the batch holds its value, stamped `now` with the batch's TTL
    ensures Dict.NoDupKeys(items) ==>
      forall k :: k in Dict.KeySet(items) ==> Dict.Get(r, k) == Some(Entry(Dict.Get(items, k).value, now, ttl))
    decreases |items|
  {
    if |items| == 0 then d
    else
      Dict.KeySetCons(items[0], items[1..]);
      assert items == [items[0]] + items[1..];
      Dict.ConsGets(items[0], items[1..]);
      assert Dict.NoDupKeys(items) ==> Dict.NoDupKeys(items[1..]) && items[0].0 !in Dict.KeySet(items[1..]) by {
        if Dict.NoDupKeys(items) { Dict.NoDupHead(items); }
      }
      WarmInto(Dict.Put(d, items[0].0, Entry(items[0].1, now, ttl)), items[1..], ttl, now)
  }

  /**
    `warm(namespace, items, ttl)`: like a series of `Set`s, except that the
    namespace must already exist; an unknown namespace raises `KeyError` on
    the first item, so an empty batch never fails.
  */
  function Warm<V>(s: Store<V>, ns: string, items: Dict.Dict<V>, ttl: Option<int>, now: real): (r: Result<Store<V>, Error>)
    ensures r.Failure? <==> ns !in s && |items| > 0
    ensures r.Failure? ==> r.error == RuntimeFault("KeyError", ns)
    ensures r.Success? ==> r.value.Keys == s.Keys
    ensures r.Success? && ns in s ==>
      Dict.KeySet(r.value[ns]) == Dict.KeySet(s[ns]) + Dict.KeySet(items)
    ensures r.Success? ==> forall n :: n in s && n != ns ==> r.value[n] == s[n]
    // the batch's keys hold their values with the batch's stamp; every other key is as it was
    ensures r.Success? && Dict.NoDupKeys(items) ==>
      forall k :: k in Dict.KeySet(items) ==> Find(r.value, ns, k) == Some(Entry(Dict.Get(items, k).value, now, ttl))
    ensures r.Success? ==> forall k :: k !in Dict.KeySet(items) ==> Find(r.value, ns, k) == Find(s, ns, k)
  {
    if ns !in s then
      if |items| == 0 then Success(s) else Failure(RuntimeFault("KeyError", ns))
    else Success(s[ns := WarmInto(s[ns], items, ttl, now)])
  }

  /** The `list(store[ns].values())` view that some callers read directly, bypassing expiry. */
  function StoredValues<V>(s: Store<V>, ns: string): (r: seq<V>)
    requires ns in s
    ensures |r| == |s[ns]|
    ensures forall i :: 0 <= i < |r| ==> r[i] == s[ns][i].1.value
  {
    seq(|s[ns]|, i requires 0 <= i < |s[ns]| => s[ns][i].1.value)
  }

  // ---------------------------------------------------------------------
  // Properties relating several operations
  // ---------------------------------------------------------------------

  /** An entry stored without TTL is returned by `Get` at any time whatsoever. */
  lemma NoTtlNeverExpires<V>(s: Store<V>, ns: string, key: string, value: V, setAt: real, now: real)
    ensures Get(Set(s, ns, key, value, None, setAt), ns, key, now).result == Success(value)
  {
  }

  /**
    With a TTL, the entry is live exactly while the time since it was stored
    is at most the TTL; strictly beyond it, `Get` misses and evicts it.
  */
  lemma TtlBoundary<V>(s: Store<V>, ns: string, key: string, value: V, ttl: int, setAt: real, now: real)
    ensures var l := Get(Set(s, ns, key, value, Some(ttl), setAt), ns, key, now);
      (now - setAt <= ttl as real ==> l.result == Success(value))
      && (now - setAt > ttl as real ==>
            l.result == Failure(CacheKeyError(ns + ":" + key + " (expired)"))
            && Find(l.store, ns, key).None?)
  {
  }

  /** After an expired hit, the next `Get` of that key is a plain miss. */
  lemma ExpiredThenMiss<V>(s: Store<V>, ns: string, key: string, now: real, later: real)
    requires Find(s, ns, key).Some? && Expired(Find(s, ns, key).value, now)
    ensures var l := Get(s, ns, key, now);
      Get(l.store, ns, key, later) == Lookup(Failure(CacheKeyError(ns + ":" + key)), l.store)
  {
  }

  /** `Set` and `Delete` in namespace `a` never change what `Get` answers in another namespace `b`. */
  lemma NamespaceIsolation<V>(s: Store<V>, a: string, b: string, key: string, k: string, value: V, ttl: Option<int>, setAt: real, now: real)
    requires a != b
    ensures Get(Set(s, a, key, value, ttl, setAt), b, k, now).result == Get(s, b, k, now).result
    ensures Get(Delete(s, a, key), b, k, now).result == Get(s, b, k, now).result
  {
  }

  /** Deleting what was just set leaves the key absent, whatever the namespace held before. */
  lemma SetThenDelete<V>(s: Store<V>, ns: string, key: string, value: V, ttl: Option<int>, setAt: real, now: real)
    ensures Get(Delete(Set(s, ns, key, value, ttl, setAt), ns, key), ns, key, now).result
      == Failure(CacheKeyError(ns + ":" + key))
  {
  }

  /** A fresh cache accepts `Warm` for its five namespaces and rejects any other non-empty batch. */
  lemma WarmOnFreshCache<V>(ns: string, items: Dict.Dict<V>, ttl: Option<int>, now: real)
    requires |items| > 0
    ensures Warm(Init<V>(), ns, items, ttl, now).Success? <==> ns in InitialNamespaces
  {
  }

  /** `Set` succeeds where `Warm` of the same single item fails: on a namespace not yet present. */
  lemma SetCreatesWhatWarmRejects<V>(s: Store<V>, ns: string, key: string, value: V, ttl: Option<int>, now: real)
    requires ns !in s
    ensures Warm(s, ns, [(key, value)], ttl, now).Failure?
    ensures Find(Set(s, ns, key, value, ttl, now), ns, key) == Some(Entry(value, now, ttl))
  {
  }
}

=== FILE: config.dfy ===
/**
  The `config` command group of the stand-alone CLI: the stored settings
  are a JSON document (`api_key`, `proxy_url`, `proxy_username`,
  `proxy_password`, `proxy_auth`), edited by one command at a time. Reading
  and writing the file, prompting and echoing are not modelled: a command
  is given the loaded document and the (already prompted) input, and yields
  the document it would save, or the exception it raises.

  The proxy-URL normaliser and the proxy-auth rule defined here are shared
  with the SDK's own `config` group (module `WasConfig`), which repeats them
  with a different message.
*/
module Config {
  import opened Wrappers
  import opened Json
  import opened Errors
  import Text
  import Dict

  // ---------------------------------------------------------------------
  // Proxy URL
  // ---------------------------------------------------------------------

  const BadProxyUrl: string := "Proxy URL must start with http:// or https://"

  /** `s.lower().startswith(scheme)`. */
  predicate HasScheme(s: string, scheme: string) {
    Text.StartsWith(Text.Lower(s), scheme)
  }

  /**
    `_normalize_proxy_url(url)`: surrounding whitespace goes, the scheme
    must be `http://` or `https://` in any letter case and is rewritten in
    lower case, and the rest of the URL is kept as it is.
  */
  function NormalizeProxyUrl(url: string): (r: Result<string, Error>)
    ensures r.Success? <==> HasScheme(Text.Strip(url), "http://") || HasScheme(Text.Strip(url), "https://")
    ensures r.Failure? ==> r.error == ClickException(BadProxyUrl)
    ensures HasScheme(Text.Strip(url), "http://") ==> r == Success("http://" + Text.Strip(url)[7..])
    ensures !HasScheme(Text.Strip(url), "http://") && HasScheme(Text.Strip(url), "https://") ==>
      r == Success("https://" + Text.Strip(url)[8..])
  {
    var u := Text.Strip(url);
    if HasScheme(u, "http://") then Success("http://" + u[7..])
    else if HasScheme(u, "https://") then Success("https://" + u[8..])
    else Failure(ClickException(BadProxyUrl))
  }

  /** A normalised URL: no surrounding whitespace and a lower-case `http://` or `https://`. */
  predicate NormalUrl(u: string) {
    Text.NoEdgeSpace(u) && (Text.StartsWith(u, "http://") || Text.StartsWith(u, "https://"))
  }

  /** Lower-casing keeps a lower-case prefix in place. */
  lemma LowerKeepsScheme(u: string, scheme: string)
    requires Text.StartsWith(u, scheme) && Text.Lower(scheme) == scheme
    ensures Text.StartsWith(Text.Lower(u), scheme)
  {
    assert Text.Lower(u)[..|scheme|] == Text.Lower(scheme);
  }

  /** Whatever the normaliser accepts comes out normal: surrounding spaces gone, scheme in lower case. */
  lemma NormalizeIsNormal(url: string)
    requires NormalizeProxyUrl(url).Success?
    ensures NormalUrl(NormalizeProxyUrl(url).value)
  {
    var u := Text.Strip(url);
    var r := NormalizeProxyUrl(url).value;
    var n := if HasScheme(u, "http://") then 7 else 8;
    assert r[n..] == u[n..];
    assert r[..n] == Text.Lower(u)[..n];
    assert |r| == |u|;
    assert r[0] == 'h';
    assert r[|r| - 1] == u[|u| - 1];
  }

  /** A normal URL is its own normal form. */
  lemma NormalUrlFixed(u: string)
    requires NormalUrl(u)
    ensures NormalizeProxyUrl(u) == Success(u)
  {
    Text.StripOfNoEdgeSpace(u);
    if Text.StartsWith(u, "http://") {
      LowerKeepsScheme(u, "http://");
      assert u == "http://" + u[7..];
    } else {
      LowerKeepsScheme(u, "https://");
      assert Text.Lower(u)[4] == 's';
      assert u == "https://" + u[8..];
    }
  }

  /** Normalising twice is normalising once. */
  lemma NormalizeIdempotent(url: string)
    requires NormalizeProxyUrl(url).Success?
    ensures NormalizeProxyUrl(NormalizeProxyUrl(url).value) == NormalizeProxyUrl(url)
  {
    NormalizeIsNormal(url);
    NormalUrlFixed(NormalizeProxyUrl(url).value);
  }

  // ---------------------------------------------------------------------
  // The settings document
  // ---------------------------------------------------------------------

  /** `cfg[k]` on the loaded document: only a dict can be indexed by a string, and the key must be there. */
  function Index(cfg: Json, k: string): (r: Result<Json, Error>)
    ensures r.Success? <==> cfg.JObj? && k in Dict.KeySet(cfg.fields)
    ensures r.Success? ==> Dict.Get(cfg.fields, k) == Some(r.value)
    ensures r.Failure? && cfg.JObj? ==> r.error == RuntimeFault("KeyError", k)
  {
    if !cfg.JObj? then Failure(RuntimeFault("TypeError", "subscript"))
    else match Dict.Get(cfg.fields, k)
      case None => Failure(RuntimeFault("KeyError", k))
      case Some(v) => Success(v)
  }

  /** The document holds the three keys the proxy-auth rule reads. */
  predicate HasProxyBlock(cfg: Json) {
    cfg.JObj? && "proxy_auth" in Dict.KeySet(cfg.fields)
    && "proxy_username" in Dict.KeySet(cfg.fields) && "proxy_password" in Dict.KeySet(cfg.fields)
  }

  /** The value a document holds under a key it has. */
  function Setting(cfg: Json, k: string): Json
    requires cfg.JObj? && k in Dict.KeySet(cfg.fields)
  {
    Dict.Get(cfg.fields, k).value
  }

  /** A document's proxy-auth settings, read off the values it holds. */
  lemma SettingsOf(c: Json, auth: Json, user: Json, pw: Json)
    requires c.JObj?
    requires Dict.Get(c.fields, "proxy_auth") == Some(auth)
    requires Dict.Get(c.fields, "proxy_username") == Some(user)
    requires Dict.Get(c.fields, "proxy_password") == Some(pw)
    ensures HasProxyBlock(c)
    ensures Setting(c, "proxy_auth") == auth && Setting(c, "proxy_username") == user && Setting(c, "proxy_password") == pw
  {
  }

  /** The proxy-auth rule: authentication on needs a username and a password. */
  predicate ProxyBlockValid(cfg: Json)
    requires HasProxyBlock(cfg)
  {
    Truthy(Setting(cfg, "proxy_auth")) ==> Truthy(Setting(cfg, "proxy_username")) && Truthy(Setting(cfg, "proxy_password"))
  }

  /**
    The proxy-auth check both CLIs run, raising `ClickException(message)`:
    `proxy_auth` first, then `proxy_username`, then `proxy_password`, each
    read only when the ones before it did not decide. `None` means it passes.
  */
  function CheckProxyBlock(cfg: Json, message: string): (r: Option<Error>)
    ensures HasProxyBlock(cfg) ==> (r.None? <==> ProxyBlockValid(cfg))
    ensures HasProxyBlock(cfg) && r.Some? ==> r.value == ClickException(message)
    ensures !cfg.JObj? ==> r.Some? && r.value.RuntimeFault?
  {
    match Index(cfg, "proxy_auth")
    case Failure(e) => Some(e)
    case Success(auth) =>
      if !Truthy(auth) then None
      else match Index(cfg, "proxy_username")
        case Failure(e) => Some(e)
        case Success(user) =>
          if !Truthy(user) then Some(ClickException(message))
          else match Index(cfg, "proxy_password")
            case Failure(e) => Some(e)
            case Success(pw) => if !Truthy(pw) then Some(ClickException(message)) else None
  }

  const InvalidProxyAuth: string := "Proxy authentication enabled but username/password not set."

  /** `_validate_proxy_components(config)`. */
  function ValidateProxyComponents(cfg: Json): (r: Option<Error>)
    ensures HasProxyBlock(cfg) ==> (r.None? <==> ProxyBlockValid(cfg))
    ensures HasProxyBlock(cfg) && r.Some? ==> r.value == ClickException(InvalidProxyAuth)
  {
    CheckProxyBlock(cfg, InvalidProxyAuth)
  }

  /** `_default_config()`: every setting unset and authentication off. */
  function DefaultConfig(): (r: Json)
    ensures r.JObj? && Dict.NoDupKeys(r.fields) && |r.fields| == 5
    ensures HasProxyBlock(r) && "api_key" in Dict.KeySet(r.fields) && "proxy_url" in Dict.KeySet(r.fields)
    ensures Get(r, "api_key") == JNull && Get(r, "proxy_url") == JNull
    ensures Get(r, "proxy_username") == JNull && Get(r, "proxy_password") == JNull
    ensures Get(r, "proxy_auth") == JBool(false)
  {
    var d := [("api_key", JNull), ("proxy_url", JNull), ("proxy_username", JNull),
              ("proxy_password", JNull), ("proxy_auth", JBool(false))];
    Dict.GetAt(d, 0);
    Dict.GetAt(d, 1);
    Dict.GetAt(d, 2);
    Dict.GetAt(d, 3);
    Dict.GetAt(d, 4);
    JObj(d)
  }

  /** The default document passes the proxy-auth rule. */
  lemma DefaultValid()
    ensures HasProxyBlock(DefaultConfig()) && ValidateProxyComponents(DefaultConfig()).None?
  {
  }

  // ---------------------------------------------------------------------
  // Commands
  // ---------------------------------------------------------------------

  /** `cfg[k] = v` on the settings of a loaded document. */
  function Store(d: Dict.Dict<Json>, k: string, v: Json): (r: Dict.Dict<Json>)
    ensures Dict.Get(r, k) == Some(v)
    ensures forall k' :: k' != k ==> Dict.Get(r, k') == Dict.Get(d, k')
  {
    Dict.Put(d, k, v)
  }

  /** Item assignment on a loaded document that is not a dict. */
  const NotADict: Error := RuntimeFault("TypeError", "item assignment")

  /** `set-proxy URL`: the normalised URL is stored; a bad URL raises before the document is touched. */
  function SetProxy(url: string, cfg: Json): (r: Result<Json, Error>)
    ensures NormalizeProxyUrl(url).Failure? ==> r == Failure(ClickException(BadProxyUrl))
    ensures NormalizeProxyUrl(url).Success? ==> (r.Success? <==> cfg.JObj?)
    ensures r.Success? ==> r.value.JObj? && Dict.Get(r.value.fields, "proxy_url") == Some(JStr(NormalizeProxyUrl(url).value))
    ensures r.Success? ==> forall k :: k != "proxy_url" ==> Dict.Get(r.value.fields, k) == Dict.Get(cfg.fields, k)
  {
    var normalized :- NormalizeProxyUrl(url);
    if !cfg.JObj? then Failure(NotADict) else Success(JObj(Store(cfg.fields, "proxy_url", JStr(normalized))))
  }

  /** The four keys `clear-proxy` writes. */
  predicate ProxyKey(k: string) {
    k == "proxy_url" || AuthKey(k)
  }

  /** `clear-proxy`: URL, username and password become `None` and authentication is off; nothing else changes. */
  function ClearProxy(cfg: Json): (r: Result<Json, Error>)
    ensures r.Success? <==> cfg.JObj?
    ensures r.Success? ==> (r.value.JObj?
      && Dict.Get(r.value.fields, "proxy_url") == Some(JNull)
      && Dict.Get(r.value.fields, "proxy_username") == Some(JNull)
      && Dict.Get(r.value.fields, "proxy_password") == Some(JNull)
      && Dict.Get(r.value.fields, "proxy_auth") == Some(JBool(false)))
  {
    if !cfg.JObj? then Failure(NotADict)
    else
      var d := Store(cfg.fields, "proxy_url", JNull);
      var d := Store(d, "proxy_username", JNull);
      var d := Store(d, "proxy_password", JNull);
      Success(JObj(Store(d, "proxy_auth", JBool(false))))
  }

  /** The three keys `clear-proxy-auth` and `set-proxy-auth` write. */
  predicate AuthKey(k: string) {
    k == "proxy_auth" || k == "proxy_username" || k == "proxy_password"
  }

  /** `clear-proxy-auth`: authentication off and the credentials gone; the proxy URL and the API key stay. */
  function ClearProxyAuth(cfg: Json): (r: Result<Json, Error>)
    ensures r.Success? <==> cfg.JObj?
    ensures r.Success? ==> (r.value.JObj?
      && Dict.Get(r.value.fields, "proxy_auth") == Some(JBool(false))
      && Dict.Get(r.value.fields, "proxy_username") == Some(JNull)
      && Dict.Get(r.value.fields, "proxy_password") == Some(JNull))
  {
    if !cfg.JObj? then Failure(NotADict)
    else
      var d := Store(cfg.fields, "proxy_auth", JBool(false));
      var d := Store(d, "proxy_username", JNull);
      Success(JObj(Store(d, "proxy_password", JNull)))
  }

  /** `clear-proxy` writes only its four keys: the API key and anything else stay as they were. */
  lemma ClearProxyKeeps(cfg: Json, k: string)
    requires cfg.JObj? && !ProxyKey(k)
    ensures Dict.Get(ClearProxy(cfg).value.fields, k) == Dict.Get(cfg.fields, k)
  {
    var d1 := Store(cfg.fields, "proxy_url", JNull);
    var d2 := Store(d1, "proxy_username", JNull);
    var d3 := Store(d2, "proxy_password", JNull);
    assert ClearProxy(cfg).value.fields == Store(d3, "proxy_auth", JBool(false));
    assert k != "proxy_url" && k != "proxy_username" && k != "proxy_password" && k != "proxy_auth";
    assert Dict.Get(d3, k) == Dict.Get(d2, k) == Dict.Get(d1, k) == Dict.Get(cfg.fields, k);
  }

  /** `clear-proxy-auth` writes only its three keys: the proxy URL and the API key stay as they were. */
  lemma ClearProxyAuthKeeps(cfg: Json, k: string)
    requires cfg.JObj? && !AuthKey(k)
    ensures Dict.Get(ClearProxyAuth(cfg).value.fields, k) == Dict.Get(cfg.fields, k)
  {
    var d1 := Store(cfg.fields, "proxy_auth", JBool(false));
    var d2 := Store(d1, "proxy_username", JNull);
    assert ClearProxyAuth(cfg).value.fields == Store(d2, "proxy_password", JNull);
  }

  /** Storing proxy credentials writes only the three authentication keys. */
  lemma WithProxyAuthKeeps(user: string, pw: string, cfg: Json, k: string)
    requires cfg.JObj? && !AuthKey(k)
    ensures Dict.Get(WithProxyAuth(user, pw, cfg).value.fields, k) == Dict.Get(cfg.fields, k)
  {
    var d1 := Store(cfg.fields, "proxy_username", JStr(user));
    var d2 := Store(d1, "proxy_password", JStr(pw));
    assert WithProxyAuth(user, pw, cfg).value.fields == Store(d2, "proxy_auth", JBool(true));
  }

  /** Clearing the proxy always leaves a document that passes the proxy-auth rule. */
  lemma ClearProxyValid(cfg: Json)
    requires cfg.JObj?
    ensures HasProxyBlock(ClearProxy(cfg).value) && ValidateProxyComponents(ClearProxy(cfg).value).None?
  {
    assert Setting(ClearProxy(cfg).value, "proxy_auth") == JBool(false);
  }

  /** So does clearing only the proxy's authentication. */
  lemma ClearProxyAuthValid(cfg: Json)
    requires cfg.JObj?
    ensures HasProxyBlock(ClearProxyAuth(cfg).value) && ValidateProxyComponents(ClearProxyAuth(cfg).value).None?
  {
    assert Setting(ClearProxyAuth(cfg).value, "proxy_auth") == JBool(false);
  }

  /** The document `set-proxy-auth` validates: the credentials stored and authentication on. */
  function WithProxyAuth(user: string, pw: string, cfg: Json): (r: Result<Json, Error>)
    ensures r.Success? <==> cfg.JObj?
    ensures r.Success? ==> (r.value.JObj?
      && Dict.Get(r.value.fields, "proxy_username") == Some(JStr(user))
      && Dict.Get(r.value.fields, "proxy_password") == Some(JStr(pw))
      && Dict.Get(r.value.fields, "proxy_auth") == Some(JBool(true)))
  {
    if !cfg.JObj? then Failure(NotADict)
    else
      var d := Store(cfg.fields, "proxy_username", JStr(user));
      var d := Store(d, "proxy_password", JStr(pw));
      Success(JObj(Store(d, "proxy_auth", JBool(true))))
  }

  /**
    `set-proxy-auth`, given the two prompted answers: each is stripped and
    must not be blank (the username is checked before the password is
    asked for); then the credentials are stored, authentication is turned
    on and the document is validated before it is saved.
  */
  function SetProxyAuth(username: string, password: string, cfg: Json): (r: Result<Json, Error>)
    ensures Text.Strip(username) == "" ==> r == Failure(ClickException("Proxy username cannot be empty."))
    ensures Text.Strip(username) != "" && Text.Strip(password) == "" ==>
      r == Failure(ClickException("Proxy password cannot be empty."))
    ensures r.Success? ==> r == WithProxyAuth(Text.Strip(username), Text.Strip(password), cfg)
  {
    var user := Text.Strip(username);
    if user == "" then Failure(ClickException("Proxy username cannot be empty."))
    else
      var pw := Text.Strip(password);
      if pw == "" then Failure(ClickException("Proxy password cannot be empty."))
      else
        var updated :- WithProxyAuth(user, pw, cfg);
        match ValidateProxyComponents(updated)
        case Some(e) => Failure(e)
        case None => Success(updated)
  }

  /** Stored non-blank credentials with authentication on pass the proxy-auth rule. */
  lemma WithProxyAuthValid(user: string, pw: string, cfg: Json)
    requires user != "" && pw != "" && cfg.JObj?
    ensures HasProxyBlock(WithProxyAuth(user, pw, cfg).value)
    ensures ProxyBlockValid(WithProxyAuth(user, pw, cfg).value)
    ensures ValidateProxyComponents(WithProxyAuth(user, pw, cfg).value).None?
  {
    var c := WithProxyAuth(user, pw, cfg).value;
    SettingsOf(c, JBool(true), JStr(user), JStr(pw));
    assert Truthy(JStr(user)) && Truthy(JStr(pw));
  }

  /**
    The validation inside `set-proxy-auth` never fires: the command
    succeeds exactly when both answers are non-blank and the document is a
    dict, and what it saves passes the proxy-auth rule.
  */
  lemma SetProxyAuthValid(username: string, password: string, cfg: Json)
    ensures SetProxyAuth(username, password, cfg).Success? <==>
      Text.Strip(username) != "" && Text.Strip(password) != "" && cfg.JObj?
    ensures SetProxyAuth(username, password, cfg).Success? ==>
      HasProxyBlock(SetProxyAuth(username, password, cfg).value) && ProxyBlockValid(SetProxyAuth(username, password, cfg).value)
  {
    var user, pw := Text.Strip(username), Text.Strip(password);
    if user != "" && pw != "" {
      if cfg.JObj? {
        WithProxyAuthValid(user, pw, cfg);
        assert SetProxyAuth(username, password, cfg) == WithProxyAuth(user, pw, cfg);
      } else {
        assert WithProxyAuth(user, pw, cfg).Failure?;
      }
    }
  }
}

=== FILE: csvsafe.dfy ===
/**
  The "CSV-safe" flattening the plugin and findings exports share: each
  top-level value becomes something one CSV cell can hold. `None` stays
  `None`, strings, numbers and booleans stay as they are, a list becomes
  the `", "`-joined `str()` of its elements and a nested object becomes its
  `json.dumps` text. Unlike the dot-path `flatten_dict`, keys never change.
*/
module CsvSafe {
  import opened Wrappers
  import opened Json
  import opened Errors
  import Text
  import Dict

  /** A value a CSV cell holds as it is: neither a list nor an object. */
  predicate Cell(v: Json) {
    !v.JList? && !v.JObj?
  }

  /** `str(v) for v in xs`. */
  function Strs(xs: seq<Json>, render: Renderer): (r: seq<string>)
    ensures |r| == |xs|
    ensures forall i :: 0 <= i < |xs| ==> r[i] == PyStr(xs[i], render)
  {
    seq(|xs|, i requires 0 <= i < |xs| => PyStr(xs[i], render))
  }

  /** The cell one value becomes. */
  function FlattenValue(v: Json, render: Renderer): (r: Json)
    ensures Cell(r)
    ensures Cell(v) ==> r == v
    ensures v.JList? ==> r == JStr(Text.Join(", ", Strs(v.items, render)))
    ensures v.JObj? ==> r == JStr(render.dumps(v))
  {
    match v
    case JList(xs) => JStr(Text.Join(", ", Strs(xs, render)))
    case JObj(_) => JStr(render.dumps(v))
    case _ => v
  }

  /** Every value of a dict made CSV-safe, key by key, in the dict's order. */
  function FlattenFields(d: Dict.Dict<Json>, render: Renderer): (r: Dict.Dict<Json>)
    ensures Dict.Keys(r) == Dict.Keys(d)
    ensures forall p <- r :: Cell(p.1)
  {
    seq(|d|, i requires 0 <= i < |d| => (d[i].0, FlattenValue(d[i].1, render)))
  }

  /** `_flatten_object(obj)` / `_flatten_dict(obj)`: only a dict has `.items()`. */
  function FlattenObject(obj: Json, render: Renderer): (r: Result<Json, Error>)
    ensures r.Failure? <==> !obj.JObj?
    ensures r.Failure? ==> r.error == RuntimeFault("AttributeError", "items")
    ensures r.Success? ==> r.value.JObj? && Dict.Keys(r.value.fields) == Dict.Keys(obj.fields)
    ensures r.Success? ==> forall p <- r.value.fields :: Cell(p.1)
  {
    if obj.JObj? then Success(JObj(FlattenFields(obj.fields, render)))
    else Failure(RuntimeFault("AttributeError", "items"))
  }

  /** `[flatten(o) for o in objs]`: one flat row per object, in order; a non-dict fails the batch. */
  function FlattenEach(objs: seq<Json>, render: Renderer): (r: Result<seq<Json>, Error>)
    ensures r.Success? <==> forall o <- objs :: o.JObj?
    ensures r.Failure? ==> r.error == RuntimeFault("AttributeError", "items")
    ensures r.Success? ==>
      |r.value| == |objs| && forall i :: 0 <= i < |objs| ==> Success(r.value[i]) == FlattenObject(objs[i], render)
  {
    if forall o <- objs :: o.JObj? then
      Success(seq(|objs|, i requires 0 <= i < |objs| => JObj(FlattenFields(objs[i].fields, render))))
    else Failure(RuntimeFault("AttributeError", "items"))
  }

  // ---------------------------------------------------------------------
  // Properties
  // ---------------------------------------------------------------------

  /** Looking a key up after flattening is flattening the value looked up before. */
  lemma {:induction false} FlattenFieldsGet(d: Dict.Dict<Json>, k: string, render: Renderer)
    ensures Dict.Get(FlattenFields(d, render), k) ==
      (if Dict.Get(d, k).Some? then Some(FlattenValue(Dict.Get(d, k).value, render)) else None)
    decreases |d|
  {
    if |d| > 0 {
      var r := FlattenFields(d, render);
      assert r[0] == (d[0].0, FlattenValue(d[0].1, render));
      assert r[1..] == FlattenFields(d[1..], render);
      FlattenFieldsGet(d[1..], k, render);
    }
  }

  /** Flattening twice is flattening once: a flat row is already CSV-safe. */
  lemma FlattenFieldsIdempotent(d: Dict.Dict<Json>, render: Renderer)
    ensures FlattenFields(FlattenFields(d, render), render) == FlattenFields(d, render)
  {
    var r := FlattenFields(d, render);
    forall i | 0 <= i < |r|
      ensures FlattenFields(r, render)[i] == r[i]
    {
      assert r[i] in r;
      assert Dict.Keys(r)[i] == r[i].0;
    }
  }

  /** A row whose values are all cells is its own flattening. */
  lemma FlattenFieldsOfCells(d: Dict.Dict<Json>, render: Renderer)
    requires forall p <- d :: Cell(p.1)
    ensures FlattenFields(d, render) == d
  {
    var r := FlattenFields(d, render);
    forall i | 0 <= i < |d|
      ensures r[i] == d[i]
    {
      assert d[i] in d;
      assert Dict.Keys(r)[i] == d[i].0;
    }
  }
}

=== FILE: dict.dfy ===
/**
  Python's insertion-ordered `dict` with string keys, as an association list.
  `Put` is `d[k] = v` (overwrite in place, else append), `Remove` is `del d[k]`,
  `Update` is `d.update(other)`.
*/
module Dict {
  import opened Wrappers

  type Dict<V> = seq<(string, V)>

  function KeySet<V>(d: Dict<V>): set<string> {
    set i | 0 <= i < |d| :: d[i].0
  }

  /** Keys in insertion order (`list(d.keys())`). */
  function Keys<V>(d: Dict<V>): seq<string> {
    seq(|d|, i requires 0 <= i < |d| => d[i].0)
  }

  /** Values in insertion order (`list(d.values())`). */
  function Values<V>(d: Dict<V>): seq<V> {
    seq(|d|, i requires 0 <= i < |d| => d[i].1)
  }

  /** Every key occurs once, as in any real Python dict. */
  predicate NoDupKeys<V>(d: Dict<V>) {
    forall i, j :: 0 <= i < j < |d| ==> d[i].0 != d[j].0
  }

  /** `d.get(k)`: the value stored under `k`, if any. */
  function Get<V>(d: Dict<V>, k: string): (r: Option<V>)
    ensures r.Some? <==> k in KeySet(d)
    ensures r.Some? ==> exists i :: 0 <= i < |d| && d[i].0 == k && d[i].1 == r.value
  {
    if |d| == 0 then None
    else if d[0].0 == k then Some(d[0].1)
    else
      var r := Get(d[1..], k);
      assert KeySet(d) == {d[0].0} + KeySet(d[1..]) by {
        forall x | x in KeySet(d) ensures x in {d[0].0} + KeySet(d[1..]) {
          var i :| 0 <= i < |d| && d[i].0 == x;
          if i > 0 { assert d[1..][i - 1].0 == x; }
        }
        forall x | x in KeySet(d[1..]) ensures x in KeySet(d) {
          var i :| 0 <= i < |d[1..]| && d[1..][i].0 == x;
          assert d[i + 1].0 == x;
        }
      }
      assert r.Some? ==> exists i :: 0 <= i < |d| && d[i].0 == k && d[i].1 == r.value by {
        if r.Some? {
          var i :| 0 <= i < |d[1..]| && d[1..][i].0 == k && d[1..][i].1 == r.value;
          assert d[i + 1].0 == k && d[i + 1].1 == r.value;
        }
      }
      r
  }

  lemma KeySetCons<V>(kv: (string, V), d: Dict<V>)
    ensures KeySet([kv] + d) == {kv.0} + KeySet(d)
  {
    var e := [kv] + d;
    forall x | x in KeySet(e) ensures x in {kv.0} + KeySet(d) {
      var i :| 0 <= i < |e| && e[i].0 == x;
      if i > 0 { assert d[i - 1].0 == x; }
    }
    forall x | x in KeySet(d) ensures x in KeySet(e) {
      var i :| 0 <= i < |d| && d[i].0 == x;
      assert e[i + 1].0 == x;
    }
    assert e[0].0 == kv.0;
  }

  /** In a dict without duplicates the head key does not recur in the tail. */
  lemma NoDupHead<V>(d: Dict<V>)
    requires NoDupKeys(d) && |d| > 0
    ensures d[0].0 !in KeySet(d[1..])
    ensures NoDupKeys(d[1..])
  {
    forall i | 0 <= i < |d[1..]|
      ensures d[1..][i].0 != d[0].0
    {
      assert d[1..][i] == d[i + 1];
    }
  }

  lemma NoDupCons<V>(kv: (string, V), t: Dict<V>)
    requires NoDupKeys(t) && kv.0 !in KeySet(t)
    ensures NoDupKeys([kv] + t)
  {
    var r := [kv] + t;
    forall i, j | 0 <= i < j < |r|
      ensures r[i].0 != r[j].0
    {
      assert r[j] == t[j - 1];
      if i > 0 {
        assert r[i] == t[i - 1];
      }
    }
  }

  /** Looking a key up in a dict with a given first entry. */
  lemma ConsGets<V>(kv: (string, V), t: Dict<V>)
    ensures forall k :: Get([kv] + t, k) == if kv.0 == k then Some(kv.1) else Get(t, k)
  {
    assert ([kv] + t)[0] == kv && ([kv] + t)[1..] == t;
  }

  /** The entries of `d` after `d[k] = v`: the first entry under `k` is replaced, else one is appended. */
  function Assign<V>(d: Dict<V>, k: string, v: V): Dict<V> {
    if |d| == 0 then [(k, v)]
    else if d[0].0 == k then [(k, v)] + d[1..]
    else [d[0]] + Assign(d[1..], k, v)
  }

  lemma {:induction false} AssignGet<V>(d: Dict<V>, k: string, v: V)
    ensures Get(Assign(d, k, v), k) == Some(v)
    ensures forall k' :: k' != k ==> Get(Assign(d, k, v), k') == Get(d, k')
  {
    if |d| == 0 {
      ConsGets((k, v), d);
    } else {
      assert d == [d[0]] + d[1..];
      ConsGets(d[0], d[1..]);
      if d[0].0 == k {
        ConsGets((k, v), d[1..]);
      } else {
        AssignGet(d[1..], k, v);
        ConsGets(d[0], Assign(d[1..], k, v));
      }
    }
  }

  lemma {:induction false} AssignKeys<V>(d: Dict<V>, k: string, v: V)
    ensures KeySet(Assign(d, k, v)) == KeySet(d) + {k}
    ensures k in KeySet(d) ==> |Assign(d, k, v)| == |d|
    ensures k !in KeySet(d) ==> Assign(d, k, v) == d + [(k, v)]
  {
    if |d| == 0 {
      KeySetCons((k, v), d);
    } else {
      assert d == [d[0]] + d[1..];
      KeySetCons(d[0], d[1..]);
      if d[0].0 == k {
        KeySetCons((k, v), d[1..]);
      } else {
        var t := Assign(d[1..], k, v);
        AssignKeys(d[1..], k, v);
        KeySetCons(d[0], t);
        if k !in KeySet(d) {
          assert [d[0]] + t == [d[0]] + (d[1..] + [(k, v)]) == d + [(k, v)];
        }
      }
    }
  }

  lemma {:induction false} AssignNoDup<V>(d: Dict<V>, k: string, v: V)
    ensures NoDupKeys(d) ==> NoDupKeys(Assign(d, k, v))
  {
    if |d| > 0 && NoDupKeys(d) {
      NoDupHead(d);
      if d[0].0 == k {
        NoDupCons((k, v), d[1..]);
      } else {
        AssignNoDup(d[1..], k, v);
        AssignKeys(d[1..], k, v);
        NoDupCons(d[0], Assign(d[1..], k, v));
      }
    }
  }

  lemma {:induction false} AssignElements<V>(d: Dict<V>, k: string, v: V)
    ensures forall p <- Assign(d, k, v) :: p == (k, v) || p in d
  {
    if |d| > 0 {
      var r := Assign(d, k, v);
      if d[0].0 == k {
        forall p <- r ensures p == (k, v) || p in d {
          if p != (k, v) {
            var i :| 0 <= i < |r| && r[i] == p;
            assert d[i] == p;
          }
        }
      } else {
        AssignElements(d[1..], k, v);
        forall p <- r ensures p == (k, v) || p in d {
          if p != d[0] {
            assert p in Assign(d[1..], k, v);
          }
        }
      }
    }
  }

  /** `d[k] = v`. */
  function Put<V>(d: Dict<V>, k: string, v: V): (r: Dict<V>)
    ensures Get(r, k) == Some(v)
    ensures forall k' :: k' != k ==> Get(r, k') == Get(d, k')
    ensures KeySet(r) == KeySet(d) + {k}
    ensures k in KeySet(d) ==> |r| == |d|
    ensures k !in KeySet(d) ==> r == d + [(k, v)]
    ensures NoDupKeys(d) ==> NoDupKeys(r)
    ensures forall p <- r :: p == (k, v) || p in d
  {
    AssignGet(d, k, v);
    AssignKeys(d, k, v);
    AssignNoDup(d, k, v);
    AssignElements(d, k, v);
    Assign(d, k, v)
  }

  /** `d.pop(k, None)`: every entry under `k` goes, the rest keep their order. */
  function Remove<V>(d: Dict<V>, k: string): (r: Dict<V>)
    ensures Get(r, k) == None
    ensures forall k' :: k' != k ==> Get(r, k') == Get(d, k')
    ensures KeySet(r) == KeySet(d) - {k}
    ensures k !in KeySet(d) ==> r == d
    ensures NoDupKeys(d) ==> NoDupKeys(r)
    ensures |r| <= |d|
  {
    if |d| == 0 then d
    else
      var t := Remove(d[1..], k);
      KeySetCons(d[0], d[1..]);
      assert d == [d[0]] + d[1..];
      if d[0].0 == k then
        assert NoDupKeys(d) ==> NoDupKeys(d[1..]) by {
          if NoDupKeys(d) { NoDupHead(d); }
        }
        t
      else
        var r := [d[0]] + t;
        KeySetCons(d[0], t);
        assert NoDupKeys(d) ==> NoDupKeys(r) by {
          if NoDupKeys(d) {
            NoDupHead(d);
            NoDupCons(d[0], t);
          }
        }
        r
  }

  /** `d.update(other)`: each pair of `other`, in order, written with `Put`. */
  function Update<V>(d: Dict<V>, other: Dict<V>): (r: Dict<V>)
    ensures KeySet(r) == KeySet(d) + KeySet(other)
    ensures forall k :: k !in KeySet(other) ==> Get(r, k) == Get(d, k)
    ensures NoDupKeys(d) ==> NoDupKeys(r)
    ensures forall p <- r :: p in d || p in other
    decreases |other|
  {
    if |other| == 0 then d
    else
      KeySetCons(other[0], other[1..]);
      assert other == [other[0]] + other[1..];
      Update(Put(d, other[0].0, other[0].1), other[1..])
  }

  /** After `d.update(other)`, every key of `other` holds `other`'s value. */
  lemma {:induction false} UpdateGet<V>(d: Dict<V>, other: Dict<V>, k: string)
    requires NoDupKeys(other) && k in KeySet(other)
    ensures Get(Update(d, other), k) == Get(other, k)
    decreases |other|
  {
    var kv, rest := other[0], other[1..];
    KeySetCons(kv, rest);
    assert other == [kv] + rest;
    ConsGets(kv, rest);
    NoDupHead(other);
    if kv.0 != k {
      UpdateGet(Put(d, kv.0, kv.1), rest, k);
    }
  }

  /** After `d.update(other)`, a key holds `other`'s value when `other` has it, and `d`'s otherwise. */
  lemma UpdateGets<V>(d: Dict<V>, other: Dict<V>)
    requires NoDupKeys(other)
    ensures forall k :: Get(Update(d, other), k) == if k in KeySet(other) then Get(other, k) else Get(d, k)
  {
    forall k | k in KeySet(other) ensures Get(Update(d, other), k) == Get(other, k) {
      UpdateGet(d, other, k);
    }
  }

  /** A prefix of a dict without duplicate keys has none either, and none of the keys after it. */
  lemma NoDupPrefix<V>(a: Dict<V>, b: Dict<V>)
    requires NoDupKeys(a + b)
    ensures NoDupKeys(a)
    ensures |b| > 0 ==> b[0].0 !in KeySet(a)
  {
    var ab := a + b;
    forall i, j | 0 <= i < j < |a| ensures a[i].0 != a[j].0 {
      assert ab[i] == a[i] && ab[j] == a[j];
    }
    if |b| > 0 {
      forall i | 0 <= i < |a| ensures a[i].0 != b[0].0 {
        assert ab[i] == a[i] && ab[|a|] == b[0];
      }
    }
  }

  lemma GetAt<V>(d: Dict<V>, i: nat)
    requires NoDupKeys(d) && i < |d|
    ensures Get(d, d[i].0) == Some(d[i].1)
  {
    if i > 0 {
      assert d[1..][i - 1] == d[i];
      assert NoDupKeys(d[1..]);
      GetAt(d[1..], i - 1);
    }
  }

  /** Writing the value a key already holds changes nothing. */
  lemma {:induction false} PutSame<V>(d: Dict<V>, k: string, v: V)
    requires Get(d, k) == Some(v)
    ensures Put(d, k, v) == d
  {
    if d[0].0 != k {
      PutSame(d[1..], k, v);
      assert d == [d[0]] + d[1..];
    }
  }
}

=== FILE: errors.dfy ===
/**
  The exceptions the SDK raises, as values. `ApiError` is `TenableAPIError`
  (message, optional status code, optional payload); the others are the
  built-in or framework exceptions the modelled code raises.
*/
module Errors {
  import opened Wrappers
  import Json
  import Text

  /** An error payload: the decoded JSON body, or the raw text when it is not JSON. */
  datatype Payload = PJson(json: Json.Json) | PText(text: string)

  /**
    The message of a `TenableAPIError`: plain text, or the legacy client's
    f-string `"HTTP {status}: {payload}"`, kept structured because `str()`
    of an arbitrary payload is not modelled.
  */
  datatype Message = Plain(text: string) | HttpStatus(status: int, payload: Payload)

  datatype Error =
    | ApiError(message: Message, statusCode: Option<int>, payload: Option<Payload>)
    | CacheKeyError(key: string)
    | ValueError(text: string)
    | ClickException(text: string)
    | TimeoutError(text: string)
    /** A Python runtime failure (`KeyError`, `AttributeError`, ...) on an input of the wrong shape. */
    | RuntimeFault(kind: string, detail: string)

  /** `TenableAPIError(msg)` with neither status code nor payload. */
  function Api(msg: string): (e: Error)
    ensures e.ApiError? && e.message == Plain(msg)
    ensures e.statusCode.None? && e.payload.None?
  {
    ApiError(Plain(msg), None, None)
  }

  /** `str(payload)`: the raw text, or Python's rendering of the decoded body. */
  function PayloadText(p: Payload, render: Json.Renderer): string {
    match p
    case PText(t) => t
    case PJson(j) => Json.PyStr(j, render)
  }

  /** Python truthiness of a payload. */
  predicate PayloadGiven(p: Option<Payload>) {
    p.Some? && (match p.value case PText(t) => t != "" case PJson(j) => Json.Truthy(j))
  }

  function MessageText(m: Message, render: Json.Renderer): string {
    match m
    case Plain(t) => t
    case HttpStatus(s, p) => "HTTP " + Text.IntToDecimal(s) + ": " + PayloadText(p, render)
  }

  /**
    `str(exc)` of a `TenableAPIError`: the message, prefixed with
    `[HTTP <code>] ` when the status code is truthy and followed by
    ` | Payload: <payload>` when the payload is.
  */
  function Describe(e: Error, render: Json.Renderer): (r: string)
    requires e.ApiError?
    ensures e.statusCode.Some? && e.statusCode.value != 0 ==>
      Text.StartsWith(r, "[HTTP " + Text.IntToDecimal(e.statusCode.value) + "] " + MessageText(e.message, render))
    ensures !(e.statusCode.Some? && e.statusCode.value != 0) ==> Text.StartsWith(r, MessageText(e.message, render))
    ensures !(e.statusCode.Some? && e.statusCode.value != 0) && !PayloadGiven(e.payload) ==> r == MessageText(e.message, render)
  {
    var base := MessageText(e.message, render);
    var withCode := if e.statusCode.Some? && e.statusCode.value != 0
      then "[HTTP " + Text.IntToDecimal(e.statusCode.value) + "] " + base else base;
    if PayloadGiven(e.payload) then withCode + " | Payload: " + PayloadText(e.payload.value, render) else withCode
  }
}

=== FILE: findings.dfy ===
/**
  `FindingsAPI` (findings.py): the per-scan findings set, cached for ten
  minutes under the scan id, single findings looked up in that set before
  the server is asked, filtering, and the per-severity summary.
*/
module Findings {
  import opened Wrappers
  import opened Text
  import opened Json
  import opened Errors
  import Dict
  import Cache
  import opened Models
  import opened Api
  import opened WasUtils
  import Utils

  function FindingsPath(scanId: string): string {
    "/was/v2/scans/" + scanId + "/findings"
  }

  function FindingPath(scanId: string, findingId: string): string {
    FindingsPath(scanId) + "/" + findingId
  }

  /** A `FindingsSet`: the scan id and the findings, in order. */
  function SetOf(scanId: string, findings: seq<Json>): (r: Json)
    ensures r.JObj? && Get(r, "scan_id") == JStr(scanId) && Get(r, "findings") == JList(findings)
  {
    var d := [("scan_id", JStr(scanId)), ("findings", JList(findings))];
    Dict.GetAt(d, 0);
    Dict.GetAt(d, 1);
    JObj(d)
  }

  /** `FindingsSet.from_api(scan_id, data)`: every element must become a finding model, so each must be a dict. */
  function FromApi(scanId: string, items: seq<Json>): (r: Result<Json, Error>)
    ensures r.Success? <==> forall f <- items :: f.JObj?
    ensures r.Success? ==> r.value == SetOf(scanId, items)
  {
    if forall f <- items :: f.JObj? then Success(SetOf(scanId, items))
    else Failure(RuntimeFault("ValidationError", "findings"))
  }

  /** What `FromApi` builds: the scan id, and findings that are all models. */
  predicate IsFindingsSet(v: Json, scanId: string) {
    v.JObj? && Get(v, "scan_id") == JStr(scanId) && Get(v, "findings").JList?
    && forall f <- Get(v, "findings").items :: f.JObj?
  }

  /** A live findings set for `scanId` at time `now`. */
  predicate LiveSet(store: Cache.Store<Json>, scanId: string, now: real) {
    Cache.Find(store, "findings", scanId).Some? && !Cache.Expired(Cache.Find(store, "findings", scanId).value, now)
  }

  /** The fetch behind `list_findings`: "findings" else "items", always cached under the scan id. */
  function FetchSet(store: Cache.Store<Json>, scanId: string, now: real, server: Server): (r: Effect<Json>)
    ensures r.calls == [GetCall(FindingsPath(scanId), None)]
    ensures var out := server(GetCall(FindingsPath(scanId), None));
      (out.Failure? ==> r.result == out)
      && (out.Success? && !out.value.JObj? ==> r.result == Failure(RuntimeFault("AttributeError", "get")))
      && (out.Success? && out.value.JObj? ==>
            var elems := Iterate(FirstTruthy(out.value, ["findings", "items"], JList([])));
            (r.result.Success? <==> elems.Success? && forall f <- elems.value :: f.JObj?)
            && (r.result.Success? ==> r.result.value == SetOf(scanId, elems.value)))
    ensures r.result.Success? ==> IsFindingsSet(r.result.value, scanId)
    ensures r.result.Failure? ==> r.store == store
    ensures r.result.Success? ==> r.store == Cache.Set(store, "findings", scanId, r.result.value, Some(600), now)
  {
    var call := GetCall(FindingsPath(scanId), None);
    match server(call)
    case Failure(e) => Effect(Failure(e), store, [call])
    case Success(raw) =>
      if !raw.JObj? then Effect(Failure(RuntimeFault("AttributeError", "get")), store, [call])
      else
        match Iterate(FirstTruthy(raw, ["findings", "items"], JList([])))
        case Failure(e) => Effect(Failure(e), store, [call])
        case Success(items) =>
          match FromApi(scanId, items)
          case Failure(e) => Effect(Failure(e), store, [call])
          case Success(fset) => Effect(Success(fset), Cache.Set(store, "findings", scanId, fset, Some(600), now), [call])
  }

  /** `list_findings(scan_id, use_cache)`: a live cached set answers without a call; otherwise fetch and cache. */
  function ListFindings(store: Cache.Store<Json>, scanId: string, useCache: bool, now: real, server: Server): (r: Effect<Json>)
    ensures useCache && LiveSet(store, scanId, now) ==>
      r == Effect(Success(Cache.Find(store, "findings", scanId).value.value), store, [])
    ensures !(useCache && LiveSet(store, scanId, now)) ==>
      r.calls == [GetCall(FindingsPath(scanId), None)]
      && r.result == FetchSet(store, scanId, now, server).result
    ensures !useCache ==> r == FetchSet(store, scanId, now, server)
    // a fetched set is written back over the store the lookup left (a stale set evicted)
    ensures !(useCache && LiveSet(store, scanId, now)) ==>
      var base := if useCache then Cache.Get(store, "findings", scanId, now).store else store;
      (r.result.Failure? ==> r.store == base)
      && (r.result.Success? ==> r.store == Cache.Set(base, "findings", scanId, r.result.value, Some(600), now))
  {
    if useCache then
      var l := Cache.Get(store, "findings", scanId, now);
      match l.result
      case Success(v) => Effect(Success(v), store, [])
      case Failure(_) => FetchSet(l.store, scanId, now, server)
    else FetchSet(store, scanId, now, server)
  }

  /** A set fetched without the cache is what a cached `list_findings` returns, with no call, for ten minutes. */
  lemma ListedSetIsCached(store: Cache.Store<Json>, scanId: string, now: real, later: real, server: Server, server2: Server)
    requires ListFindings(store, scanId, false, now, server).result.Success?
    requires now <= later <= now + 600.0
    ensures var f := ListFindings(store, scanId, false, now, server);
      ListFindings(f.store, scanId, true, later, server2) == Effect(f.result, f.store, [])
  {
  }

  /**
    The `for f in fset.findings: if f.id == finding_id` scan over a cached
    set: the first finding with that id; an element that is not a model
    raises, which ends the search unanswered.
  */
  function FirstWithId(findings: seq<Json>, findingId: string): (r: Option<Json>)
    ensures r.Some? ==> r.value in findings && r.value.JObj? && Get(r.value, "id") == JStr(findingId)
    ensures (forall f <- findings :: f.JObj?) ==>
      (r.Some? <==> exists f <- findings :: Get(f, "id") == JStr(findingId))
  {
    if |findings| == 0 then None
    else if !findings[0].JObj? then None
    else if Get(findings[0], "id") == JStr(findingId) then Some(findings[0])
    else
      var r := FirstWithId(findings[1..], findingId);
      assert forall f <- findings[1..] :: f in findings;
      assert forall f <- findings :: f == findings[0] || f in findings[1..];
      r
  }

  /** The finding a cached set answers with, if any. */
  function FromCachedSet(fset: Json, findingId: string): Option<Json> {
    if fset.JObj? && Get(fset, "findings").JList? then FirstWithId(Get(fset, "findings").items, findingId) else None
  }

  /** `get_finding(scan_id, finding_id, use_cache)`. */
  function GetFinding(store: Cache.Store<Json>, scanId: string, findingId: string, useCache: bool, now: real, server: Server)
    : (r: Effect<Json>)
    // a live cached set holding the finding answers without a call
    ensures (useCache && LiveSet(store, scanId, now)
             && FromCachedSet(Cache.Find(store, "findings", scanId).value.value, findingId).Some?) ==>
      r == Effect(Success(FromCachedSet(Cache.Find(store, "findings", scanId).value.value, findingId).value), store, [])
    // otherwise the finding itself is fetched; nothing is cached
    ensures r.calls != [] ==>
      var out := server(GetCall(FindingPath(scanId, findingId), None));
      r.calls == [GetCall(FindingPath(scanId, findingId), None)]
      && (out.Failure? ==> r.result == out)
      && (out.Success? ==> r.result == ParseModel(out.value))
    ensures !useCache ==> r.store == store && r.calls != []
    // a miss (no live set, or none holding the id) falls through to the fetch, over the store the lookup left
    ensures !(useCache && LiveSet(store, scanId, now)
              && FromCachedSet(Cache.Find(store, "findings", scanId).value.value, findingId).Some?) ==>
      r.calls == [GetCall(FindingPath(scanId, findingId), None)]
      && r.store == (if useCache then Cache.Get(store, "findings", scanId, now).store else store)
  {
    var call := GetCall(FindingPath(scanId, findingId), None);
    var st :=
      if useCache then
        var l := Cache.Get(store, "findings", scanId, now);
        if l.result.Success? then
          match FromCachedSet(l.result.value, findingId)
          case Some(f) => Some(f)
          case None => None
        else None
      else None;
    match st
    case Some(f) => Effect(Success(f), store, [])
    case None =>
      var after := if useCache then Cache.Get(store, "findings", scanId, now).store else store;
      match server(call)
      case Failure(e) => Effect(Failure(e), after, [call])
      case Success(raw) => Effect(ParseModel(raw), after, [call])
  }

  /** A set fetched without the cache is live in the cache right afterwards. */
  lemma FetchedSetIsLive(store: Cache.Store<Json>, scanId: string, now: real, server: Server)
    requires ListFindings(store, scanId, false, now, server).result.Success?
    ensures var f := ListFindings(store, scanId, false, now, server);
      LiveSet(f.store, scanId, now) && Cache.Find(f.store, "findings", scanId).value.value == f.result.value
      && IsFindingsSet(f.result.value, scanId)
  {
  }

  /** A live cached set holding a finding with the id answers `get_finding` with no call. */
  lemma CachedSetAnswers(store: Cache.Store<Json>, scanId: string, findingId: string, now: real, server: Server)
    requires LiveSet(store, scanId, now)
    requires var v := Cache.Find(store, "findings", scanId).value.value;
      IsFindingsSet(v, scanId) && exists x <- Get(v, "findings").items :: Get(x, "id") == JStr(findingId)
    ensures GetFinding(store, scanId, findingId, true, now, server).calls == []
  {
    var v := Cache.Find(store, "findings", scanId).value.value;
    assert FromCachedSet(v, findingId).Some?;
  }

  /** A finding listed in a set fetched without the cache is then answered from the cache, with no call. */
  lemma ListedFindingIsCached(store: Cache.Store<Json>, scanId: string, findingId: string, now: real, server: Server, server2: Server)
    requires var f := ListFindings(store, scanId, false, now, server);
      f.result.Success? && FindingsOf(f.result.value).Success?
      && exists x <- FindingsOf(f.result.value).value :: Get(x, "id") == JStr(findingId)
    ensures var f := ListFindings(store, scanId, false, now, server);
      GetFinding(f.store, scanId, findingId, true, now, server2).calls == []
  {
    var f := ListFindings(store, scanId, false, now, server);
    FetchedSetIsLive(store, scanId, now, server);
    CachedSetAnswers(f.store, scanId, findingId, now, server2);
  }

  // ---------------------------------------------------------------------
  // Filtering
  // ---------------------------------------------------------------------

  /** A criterion is set when it is truthy: `None` and `""` filter nothing. */
  predicate IsSet(c: Option<string>) {
    c.Some? && c.value != ""
  }

  /** `f.severity or ""` for a finding whose severity is a string or falsy. */
  function SeverityOrEmpty(f: Json): string
    requires f.JObj?
  {
    if Get(f, "severity").JStr? then Get(f, "severity").s else ""
  }

  /**
    Whether `filter` keeps `f`: `(f.severity or "").lower()` must equal the
    wanted severity lower-cased, and `str(f.plugin_id)` the wanted plugin id.
    Reading a field of a non-model, or lower-casing a truthy non-string
    severity, raises.
  */
  function Keeps(f: Json, severity: Option<string>, pluginId: Option<string>, render: Renderer): (r: Result<bool, Error>)
    ensures !IsSet(severity) && !IsSet(pluginId) ==> r == Success(true)
    ensures r.Failure? ==> (IsSet(severity) || IsSet(pluginId)) && !(f.JObj? && !Truthy(Get(f, "severity")) && !IsSet(pluginId))
    ensures r == Success(true) <==>
      (IsSet(severity) ==> f.JObj? && (Get(f, "severity").JStr? || !Truthy(Get(f, "severity")))
                           && Lower(SeverityOrEmpty(f)) == Lower(severity.value))
      && (IsSet(pluginId) ==> f.JObj? && PyStr(Get(f, "plugin_id"), render) == pluginId.value)
  {
    if IsSet(severity) && !f.JObj? then Failure(RuntimeFault("AttributeError", "severity"))
    else if IsSet(severity) && Truthy(Get(f, "severity")) && !Get(f, "severity").JStr? then
      Failure(RuntimeFault("AttributeError", "lower"))
    else if IsSet(severity) && Lower(SeverityOrEmpty(f)) != Lower(severity.value) then Success(false)
    else if IsSet(pluginId) && !f.JObj? then Failure(RuntimeFault("AttributeError", "plugin_id"))
    else if IsSet(pluginId) && PyStr(Get(f, "plugin_id"), render) != pluginId.value then Success(false)
    else Success(true)
  }

  /** The items `check` accepts, in order; the first item it raises on raises. */
  function Select(items: seq<Json>, check: Json -> Result<bool, Error>): (r: Result<seq<Json>, Error>)
    ensures r.Success? ==> |r.value| <= |items|
  {
    if |items| == 0 then Success([])
    else
      match check(items[0])
      case Failure(e) => Failure(e)
      case Success(keep) =>
        match Select(items[1..], check)
        case Failure(e) => Failure(e)
        case Success(rest) => Success((if keep then [items[0]] else []) + rest)
  }

  /**
    Selection raises exactly when some item raises; otherwise it returns
    the items `check` accepts and no others.
  */
  lemma {:induction false} SelectMeaning(items: seq<Json>, check: Json -> Result<bool, Error>)
    ensures var r := Select(items, check);
      (r.Success? <==> forall f <- items :: check(f).Success?)
      && (r.Success? ==> forall f <- r.value :: f in items && check(f) == Success(true))
      && (r.Success? ==> forall f <- items :: check(f) == Success(true) ==> f in r.value)
    decreases |items|
  {
    if |items| > 0 {
      SelectMeaning(items[1..], check);
      assert forall f <- items[1..] :: f in items;
      assert forall f <- items :: f == items[0] || f in items[1..];
    }
  }

  /** Selecting from a concatenation selects from each part in turn. */
  lemma {:induction false} SelectAppend(a: seq<Json>, b: seq<Json>, check: Json -> Result<bool, Error>)
    ensures Select(a + b, check)
      == match Select(a, check)
         case Failure(e) => Failure(e)
         case Success(ka) =>
           match Select(b, check)
           case Failure(e) => Failure(e)
           case Success(kb) => Success(ka + kb)
    decreases |a|
  {
    if |a| == 0 {
      assert a + b == b;
      assert Select(a, check) == Success([]);
      match Select(b, check) {
        case Failure(_) =>
        case Success(kb) => assert [] + kb == kb;
      }
    } else {
      var x := a[0];
      assert (a + b)[0] == x && (a + b)[1..] == a[1..] + b;
      SelectAppend(a[1..], b, check);
      match check(x) {
        case Failure(_) =>
        case Success(k) =>
          match Select(a[1..], check) {
            case Failure(_) =>
            case Success(ka) =>
              match Select(b, check) {
                case Failure(_) =>
                case Success(kb) =>
                  assert ((if k then [x] else []) + ka) + kb == (if k then [x] else []) + (ka + kb);
              }
          }
      }
    }
  }

  lemma SelectSingle(f: Json, check: Json -> Result<bool, Error>)
    ensures Select([f], check)
      == match check(f)
         case Failure(e) => Failure(e)
         case Success(keep) => Success(if keep then [f] else [])
  {
    assert [f][1..] == [];
    assert Select([], check) == Success([]);
    match check(f) {
      case Failure(_) =>
      case Success(keep) => assert (if keep then [f] else []) + [] == (if keep then [f] else []);
    }
  }

  /** The criteria of one `filter` call, as a check on a finding. */
  function Criteria(severity: Option<string>, pluginId: Option<string>, render: Renderer): Json -> Result<bool, Error> {
    f => Keeps(f, severity, pluginId, render)
  }

  /** With neither criterion set, `filter` returns every finding. */
  lemma {:induction false} NoCriteriaKeepsAll(findings: seq<Json>, severity: Option<string>, pluginId: Option<string>, render: Renderer)
    requires !IsSet(severity) && !IsSet(pluginId)
    ensures Select(findings, Criteria(severity, pluginId, render)) == Success(findings)
    decreases |findings|
  {
    if |findings| > 0 {
      NoCriteriaKeepsAll(findings[1..], severity, pluginId, render);
      assert findings == [findings[0]] + findings[1..];
    }
  }

  /** The severity criterion is case-insensitive: upper-casing it changes nothing. */
  lemma SeverityCriterionIgnoresCase(f: Json, s: string, pluginId: Option<string>, render: Renderer)
    ensures Keeps(f, Some(Upper(s)), pluginId, render) == Keeps(f, Some(s), pluginId, render)
  {
    LowerUpper(s);
  }

  /** One more finding checked: its failure ends the selection of the whole list. */
  lemma SelectStops(findings: seq<Json>, i: nat, check: Json -> Result<bool, Error>, result: seq<Json>)
    requires i < |findings| && Select(findings[..i], check) == Success(result) && check(findings[i]).Failure?
    ensures Select(findings, check) == Failure(check(findings[i]).error)
  {
    SelectSingle(findings[i], check);
    SelectAppend(findings[..i], findings[i..], check);
    assert findings[..i] + findings[i..] == findings;
    SelectAppend([findings[i]], findings[i + 1..], check);
    assert [findings[i]] + findings[i + 1..] == findings[i..];
  }

  /** One more finding checked: a kept one is appended to the selection, a dropped one is not. */
  lemma SelectStep(findings: seq<Json>, i: nat, check: Json -> Result<bool, Error>, result: seq<Json>)
    requires i < |findings| && Select(findings[..i], check) == Success(result) && check(findings[i]).Success?
    ensures Select(findings[..i + 1], check)
      == Success(if check(findings[i]).value then result + [findings[i]] else result)
  {
    SelectSingle(findings[i], check);
    SelectAppend(findings[..i], [findings[i]], check);
    assert findings[..i + 1] == findings[..i] + [findings[i]];
    if !check(findings[i]).value {
      assert result + [] == result;
    }
  }

  /** The loop of `filter` over a list of findings. */
  method FilterFindings(findings: seq<Json>, severity: Option<string>, pluginId: Option<string>, render: Renderer)
    returns (r: Result<seq<Json>, Error>)
    ensures r == Select(findings, Criteria(severity, pluginId, render))
  {
    var check := Criteria(severity, pluginId, render);
    var result: seq<Json> := [];
    for i := 0 to |findings|
      invariant Select(findings[..i], check) == Success(result)
    {
      var keep := Keeps(findings[i], severity, pluginId, render);
      assert check(findings[i]) == keep;
      if keep.Failure? {
        SelectStops(findings, i, check, result);
        return Failure(keep.error);
      }
      SelectStep(findings, i, check, result);
      if keep.value {
        result := result + [findings[i]];
      }
    }
    assert findings[..|findings|] == findings;
    return Success(result);
  }

  /** The findings of a listed set: `AttributeError` when the value is not a findings set. */
  function FindingsOf(fset: Json): (r: Result<seq<Json>, Error>)
    ensures r.Success? <==> fset.JObj? && Get(fset, "findings").JList?
    ensures forall scanId, items :: fset == SetOf(scanId, items) ==> r == Success(items)
  {
    if fset.JObj? && Get(fset, "findings").JList? then Success(Get(fset, "findings").items)
    else Failure(RuntimeFault("AttributeError", "findings"))
  }

  /** `filter(scan_id, severity, plugin_id)`: the findings of the (cached) set that match, in order. */
  method Filter(store: Cache.Store<Json>, scanId: string, severity: Option<string>, pluginId: Option<string>,
                now: real, server: Server, render: Renderer)
    returns (r: Effect<seq<Json>>)
    ensures var l := ListFindings(store, scanId, true, now, server);
      r.store == l.store && r.calls == l.calls
      && (l.result.Failure? ==> r.result == Failure(l.result.error))
      && (l.result.Success? ==>
            var fs := FindingsOf(l.result.value);
            (fs.Failure? ==> r.result == Failure(fs.error))
            && (fs.Success? ==> r.result == Select(fs.value, Criteria(severity, pluginId, render))))
  {
    var l := ListFindings(store, scanId, true, now, server);
    if l.result.Failure? {
      return Effect(Failure(l.result.error), l.store, l.calls);
    }
    var fs := FindingsOf(l.result.value);
    if fs.Failure? {
      return Effect(Failure(fs.error), l.store, l.calls);
    }
    var kept := FilterFindings(fs.value, severity, pluginId, render);
    return Effect(kept, l.store, l.calls);
  }

  // ---------------------------------------------------------------------
  // Summary
  // ---------------------------------------------------------------------

  /** A finding model `group_by_severity` can lower-case: its `severity` is a string. */
  predicate HasSeverity(f: Json) {
    f.JObj? && Get(f, "severity").JStr?
  }

  lemma SumSizesCons(items: seq<Json>, bucketOf: Json -> string, name: string, rest: seq<string>)
    ensures SumSizes(items, bucketOf, [name] + rest) == |Members(items, bucketOf, name)| + SumSizes(items, bucketOf, rest)
  {
    assert ([name] + rest)[1..] == rest;
  }

  /** The six group sizes add up to `SumSizes` over the group names. */
  lemma SumOverGroupNames(items: seq<Json>, bucketOf: Json -> string)
    ensures SumSizes(items, bucketOf, GroupNames)
      == |Members(items, bucketOf, "critical")| + |Members(items, bucketOf, "high")|
       + |Members(items, bucketOf, "medium")| + |Members(items, bucketOf, "low")|
       + |Members(items, bucketOf, "info")| + |Members(items, bucketOf, "unknown")|
  {
    var r5: seq<string> := ["unknown"];
    var r4 := ["info"] + r5;
    var r3 := ["low"] + r4;
    var r2 := ["medium"] + r3;
    var r1 := ["high"] + r2;
    assert GroupNames == ["critical"] + r1;
    SumSizesCons(items, bucketOf, "critical", r1);
    SumSizesCons(items, bucketOf, "high", r2);
    SumSizesCons(items, bucketOf, "medium", r3);
    SumSizesCons(items, bucketOf, "low", r4);
    SumSizesCons(items, bucketOf, "info", r5);
    SumSizesCons(items, bucketOf, "unknown", []);
    assert ["unknown"] + [] == r5;
  }

  /** The five known severity groups together hold at most every finding once. */
  lemma KnownCountsBounded(fs: seq<Json>, bucketOf: Json -> string)
    requires forall x <- fs :: bucketOf(x) in GroupNames
    ensures |Members(fs, bucketOf, "critical")| + |Members(fs, bucketOf, "high")|
      + |Members(fs, bucketOf, "medium")| + |Members(fs, bucketOf, "low")|
      + |Members(fs, bucketOf, "info")| <= |fs|
  {
    GroupsPartition(fs, bucketOf);
    SumOverGroupNames(fs, bucketOf);
  }

  /** `len(groups.get(name, []))`. */
  function GroupSize(groups: Dict.Dict<seq<Json>>, name: string): nat {
    |Dict.Get(groups, name).GetOr([])|
  }

  /** The dict `summary` returns. */
  function SummaryOf(scanId: string, total: nat, counts: seq<nat>): (r: Json)
    requires |counts| == 5
    ensures r.JObj? && Get(r, "scan_id") == JStr(scanId) && Get(r, "total") == JInt(total)
    ensures forall i :: 0 <= i < 5 ==> Get(r, SeverityNames[i]) == JInt(counts[i])
  {
    var d := [("scan_id", JStr(scanId)), ("total", JInt(total))]
      + seq(5, i requires 0 <= i < 5 => (SeverityNames[i], JInt(counts[i])));
    assert SeverityNames == ["critical", "high", "medium", "low", "info"];
    Dict.GetAt(d, 0);
    Dict.GetAt(d, 1);
    forall i | 0 <= i < 5 ensures Get(JObj(d), SeverityNames[i]) == JInt(counts[i]) {
      Dict.GetAt(d, i + 2);
    }
    JObj(d)
  }

  /**
    The sizes of the five known severity groups of `fs`, in the order
    critical, high, medium, low, info. Each finding is counted at most once.
  */
  function KnownCounts(fs: seq<Json>): (r: seq<nat>)
    ensures |r| == 5
    ensures r[0] + r[1] + r[2] + r[3] + r[4] <= |fs|
  {
    var b := Utils.LegacyBucket();
    KnownCountsBounded(fs, b);
    seq(5, i requires 0 <= i < 5 => |Members(fs, b, SeverityNames[i])|)
  }

  /** `len(groups.get(name, []))` for the five known names, in order. */
  function GroupSizes(groups: Dict.Dict<seq<Json>>): (r: seq<nat>)
    ensures |r| == 5
  {
    seq(5, i requires 0 <= i < 5 => GroupSize(groups, SeverityNames[i]))
  }

  /** Groups holding each known severity's members have exactly the known counts as sizes. */
  lemma GroupSizesAreCounts(fs: seq<Json>, groups: Dict.Dict<seq<Json>>)
    requires forall name <- SeverityNames :: Dict.Get(groups, name) == Some(Members(fs, Utils.LegacyBucket(), name))
    ensures GroupSizes(groups) == KnownCounts(fs)
  {
    assert forall i :: 0 <= i < 5 ==> GroupSizes(groups)[i] == KnownCounts(fs)[i] by {
      forall i | 0 <= i < 5 ensures GroupSizes(groups)[i] == KnownCounts(fs)[i] {
        assert SeverityNames[i] in SeverityNames;
      }
    }
  }

  /**
    The counting half of `summary`: `group_by_severity` over the set's
    findings, then the total and the size of each known group.
  */
  method Summarize(scanId: string, fs: seq<Json>) returns (r: Result<Json, Error>)
    ensures r.Success? <==> forall f <- fs :: HasSeverity(f)
    ensures r.Success? ==> r.value == SummaryOf(scanId, |fs|, KnownCounts(fs))
  {
    if !forall f <- fs :: HasSeverity(f) {
      return Failure(RuntimeFault("AttributeError", "lower"));
    }
    var groups := Utils.GroupBySeverity(fs);
    GroupSizesAreCounts(fs, groups);
    return Success(SummaryOf(scanId, |fs|, GroupSizes(groups)));
  }

  /**
    `group_by_severity(scan_id)`: the (cached) findings set, grouped by the
    legacy helper. Every finding is a `FindingModel`, whose `severity`
    attribute always exists and defaults to None, so the helper reads the
    attribute and raises AttributeError on a severity that is not a string.
  */
  method GroupBySeverity(store: Cache.Store<Json>, scanId: string, now: real, server: Server)
    returns (r: Effect<Dict.Dict<seq<Json>>>)
    ensures var l := ListFindings(store, scanId, true, now, server);
      r.calls == l.calls && r.store == l.store
      && (l.result.Failure? ==> r.result == Failure(l.result.error))
      && (l.result.Success? && FindingsOf(l.result.value).Failure? ==> r.result == Failure(FindingsOf(l.result.value).error))
    ensures var l := ListFindings(store, scanId, true, now, server);
      l.result.Success? && FindingsOf(l.result.value).Success? ==>
        var fs := FindingsOf(l.result.value).value;
        (r.result.Success? <==> forall f <- fs :: HasSeverity(f))
        && (r.result.Failure? ==> r.result.error == RuntimeFault("AttributeError", "lower"))
        && (r.result.Success? ==>
              var groups := r.result.value;
              (forall name <- SeverityNames :: Dict.Get(groups, name) == Some(Members(fs, Utils.LegacyBucket(), name)))
              && ("unknown" in Dict.KeySet(groups) <==> exists f <- fs :: Utils.LegacyBucket()(f) == "unknown"))
  {
    var l := ListFindings(store, scanId, true, now, server);
    if l.result.Failure? {
      return Effect(Failure(l.result.error), l.store, l.calls);
    }
    var fs := FindingsOf(l.result.value);
    if fs.Failure? {
      return Effect(Failure(fs.error), l.store, l.calls);
    }
    if !forall f <- fs.value :: HasSeverity(f) {
      return Effect(Failure(RuntimeFault("AttributeError", "lower")), l.store, l.calls);
    }
    var groups := Utils.GroupBySeverity(fs.value);
    return Effect(Success(groups), l.store, l.calls);
  }

  /**
    `summary(scan_id)`: the (cached) findings set, counted. The second
    listing inside `group_by_severity` finds the set the first one left in
    the cache, so it makes no call.
  */
  method Summary(store: Cache.Store<Json>, scanId: string, now: real, server: Server) returns (r: Effect<Json>)
    ensures var l := ListFindings(store, scanId, true, now, server);
      r.calls == l.calls && r.store == l.store
      && (l.result.Failure? ==> r.result == Failure(l.result.error))
      && (l.result.Success? && FindingsOf(l.result.value).Failure? ==> r.result == Failure(FindingsOf(l.result.value).error))
      && (l.result.Success? && FindingsOf(l.result.value).Success? ==>
            var fs := FindingsOf(l.result.value).value;
            (r.result.Success? <==> forall f <- fs :: HasSeverity(f))
            && (r.result.Success? ==> r.result.value == SummaryOf(scanId, |fs|, KnownCounts(fs))))
  {
    var l := ListFindings(store, scanId, true, now, server);
    if l.result.Failure? {
      return Effect(Failure(l.result.error), l.store, l.calls);
    }
    var fs := FindingsOf(l.result.value);
    if fs.Failure? {
      return Effect(Failure(fs.error), l.store, l.calls);
    }
    var again := ListFindings(l.store, scanId, true, now, server);
    assert again == Effect(l.result, l.store, []);
    var counted := Summarize(scanId, fs.value);
    return Effect(counted, l.store, l.calls);
  }
}

=== FILE: findingsexport.dfy ===
/**
  `FindingsExportAPI`: the findings export endpoint, and the CSV export
  built on it. Each finding becomes a CSV-safe row; the header is the
  sorted key list of the first row, and `csv.DictWriter` (which raises on
  a row key outside the header) writes the rows. The file itself is not
  modelled: the export yields the header and rows that would be written.
*/
module FindingsExport {
  import opened Wrappers
  import opened Json
  import opened Errors
  import Dict
  import Models
  import CsvSafe
  import Sorting
  import opened Api

  const ExportPath: string := "/was/v2/export/findings"

  function ExportCall(scanId: string): Call {
    PostCall(ExportPath, Some(JObj([("scan_id", JStr(scanId))])))
  }

  /** `_api_export(scan_id)`: one POST; anything but a dict is a malformed response. */
  function ApiExport(scanId: string, server: Server): (r: Exchange<Json>)
    ensures r.calls == [ExportCall(scanId)]
    ensures r.result.Success? ==> r.result.value.JObj? && server(ExportCall(scanId)) == r.result
    ensures server(ExportCall(scanId)).Failure? ==> r.result == server(ExportCall(scanId))
    ensures server(ExportCall(scanId)).Success? && !server(ExportCall(scanId)).value.JObj? ==>
      r.result == Failure(Errors.Api("Malformed export response"))
  {
    var call := ExportCall(scanId);
    var result :=
      match server(call)
      case Failure(e) => Failure(e)
      case Success(resp) => if resp.JObj? then Success(resp) else Failure(Errors.Api("Malformed export response"));
    Exchange(result, [call])
  }

  /** What the CSV writer is given: the header and the rows, in order. */
  datatype Table = Table(headers: seq<string>, rows: seq<Dict.Dict<Json>>)

  /** `sorted(row.keys())`. */
  function HeadersOf(row: Dict.Dict<Json>): (r: seq<string>)
    ensures Sorting.StrSorted(r)
    ensures multiset(r) == multiset(Dict.Keys(row))
  {
    Sorting.SortStrings(Dict.Keys(row))
  }

  /** `DictWriter.writerows` with the default `extrasaction="raise"`: no row may carry a key outside the header. */
  predicate Fits(row: Dict.Dict<Json>, headers: seq<string>) {
    forall p <- row :: p.0 in headers
  }

  /** The table from the rows, once the header is chosen: the writer's check on every row. */
  function Tabulate(rows: seq<Json>): (r: Result<Table, Error>)
    requires |rows| > 0 && forall row <- rows :: row.JObj?
    ensures r.Success? <==> forall row <- rows :: Fits(row.fields, HeadersOf(rows[0].fields))
    ensures r.Failure? ==> r.error.ValueError?
    ensures r.Success? ==>
      && r.value.headers == HeadersOf(rows[0].fields)
      && |r.value.rows| == |rows|
      && forall i :: 0 <= i < |rows| ==> r.value.rows[i] == rows[i].fields
  {
    var headers := HeadersOf(rows[0].fields);
    if forall row <- rows :: Fits(row.fields, headers) then
      Success(Table(headers, seq(|rows|, i requires 0 <= i < |rows| => rows[i].fields)))
    else Failure(ValueError("dict contains fields not in fieldnames"))
  }

  /**
    `export_csv(scan_id, path)`: a missing or empty findings list is an
    error; otherwise every finding is flattened, the header is the sorted
    keys of the first row, and every row must fit the header.
  */
  function ExportCsv(scanId: string, server: Server, render: Renderer): (r: Exchange<Table>)
    ensures r.calls == [ExportCall(scanId)]
    ensures ApiExport(scanId, server).result.Failure? ==> r.result == Failure(ApiExport(scanId, server).result.error)
    ensures ApiExport(scanId, server).result.Success? && !Truthy(Get(ApiExport(scanId, server).result.value, "findings")) ==>
      r.result == Failure(Errors.Api("No findings returned for scan " + scanId))
    ensures r.result.Success? ==>
      var findings := Get(ApiExport(scanId, server).result.value, "findings");
      && findings.JList? && |findings.items| > 0
      && CsvSafe.FlattenEach(findings.items, render).Success?
      && Tabulate(CsvSafe.FlattenEach(findings.items, render).value) == r.result
    // a truthy list of dicts is always tabulated; any other truthy value raises before a row is written
    ensures var a := ApiExport(scanId, server).result;
      a.Success? && Truthy(Get(a.value, "findings")) ==>
      var findings := Get(a.value, "findings");
      && (findings.JList? && (forall f <- findings.items :: f.JObj?) ==>
            r.result == Tabulate(CsvSafe.FlattenEach(findings.items, render).value))
      && (!(findings.JList? && forall f <- findings.items :: f.JObj?) ==> r.result.Failure?)
  {
    var payload := ApiExport(scanId, server);
    match payload.result
    case Failure(e) => Exchange(Failure(e), payload.calls)
    case Success(p) =>
      var findings := Get(p, "findings");
      if !Truthy(findings) then Exchange(Failure(Errors.Api("No findings returned for scan " + scanId)), payload.calls)
      else
        match Models.Iterate(findings)
        case Failure(e) => Exchange(Failure(e), payload.calls)
        case Success(items) =>
          match CsvSafe.FlattenEach(items, render)
          case Failure(e) => Exchange(Failure(e), payload.calls)
          case Success(rows) =>
            // a truthy value iterates to at least one item, so `rows` is never empty here
            if |rows| == 0 then Exchange(Failure(Errors.Api("No findings returned for scan " + scanId)), payload.calls)
            else Exchange(Tabulate(rows), payload.calls)
  }

  /**
    The header holds each key of the first row once, in ascending order, so
    it does not depend on the order in which the first row lists its keys.
  */
  lemma HeadersIgnoreKeyOrder(a: Dict.Dict<Json>, b: Dict.Dict<Json>)
    requires multiset(Dict.Keys(a)) == multiset(Dict.Keys(b))
    ensures HeadersOf(a) == HeadersOf(b)
  {
    Sorting.SortedUnique(HeadersOf(a), HeadersOf(b));
  }

  /** A finding list whose flat rows all have the first row's keys is exported whole. */
  lemma SameKeysExportWhole(rows: seq<Json>)
    requires |rows| > 0 && forall row <- rows :: row.JObj?
    requires forall row <- rows :: Dict.KeySet(row.fields) == Dict.KeySet(rows[0].fields)
    ensures Tabulate(rows).Success?
  {
    var headers := HeadersOf(rows[0].fields);
    forall row <- rows, p <- row.fields
      ensures p.0 in headers
    {
      var i :| 0 <= i < |row.fields| && row.fields[i] == p;
      assert p.0 in Dict.KeySet(rows[0].fields);
      var j :| 0 <= j < |rows[0].fields| && rows[0].fields[j].0 == p.0;
      assert Dict.Keys(rows[0].fields)[j] == p.0;
      assert p.0 in multiset(headers);
    }
  }
}

=== FILE: http.dfy ===
/**
  The legacy `HTTPClient` (access/secret key pair) and the request loop it
  shares with the v2 client: up to five retries of a 429 reply with a
  doubling sleep, and an immediate failure on anything else that goes wrong.

  The network is a function `server` from the request's ordinal (0 for the
  first send, 1 for the first retry, ...) to what came back; every retry
  sends the identical request. Sleeps are recorded, not performed.
*/
module Http {
  import opened Wrappers
  import Text
  import Dict
  import opened Json
  import opened Errors

  const BaseUrl: string := "https://cloud.tenable.com"
  const MaxRetries: nat := 5
  const FirstBackoff: nat := 2

  /** A response body: its JSON decoding when it decodes, and its raw text. */
  datatype Body = Body(json: Option<Json>, text: string)
  datatype Response = Response(status: int, body: Body)

  /** What one send produced: a response, or a `requests.RequestException`. */
  datatype Attempt = Reply(response: Response) | TransportFailure(reason: string)

  /** The request as handed to `requests.request`. */
  datatype Request = Request(
    verb: string,
    url: string,
    headers: Dict.Dict<string>,
    params: Option<Json>,
    jsonBody: Option<Json>,
    proxies: Option<Dict.Dict<string>>,
    timeout: int)

  /** How the retry loop ended. */
  datatype LoopOutcome =
    | Done(response: Response)        // a reply other than 429
    | TransportError(reason: string)  // the send raised
    | Throttled                       // a 429 with the retry budget spent

  /** The loop's outcome, how many requests it sent, and the seconds it slept, in order. */
  datatype Trace = Trace(outcome: LoopOutcome, requests: nat, sleeps: seq<nat>)

  predicate Is429(a: Attempt) {
    a.Reply? && a.response.status == 429
  }

  function Pow2(n: nat): (r: nat)
    ensures r >= 1
  {
    if n == 0 then 1 else 2 * Pow2(n - 1)
  }

  /** The `i`-th sleep (from 0): the initial backoff doubled `i` times. */
  function Backoff(i: nat): nat {
    FirstBackoff * Pow2(i)
  }

  /**
    The replies `server` gives explain trace `t`: every request but the last
    was answered 429, the last one decides the outcome, a 429 ends the loop
    only on the sixth request, and one backoff was slept before each retry.
  */
  predicate Explains(server: nat -> Attempt, t: Trace) {
    && 1 <= t.requests <= MaxRetries + 1
    && (forall k :: 0 <= k < t.requests - 1 ==> Is429(server(k)))
    && (t.outcome.Done? <==> server(t.requests - 1).Reply? && !Is429(server(t.requests - 1)))
    && (t.outcome.Done? ==> server(t.requests - 1) == Reply(t.outcome.response))
    && (t.outcome.TransportError? <==> server(t.requests - 1).TransportFailure?)
    && (t.outcome.TransportError? ==> server(t.requests - 1) == TransportFailure(t.outcome.reason))
    && (t.outcome.Throttled? <==> Is429(server(t.requests - 1)))
    && (t.outcome.Throttled? ==> t.requests == MaxRetries + 1)
    && |t.sleeps| == t.requests - 1
    && (forall i :: 0 <= i < |t.sleeps| ==> t.sleeps[i] == Backoff(i))
  }

  /**
    The `while True` loop of `_request`. It stops at the first reply that is
    not a 429, at the first transport failure, or at a 429 that arrives after
    five retries; before every retry it sleeps the current backoff and
    doubles it.
  */
  method RetryLoop(server: nat -> Attempt) returns (t: Trace)
    ensures Explains(server, t)
    // the count agrees with the reference definition
    ensures t.requests == RequestsFrom(server, 0)
  {
    var retries := MaxRetries;
    var backoff := FirstBackoff;
    var sent: nat := 0;
    var sleeps: seq<nat> := [];
    while true
      invariant 0 <= retries <= MaxRetries
      invariant sent == MaxRetries - retries
      invariant backoff == Backoff(sent)
      invariant |sleeps| == sent
      invariant forall i :: 0 <= i < sent ==> sleeps[i] == Backoff(i)
      invariant forall k :: 0 <= k < sent ==> Is429(server(k))
      invariant RequestsFrom(server, 0) == RequestsFrom(server, sent)
      decreases retries
    {
      var attempt := server(sent);
      sent := sent + 1;
      match attempt
      case TransportFailure(reason) =>
        return Trace(TransportError(reason), sent, sleeps);
      case Reply(response) =>
        if response.status == 429 {
          if retries <= 0 {
            return Trace(Throttled, sent, sleeps);
          }
          sleeps := sleeps + [backoff];
          retries := retries - 1;
          backoff := backoff * 2;
          continue;
        }
        return Trace(Done(response), sent, sleeps);
    }
  }

  /**
    The replies determine the trace: two traces both explained by the same
    replies are the same trace, so `Explains` is a complete description of
    the loop and not merely a property of it.
  */
  lemma ExplainsDetermines(server: nat -> Attempt, t1: Trace, t2: Trace)
    requires Explains(server, t1) && Explains(server, t2)
    ensures t1 == t2
  {
    ExplainsCount(server, t1);
    ExplainsCount(server, t2);
    assert t1.sleeps == t2.sleeps;
  }

  /** An explained trace sends exactly the number of requests the reference count gives. */
  lemma ExplainsCount(server: nat -> Attempt, t: Trace)
    requires Explains(server, t)
    ensures t.requests == RequestsFrom(server, 0)
  {
    var n := t.requests;
    var k := 0;
    while k < n - 1
      invariant 0 <= k <= n - 1
      invariant RequestsFrom(server, 0) == RequestsFrom(server, k)
    {
      assert Is429(server(k));
      k := k + 1;
    }
    if Is429(server(n - 1)) {
      assert n - 1 == MaxRetries;
    }
  }

  /** A first reply that is neither a 429 nor a transport failure ends the loop at once and is its outcome. */
  lemma FirstReplyDecides(server: nat -> Attempt, t: Trace)
    requires Explains(server, t)
    requires server(0).Reply? && !Is429(server(0))
    ensures t.requests == 1 && t.sleeps == [] && t.outcome == Done(server(0).response)
  {
    if t.requests > 1 {
      assert false;
    }
  }

  /** A call that is throttled every time sleeps 2, 4, 8, 16 and 32 seconds and sends six requests. */
  lemma ThrottledSleeps(t: Trace)
    requires t.outcome.Throttled? && t.requests == MaxRetries + 1
    requires |t.sleeps| == t.requests - 1
    requires forall i :: 0 <= i < |t.sleeps| ==> t.sleeps[i] == Backoff(i)
    ensures t.sleeps == [2, 4, 8, 16, 32]
  {
    assert Pow2(1) == 2 && Pow2(2) == 4 && Pow2(3) == 8 && Pow2(4) == 16;
    assert t.sleeps[0] == 2 && t.sleeps[1] == 4 && t.sleeps[2] == 8;
    assert t.sleeps[3] == 16 && t.sleeps[4] == 32;
  }

  /**
    Reference count of requests: starting at request `k`, one more is sent
    for each further 429 until a reply that is not a 429 or the sixth request.
  */
  function RequestsFrom(server: nat -> Attempt, k: nat): (n: nat)
    requires k <= MaxRetries
    ensures k < n <= MaxRetries + 1
    decreases MaxRetries - k
  {
    if k == MaxRetries || !Is429(server(k)) then k + 1 else RequestsFrom(server, k + 1)
  }

  /** The error payload: the decoded body, else its text. */
  function ErrorPayload(b: Body): (p: Payload)
    ensures b.json.Some? ==> p == PJson(b.json.value)
    ensures b.json.None? ==> p == PText(b.text)
  {
    match b.json
    case Some(j) => PJson(j)
    case None => PText(b.text)
  }

  const InvalidJson: string := "Invalid JSON response from Tenable API."
  const TooManyRetries: string := "Too many retries (429 Too Many Requests)"

  /** The legacy client's verdict on how the loop ended. */
  function LegacyFinish(o: LoopOutcome): (r: Result<Json, Error>)
    ensures o.TransportError? ==> r == Failure(Api("HTTP Request Failed: " + o.reason))
    ensures o.Throttled? ==> r == Failure(Api(TooManyRetries))
    // any status >= 400: an error naming status and payload, never retried
    ensures o.Done? && o.response.status >= 400 ==>
      r == Failure(ApiError(HttpStatus(o.response.status, ErrorPayload(o.response.body)), None, None))
    // below 400: the decoded body, or an error when it does not decode
    ensures o.Done? && o.response.status < 400 ==>
      (r.Success? <==> o.response.body.json.Some?)
      && (r.Success? ==> r.value == o.response.body.json.value)
      && (r.Failure? ==> r.error == Api(InvalidJson))
  {
    match o
    case TransportError(reason) => Failure(Api("HTTP Request Failed: " + reason))
    case Throttled => Failure(Api(TooManyRetries))
    case Done(resp) =>
      if resp.status >= 400 then
        Failure(ApiError(HttpStatus(resp.status, ErrorPayload(resp.body)), None, None))
      else if resp.body.json.Some? then Success(resp.body.json.value)
      else Failure(Api(InvalidJson))
  }

  /** `{"http": proxy, "https": proxy}` when a proxy is given (truthy), else `None`. */
  function Proxies(proxy: Option<string>): (r: Option<Dict.Dict<string>>)
    ensures r.Some? <==> proxy.Some? && proxy.value != ""
    ensures r.Some? ==> (Dict.KeySet(r.value) == {"http", "https"}
      && Dict.Get(r.value, "http") == proxy && Dict.Get(r.value, "https") == proxy)
  {
    if proxy.Some? && proxy.value != "" then
      var d := [("http", proxy.value), ("https", proxy.value)];
      assert d[0].0 == "http" && d[1].0 == "https";
      assert Dict.KeySet(d) == {"http", "https"};
      Dict.GetAt(d, 0);
      Dict.GetAt(d, 1);
      Some(d)
    else None
  }

  /** The `X-ApiKeys` header value. */
  function ApiKeysValue(accessKey: string, secretKey: string): string {
    "accessKey=" + accessKey + "; secretKey=" + secretKey
  }

  /** `HTTPClient(access_key, secret_key, proxy, timeout)`. */
  datatype Client = Client(accessKey: string, secretKey: string, proxies: Option<Dict.Dict<string>>, timeout: int)

  function NewClient(accessKey: string, secretKey: string, proxy: Option<string>, timeout: int): (c: Client)
    ensures c.accessKey == accessKey && c.secretKey == secretKey && c.timeout == timeout
    ensures c.proxies == Proxies(proxy)
  {
    Client(accessKey, secretKey, Proxies(proxy), timeout)
  }

  /** `_headers()`: JSON in both directions, and the key pair. */
  function Headers(c: Client): (h: Dict.Dict<string>)
    ensures Dict.NoDupKeys(h)
    ensures Dict.Keys(h) == ["Accept", "Content-Type", "X-ApiKeys"]
    ensures Dict.Get(h, "Accept") == Some("application/json")
    ensures Dict.Get(h, "Content-Type") == Some("application/json")
    ensures Dict.Get(h, "X-ApiKeys") == Some(ApiKeysValue(c.accessKey, c.secretKey))
  {
    var h := [("Accept", "application/json"),
              ("Content-Type", "application/json"),
              ("X-ApiKeys", ApiKeysValue(c.accessKey, c.secretKey))];
    Dict.GetAt(h, 0);
    Dict.GetAt(h, 1);
    Dict.GetAt(h, 2);
    h
  }

  /** The key pair can be read back from `X-ApiKeys` when neither key contains `;`. */
  lemma {:induction false} ApiKeysRoundTrip(accessKey: string, secretKey: string)
    requires ';' !in accessKey && ';' !in secretKey
    ensures Text.Split(ApiKeysValue(accessKey, secretKey), ';')
      == ["accessKey=" + accessKey, " secretKey=" + secretKey]
  {
    var parts := ["accessKey=" + accessKey, " secretKey=" + secretKey];
    assert ';' !in parts[0] && ';' !in parts[1];
    assert Text.Join([';'], parts[1..]) == parts[1];
    assert Text.Join([';'], parts) == ApiKeysValue(accessKey, secretKey);
    Text.SplitJoin(parts, ';');
  }

  /**
    `_request(method, path, json_body)`: the upper-cased method, `BASE_URL`
    followed by the path, the client's headers and proxies, then the retry
    loop and its verdict.
  */
  method Send(c: Client, verb: string, path: string, jsonBody: Option<Json>, server: nat -> Attempt)
    returns (sent: Request, t: Trace, r: Result<Json, Error>)
    ensures sent.verb == Text.Upper(verb) && sent.url == BaseUrl + path
    ensures sent.headers == Headers(c) && sent.proxies == c.proxies && sent.timeout == c.timeout
    ensures sent.params.None? && sent.jsonBody == jsonBody
    // the replies decide the trace, its sleeps included, and the trace decides the result
    ensures Explains(server, t)
    ensures r == LegacyFinish(t.outcome)
    // a transport failure or a non-429 error on the first request: no retry, no sleep
    ensures !Is429(server(0)) ==> t.requests == 1 && t.sleeps == []
  {
    sent := Request(Text.Upper(verb), BaseUrl + path, Headers(c), None, jsonBody, c.proxies, c.timeout);
    t := RetryLoop(server);
    r := LegacyFinish(t.outcome);
  }

  method Get(c: Client, path: string, server: nat -> Attempt) returns (sent: Request, t: Trace, r: Result<Json, Error>)
    ensures sent.verb == "GET" && sent.jsonBody.None? && sent.url == BaseUrl + path
    ensures Explains(server, t) && r == LegacyFinish(t.outcome)
  {
    sent, t, r := Send(c, "GET", path, None, server);
  }

  method Post(c: Client, path: string, json: Option<Json>, server: nat -> Attempt) returns (sent: Request, t: Trace, r: Result<Json, Error>)
    ensures sent.verb == "POST" && sent.jsonBody == json && sent.url == BaseUrl + path
    ensures Explains(server, t) && r == LegacyFinish(t.outcome)
  {
    sent, t, r := Send(c, "POST", path, json, server);
  }

  method Put(c: Client, path: string, json: Option<Json>, server: nat -> Attempt) returns (sent: Request, t: Trace, r: Result<Json, Error>)
    ensures sent.verb == "PUT" && sent.jsonBody == json && sent.url == BaseUrl + path
    ensures Explains(server, t) && r == LegacyFinish(t.outcome)
  {
    sent, t, r := Send(c, "PUT", path, json, server);
  }

  method Delete(c: Client, path: string, server: nat -> Attempt) returns (sent: Request, t: Trace, r: Result<Json, Error>)
    ensures sent.verb == "DELETE" && sent.jsonBody.None? && sent.url == BaseUrl + path
    ensures Explains(server, t) && r == LegacyFinish(t.outcome)
  {
    sent, t, r := Send(c, "DELETE", path, None, server);
  }
}

/**
  The v2 `HTTPClient` (single `X-API-Key`): the same retry loop, but an
  error reply carries its status code and payload as fields, a 204 returns
  `None` without decoding, and `get` forwards query parameters.
*/
module WasHttp {
  import opened Wrappers
  import Dict
  import opened Json
  import opened Errors
  import Http

  /** `HTTPClient(api_key, proxy, timeout)`. */
  datatype Client = Client(apiKey: string, proxies: Option<Dict.Dict<string>>, timeout: int)

  function NewClient(apiKey: string, proxy: Option<string>, timeout: int): (c: Client)
    ensures c.apiKey == apiKey && c.timeout == timeout
    ensures c.proxies.Some? <==> proxy.Some? && proxy.value != ""
    ensures c.proxies.Some? ==>
      Dict.Get(c.proxies.value, "http") == proxy && Dict.Get(c.proxies.value, "https") == proxy
  {
    Client(apiKey, Http.Proxies(proxy), timeout)
  }

  /** `_headers()`: JSON in both directions, and the API key verbatim. */
  function Headers(c: Client): (h: Dict.Dict<string>)
    ensures Dict.NoDupKeys(h)
    ensures Dict.Keys(h) == ["Accept", "Content-Type", "X-API-Key"]
    ensures Dict.Get(h, "X-API-Key") == Some(c.apiKey)
    ensures Dict.Get(h, "Accept") == Some("application/json")
    ensures Dict.Get(h, "Content-Type") == Some("application/json")
  {
    var h := [("Accept", "application/json"),
              ("Content-Type", "application/json"),
              ("X-API-Key", c.apiKey)];
    Dict.GetAt(h, 0);
    Dict.GetAt(h, 1);
    Dict.GetAt(h, 2);
    h
  }

  const ApiErrorText: string := "Tenable API error"

  /** The v2 client's verdict on how the loop ended. */
  function Finish(o: Http.LoopOutcome): (r: Result<Json, Error>)
    ensures o.TransportError? ==> r == Failure(Api("HTTP request failed: " + o.reason))
    ensures o.Throttled? ==> r == Failure(Api(Http.TooManyRetries))
    // any status >= 400: an error carrying that status and the payload
    ensures o.Done? && o.response.status >= 400 ==>
      r == Failure(ApiError(Plain(ApiErrorText), Some(o.response.status), Some(Http.ErrorPayload(o.response.body))))
    // 204: None, whatever the body holds
    ensures o.Done? && o.response.status == 204 ==> r == Success(JNull)
    // any other status below 400: the decoded body, or an error
    ensures o.Done? && o.response.status < 400 && o.response.status != 204 ==>
      (r.Success? <==> o.response.body.json.Some?)
      && (r.Success? ==> r.value == o.response.body.json.value)
      && (r.Failure? ==> r.error == Api(Http.InvalidJson))
  {
    match o
    case TransportError(reason) => Failure(Api("HTTP request failed: " + reason))
    case Throttled => Failure(Api(Http.TooManyRetries))
    case Done(resp) =>
      if resp.status >= 400 then
        Failure(ApiError(Plain(ApiErrorText), Some(resp.status), Some(Http.ErrorPayload(resp.body))))
      else if resp.status == 204 then Success(JNull)
      else if resp.body.json.Some? then Success(resp.body.json.value)
      else Failure(Api(Http.InvalidJson))
  }

  /** The two clients agree on every outcome except an error reply and a 204. */
  lemma FinishAgreesWithLegacy(o: Http.LoopOutcome)
    requires o.Done? ==> o.response.status < 400 && o.response.status != 204
    ensures o.TransportError? || Finish(o) == Http.LegacyFinish(o)
  {
  }

  /** `_request(method, path, params, json_body)`: the method as given, then the shared loop. */
  method Send(c: Client, verb: string, path: string, params: Option<Json>, jsonBody: Option<Json>, server: nat -> Http.Attempt)
    returns (sent: Http.Request, t: Http.Trace, r: Result<Json, Error>)
    ensures sent.verb == verb && sent.url == Http.BaseUrl + path
    ensures sent.headers == Headers(c) && sent.proxies == c.proxies && sent.timeout == c.timeout
    ensures sent.params == params && sent.jsonBody == jsonBody
    ensures Http.Explains(server, t)
    ensures r == Finish(t.outcome)
    ensures !Http.Is429(server(0)) ==> t.requests == 1 && t.sleeps == []
  {
    sent := Http.Request(verb, Http.BaseUrl + path, Headers(c), params, jsonBody, c.proxies, c.timeout);
    t := Http.RetryLoop(server);
    r := Finish(t.outcome);
  }

  /** `get(path, params)`: forwards the query parameters, sends no body. */
  method Get(c: Client, path: string, params: Option<Json>, server: nat -> Http.Attempt)
    returns (sent: Http.Request, t: Http.Trace, r: Result<Json, Error>)
    ensures sent.verb == "GET" && sent.params == params && sent.jsonBody.None?
    ensures Http.Explains(server, t) && r == Finish(t.outcome)
  {
    sent, t, r := Send(c, "GET", path, params, None, server);
  }

  /** `post(path, json)`: forwards the body, sends no parameters. */
  method Post(c: Client, path: string, json: Option<Json>, server: nat -> Http.Attempt)
    returns (sent: Http.Request, t: Http.Trace, r: Result<Json, Error>)
    ensures sent.verb == "POST" && sent.params.None? && sent.jsonBody == json
    ensures Http.Explains(server, t) && r == Finish(t.outcome)
  {
    sent, t, r := Send(c, "POST", path, None, json, server);
  }

  /** `put(path, json)`: forwards the body, sends no parameters. */
  method Put(c: Client, path: string, json: Option<Json>, server: nat -> Http.Attempt)
    returns (sent: Http.Request, t: Http.Trace, r: Result<Json, Error>)
    ensures sent.verb == "PUT" && sent.params.None? && sent.jsonBody == json
    ensures Http.Explains(server, t) && r == Finish(t.outcome)
  {
    sent, t, r := Send(c, "PUT", path, None, json, server);
  }

  /** `delete(path)`: neither parameters nor body. */
  method Delete(c: Client, path: string, server: nat -> Http.Attempt)
    returns (sent: Http.Request, t: Http.Trace, r: Result<Json, Error>)
    ensures sent.verb == "DELETE" && sent.params.None? && sent.jsonBody.None?
    ensures Http.Explains(server, t) && r == Finish(t.outcome)
  {
    sent, t, r := Send(c, "DELETE", path, None, None, server);
  }
}

=== FILE: ids.dfy ===
/**
  Lists of IDs typed by a user: a comma-separated argument, or the lines of
  a text file. Both are split, every piece is stripped, blank pieces are
  dropped and the order is kept.
*/
module Ids {
  import Text

  /** An ID as the parsers hand it out: not blank, no surrounding whitespace. */
  predicate Clean(x: string) {
    x != "" && Text.NoEdgeSpace(x)
  }

  /** `[p.strip() for p in parts]`. */
  function StripAll(parts: seq<string>): seq<string> {
    seq(|parts|, i requires 0 <= i < |parts| => Text.Strip(parts[i]))
  }

  /** The non-empty strings of `xs`, in order. */
  function DropEmpty(xs: seq<string>): (r: seq<string>)
    ensures |r| <= |xs|
    ensures forall x <- r :: x != "" && x in xs
  {
    if |xs| == 0 then []
    else
      var rest := DropEmpty(xs[1..]);
      assert forall x <- rest :: x in xs;
      (if xs[0] != "" then [xs[0]] else []) + rest
  }

  /** `[p.strip() for p in parts if p.strip()]`: the stripped pieces, blank ones dropped. */
  function NonBlank(parts: seq<string>): (r: seq<string>)
    ensures |r| <= |parts|
    ensures forall x <- r :: Clean(x)
  {
    var xs := StripAll(parts);
    assert forall x <- xs :: Text.NoEdgeSpace(x);
    DropEmpty(xs)
  }

  /** The pieces of `text` between occurrences of `sep`, cleaned. */
  function ParseIds(text: string, sep: char): (r: seq<string>)
    ensures forall x <- r :: Clean(x)
  {
    NonBlank(Text.Split(text, sep))
  }

  /** `_parse_ids_arg(ids)` of the CLI. */
  function CommaIds(ids: string): (r: seq<string>)
    ensures forall x <- r :: Clean(x)
  {
    ParseIds(ids, ',')
  }

  /** `_parse_multi_ids(value)` of the vulnerability module: an empty value short-circuits to `[]`. */
  function MultiIds(value: string): (r: seq<string>)
    ensures value == "" ==> r == []
    ensures forall x <- r :: Clean(x)
  {
    if value == "" then [] else CommaIds(value)
  }

  /**
    The text as iterating a file opened in text mode sees it: universal
    newlines make a lone `'\r'` end a line just as `'\n'` does. A `"\r\n"`
    pair becomes two line ends here, and the empty line between them is
    skipped like any other blank line.
  */
  function UniversalNewlines(content: string): (r: string)
    ensures |r| == |content|
    ensures forall i :: 0 <= i < |r| ==> r[i] != '\r'
    ensures forall i :: 0 <= i < |r| ==> (r[i] == '\n' <==> content[i] in "\r\n")
    ensures forall i :: 0 <= i < |r| && content[i] !in "\r\n" ==> r[i] == content[i]
  {
    seq(|content|, i requires 0 <= i < |content| => if content[i] == '\r' then '\n' else content[i])
  }

  /**
    The IDs `_load_ids_from_file` keeps from a file whose text is `content`:
    each line stripped, blank lines skipped.
  */
  function FileIds(content: string): (r: seq<string>)
    ensures forall x <- r :: Clean(x)
  {
    ParseIds(UniversalNewlines(content), '\n')
  }

  // ---------------------------------------------------------------------
  // Properties
  // ---------------------------------------------------------------------

  /** Dropping empty strings distributes over concatenation. */
  lemma {:induction false} DropEmptyAppend(a: seq<string>, b: seq<string>)
    ensures DropEmpty(a + b) == DropEmpty(a) + DropEmpty(b)
    decreases |a|
  {
    if |a| > 0 {
      assert (a + b)[0] == a[0];
      assert (a + b)[1..] == a[1..] + b;
      DropEmptyAppend(a[1..], b);
    } else {
      assert a + b == b;
    }
  }

  /** Every non-empty string of `xs` is kept. */
  lemma {:induction false} DropEmptyKeeps(xs: seq<string>, i: nat)
    requires i < |xs| && xs[i] != ""
    ensures xs[i] in DropEmpty(xs)
    decreases i
  {
    if i > 0 {
      assert xs[1..][i - 1] == xs[i];
      DropEmptyKeeps(xs[1..], i - 1);
    }
  }

  /** Without empty strings nothing is dropped. */
  lemma {:induction false} DropEmptyOfNonEmpty(xs: seq<string>)
    requires forall x <- xs :: x != ""
    ensures DropEmpty(xs) == xs
    decreases |xs|
  {
    if |xs| > 0 {
      assert xs[0] in xs;
      assert forall x <- xs[1..] :: x in xs;
      DropEmptyOfNonEmpty(xs[1..]);
      assert xs == [xs[0]] + xs[1..];
    }
  }

  /** Cleaning distributes over concatenation: the order of the input is the order of the output. */
  lemma NonBlankAppend(a: seq<string>, b: seq<string>)
    ensures NonBlank(a + b) == NonBlank(a) + NonBlank(b)
  {
    StripAllAppend(a, b);
    DropEmptyAppend(StripAll(a), StripAll(b));
  }

  lemma StripAllAppend(a: seq<string>, b: seq<string>)
    ensures StripAll(a + b) == StripAll(a) + StripAll(b)
  {
    var l, r := StripAll(a + b), StripAll(a) + StripAll(b);
    assert |l| == |r|;
    forall i | 0 <= i < |l| ensures l[i] == r[i] {
      if i < |a| {
        assert (a + b)[i] == a[i] && r[i] == StripAll(a)[i];
      } else {
        assert (a + b)[i] == b[i - |a|] && r[i] == StripAll(b)[i - |a|];
      }
    }
  }

  /** A piece survives exactly when its stripped form is not blank. */
  lemma NonBlankSingle(p: string)
    ensures NonBlank([p]) == (if Text.Strip(p) == "" then [] else [Text.Strip(p)])
  {
    var xs := StripAll([p]);
    assert xs == [Text.Strip(p)];
    assert xs[1..] == [];
  }

  /** Every non-blank piece appears in the output, stripped. */
  lemma NonBlankKeeps(parts: seq<string>, i: nat)
    requires i < |parts| && Text.Strip(parts[i]) != ""
    ensures Text.Strip(parts[i]) in NonBlank(parts)
  {
    DropEmptyKeeps(StripAll(parts), i);
  }

  /** Every output element is some piece, stripped. */
  lemma NonBlankFrom(parts: seq<string>, x: string)
    requires x in NonBlank(parts)
    ensures exists i :: 0 <= i < |parts| && x == Text.Strip(parts[i])
  {
    var xs := StripAll(parts);
    assert x in xs;
    var i :| 0 <= i < |xs| && xs[i] == x;
  }

  /** Pieces that are already clean pass through untouched. */
  lemma NonBlankOfClean(parts: seq<string>)
    requires forall p <- parts :: Clean(p)
    ensures NonBlank(parts) == parts
  {
    var xs := StripAll(parts);
    forall i | 0 <= i < |parts| ensures xs[i] == parts[i] {
      assert parts[i] in parts;
      Text.StripOfNoEdgeSpace(parts[i]);
    }
    assert xs == parts;
    DropEmptyOfNonEmpty(parts);
  }

  /** Joining clean, separator-free IDs with the separator and parsing gives the IDs back. */
  lemma ParseJoin(ids: seq<string>, sep: char)
    requires forall x <- ids :: Clean(x) && sep !in x
    ensures ParseIds(Text.Join([sep], ids), sep) == ids
  {
    if |ids| == 0 {
      assert Text.Split("", sep) == [""];
      NonBlankSingle("");
      Text.StripOfNoEdgeSpace("");
    } else {
      Text.SplitJoin(ids, sep);
      NonBlankOfClean(ids);
    }
  }

  /** A lone carriage return ends a line, so it separates two IDs. */
  lemma FileIdsCarriageReturn()
    ensures FileIds("101\r102") == ["101", "102"]
  {
    var one := ["101", "102"];
    assert UniversalNewlines("101\r102") == Text.Join("\n", one);
    Text.SplitJoin(one, '\n');
    NonBlankOfClean(one);
  }

  /** The vulnerability module's guard is redundant: both comma parsers agree on every input. */
  lemma MultiIdsIsCommaIds(value: string)
    ensures MultiIds(value) == CommaIds(value)
  {
    if value == "" {
      assert Text.Split(value, ',') == [""];
      NonBlankSingle("");
      assert CommaIds(value) == NonBlank([""]);
    }
  }
}

=== FILE: json.dfy ===
/**
  The JSON-shaped values the API returns and the SDK passes around
  (`dict`, `list`, `str`, `int`, `float`, `bool`, `None`). A Pydantic model
  built with `extra="allow"` keeps every field it was given, so a model is
  represented by the same object it was parsed from.
*/
module Json {
  import opened Wrappers
  import Text
  import Dict

  datatype Json =
    | JNull
    | JBool(b: bool)
    | JInt(i: int)
    | JFloat(f: real)
    | JStr(s: string)
    | JList(items: seq<Json>)
    | JObj(fields: Dict.Dict<Json>)

  /** The values Python's `len()` accepts: strings, lists and dicts; anything else raises `TypeError`. */
  predicate Sized(v: Json) {
    v.JStr? || v.JList? || v.JObj?
  }

  /** Python truthiness: `None`, `False`, zero and empty containers are false. */
  predicate Truthy(v: Json) {
    match v
    case JNull => false
    case JBool(b) => b
    case JInt(i) => i != 0
    case JFloat(f) => f != 0.0
    case JStr(s) => |s| > 0
    case JList(xs) => |xs| > 0
    case JObj(fs) => |fs| > 0
  }

  /** `obj.get(k, default)` on a JSON object. */
  function GetOr(obj: Json, k: string, default: Json): (r: Json)
    requires obj.JObj?
    ensures k !in Dict.KeySet(obj.fields) ==> r == default
    ensures k in Dict.KeySet(obj.fields) ==> Dict.Get(obj.fields, k) == Some(r)
  {
    Dict.Get(obj.fields, k).GetOr(default)
  }

  /** `obj.get(k)`. */
  function Get(obj: Json, k: string): Json
    requires obj.JObj?
  {
    GetOr(obj, k, JNull)
  }

  /** `obj[k] = v` on a JSON object. */
  function Put(obj: Json, k: string, v: Json): (r: Json)
    requires obj.JObj?
    ensures r.JObj? && Get(r, k) == v
    ensures forall k' :: k' != k ==> Get(r, k') == Get(obj, k')
  {
    JObj(Dict.Put(obj.fields, k, v))
  }

  /**
    `obj.get(a) or obj.get(b) or ... or fallback`: the first truthy value
    among the keys, else `fallback`.
  */
  function FirstTruthy(obj: Json, keys: seq<string>, fallback: Json): (r: Json)
    requires obj.JObj?
    ensures r == fallback || exists i :: 0 <= i < |keys| && r == Get(obj, keys[i]) && Truthy(r)
    ensures forall i :: 0 <= i < |keys| && Truthy(Get(obj, keys[i])) ==> Truthy(r)
    ensures (forall i :: 0 <= i < |keys| ==> !Truthy(Get(obj, keys[i]))) ==> r == fallback
  {
    if |keys| == 0 then fallback
    else if Truthy(Get(obj, keys[0])) then Get(obj, keys[0])
    else
      var r := FirstTruthy(obj, keys[1..], fallback);
      assert forall i :: 1 <= i < |keys| ==> keys[i] == keys[1..][i - 1];
      r
  }

  /** An optional string field of a model: a string value, absent otherwise. */
  function StrField(obj: Json, k: string): (r: Option<string>)
    ensures r.Some? <==> obj.JObj? && Get(obj, k).JStr?
    ensures r.Some? ==> Get(obj, k) == JStr(r.value)
  {
    if obj.JObj? && Get(obj, k).JStr? then Some(Get(obj, k).s) else None
  }

  /** `Some(s)` as `JStr(s)`, `None` as `JNull`: how an optional string is stored. */
  function OptStr(o: Option<string>): (r: Json)
    ensures o.None? <==> r == JNull
    ensures o.Some? ==> r == JStr(o.value)
  {
    match o
    case None => JNull
    case Some(s) => JStr(s)
  }

  /**
    The text Python produces for values this model does not spell out:
    `repr` stands for `str()` of a float, list or dict, and `dumps` for
    `json.dumps`.
  */
  datatype Renderer = Renderer(repr: Json -> string, dumps: Json -> string)

  /** Python `str(v)`: exact for `None`, booleans, integers and strings. */
  function PyStr(v: Json, render: Renderer): (r: string)
    ensures v.JStr? ==> r == v.s
    ensures v.JInt? ==> Text.ParseInt(r) == Some(v.i)
  {
    match v
    case JNull => "None"
    case JBool(b) => if b then "True" else "False"
    case JInt(i) => Text.ParseIntOfDecimal(i); Text.IntToDecimal(i)
    case JStr(s) => s
    case _ => render.repr(v)
  }
}

=== FILE: models.dfy ===
/**
  `parse_model` and the model attributes the modelled code reads. A model
  built from a dict keeps all of the dict's fields (`extra="allow"`), so a
  parsed model is the same JSON object; `None` stays `None`; anything else
  fails validation twice over and raises.
*/
module Models {
  import opened Wrappers
  import opened Json
  import opened Errors

  /** `parse_model(cls, raw)`. */
  function ParseModel(raw: Json): (r: Result<Json, Error>)
    ensures raw.JNull? || raw.JObj? <==> r.Success?
    ensures r.Success? ==> r.value == raw
    ensures r.Failure? ==> r.error.RuntimeFault? && r.error.kind == "ValidationError"
  {
    if raw.JNull? || raw.JObj? then Success(raw) else Failure(RuntimeFault("ValidationError", "model"))
  }

  /**
    The key a model is cached under: its `id` when the model exists and the
    id is a non-empty string (`if model and model.id`).
  */
  function CacheId(m: Json): (r: Option<string>)
    ensures r.Some? <==> m.JObj? && StrField(m, "id").Some? && StrField(m, "id").value != ""
    ensures r.Some? ==> Get(m, "id") == JStr(r.value)
  {
    match StrField(m, "id")
    case Some(id) => if id != "" then Some(id) else None
    case None => None
  }

  /** Each element of a list through `parse_model`; the first failure is raised. */
  function ParseAll(items: seq<Json>): (r: Result<seq<Json>, Error>)
    ensures r.Success? <==> forall x <- items :: x.JNull? || x.JObj?
    ensures r.Success? ==> r.value == items
  {
    if |items| == 0 then Success([])
    else
      var head :- ParseModel(items[0]);
      var tail :- ParseAll(items[1..]);
      assert items == [items[0]] + items[1..];
      Success([head] + tail)
  }

  /**
    The elements `for x in v` visits: a list's items, a string's characters,
    a dict's keys; any other value is not iterable.
  */
  function Iterate(v: Json): (r: Result<seq<Json>, Error>)
    ensures v.JList? ==> r == Success(v.items)
    ensures v.JStr? ==> r.Success? && |r.value| == |v.s| && forall i :: 0 <= i < |v.s| ==> r.value[i] == JStr([v.s[i]])
    ensures v.JObj? ==> r.Success? && |r.value| == |v.fields| && forall i :: 0 <= i < |v.fields| ==> r.value[i] == JStr(v.fields[i].0)
    ensures r.Failure? <==> v.JNull? || v.JBool? || v.JInt? || v.JFloat?
    ensures r.Failure? ==> r.error.RuntimeFault? && r.error.kind == "TypeError"
  {
    match v
    case JList(xs) => Success(xs)
    case JStr(s) => Success(seq(|s|, i requires 0 <= i < |s| => JStr([s[i]])))
    case JObj(fs) => Success(seq(|fs|, i requires 0 <= i < |fs| => JStr(fs[i].0)))
    case _ => Failure(RuntimeFault("TypeError", "not iterable"))
  }
}

=== FILE: plugins.dfy ===
/**
  `PluginsAPI`: plugin metadata as plain dicts, a batch lookup that records
  failures instead of raising, and the CSV-safe flattening of plugins.
*/
module Plugins {
  import opened Wrappers
  import opened Json
  import opened Errors
  import Models
  import Dict
  import CsvSafe
  import opened Api

  const PluginsPath: string := "/was/v2/plugins"

  function PluginPath(pluginId: string): string {
    "/was/v2/plugins/" + pluginId
  }

  /** `list_plugins()`: the answer's "items", else its "plugins", else `[]`. */
  function ListPlugins(server: Server): (r: Exchange<Json>)
    ensures r.calls == [GetCall(PluginsPath, None)]
    ensures var out := server(GetCall(PluginsPath, None));
      && (out.Failure? ==> r.result == out)
      && (out.Success? && !out.value.JObj? ==> r.result == Failure(RuntimeFault("AttributeError", "get")))
      && (out.Success? && out.value.JObj? ==>
            r.result.Success?
            && (Truthy(Get(out.value, "items")) ==> r.result.value == Get(out.value, "items"))
            && (!Truthy(Get(out.value, "items")) && Truthy(Get(out.value, "plugins")) ==>
                  r.result.value == Get(out.value, "plugins"))
            && (!Truthy(Get(out.value, "items")) && !Truthy(Get(out.value, "plugins")) ==>
                  r.result.value == JList([])))
  {
    var call := GetCall(PluginsPath, None);
    var result :=
      match server(call)
      case Failure(e) => Failure(e)
      case Success(raw) =>
        if !raw.JObj? then Failure(RuntimeFault("AttributeError", "get"))
        else if Truthy(Get(raw, "items")) then Success(Get(raw, "items"))
        else if Truthy(Get(raw, "plugins")) then Success(Get(raw, "plugins"))
        else Success(JList([]));
    Exchange(result, [call])
  }

  /** `get_plugin(plugin_id)`: one GET, its answer as it is. */
  function GetPlugin(pluginId: string, server: Server): (r: Exchange<Json>)
    ensures r.calls == [GetCall(PluginPath(pluginId), None)]
    ensures r.result == server(GetCall(PluginPath(pluginId), None))
  {
    var call := GetCall(PluginPath(pluginId), None);
    Exchange(server(call), [call])
  }

  /** The record `get_multiple` keeps for a plugin whose lookup raised `TenableAPIError`. */
  function ErrorEntry(pluginId: string, e: Error, render: Renderer): (r: Json)
    requires e.ApiError?
    ensures r.JObj? && Get(r, "plugin_id") == JStr(pluginId) && Get(r, "error") == JStr(Describe(e, render))
  {
    var t := [("error", JStr(Describe(e, render)))];
    Dict.ConsGets(("plugin_id", JStr(pluginId)), t);
    Dict.ConsGets(t[0], []);
    assert [t[0]] + [] == t;
    JObj([("plugin_id", JStr(pluginId))] + t)
  }

  /** The entry a batch holds for `pluginId` when its lookup does not escape: the plugin, or its error record. */
  function EntryFor(pluginId: string, server: Server, render: Renderer): Json
    requires !Escapes(server(GetCall(PluginPath(pluginId), None)))
  {
    match server(GetCall(PluginPath(pluginId), None))
    case Success(v) => v
    case Failure(e) => ErrorEntry(pluginId, e, render)
  }

  /**
    `get_multiple(plugin_ids)`: each ID looked up in turn; a
    `TenableAPIError` becomes an error record in the plugin's place, any
    other error ends the batch.
  */
  function GetMultiple(ids: seq<string>, server: Server, render: Renderer): (r: Exchange<seq<Json>>)
    ensures |r.calls| <= |ids|
    ensures r.result.Failure? ==> Escapes(r.result)
    decreases |ids|
  {
    if |ids| == 0 then Exchange(Success([]), [])
    else
      var pre := GetMultiple(ids[..|ids| - 1], server, render);
      if pre.result.Failure? then pre
      else
        var pid := ids[|ids| - 1];
        var one := GetPlugin(pid, server);
        match one.result
        case Success(v) => Exchange(Success(pre.result.value + [v]), pre.calls + one.calls)
        case Failure(e) =>
          if e.ApiError? then Exchange(Success(pre.result.value + [ErrorEntry(pid, e, render)]), pre.calls + one.calls)
          else Exchange(Failure(e), pre.calls + one.calls)
  }

  /** The requests a batch sends when nothing escapes: one per ID, in order. */
  function Lookups(ids: seq<string>): (r: seq<Call>)
    ensures |r| == |ids|
  {
    seq(|ids|, i requires 0 <= i < |ids| => GetCall(PluginPath(ids[i]), None))
  }

  /** A batch fails exactly when some lookup raises something other than `TenableAPIError`. */
  lemma {:induction false} GetMultipleSucceeds(ids: seq<string>, server: Server, render: Renderer)
    ensures GetMultiple(ids, server, render).result.Success? <==>
      forall id <- ids :: !Escapes(server(GetCall(PluginPath(id), None)))
    decreases |ids|
  {
    if |ids| > 0 {
      var n := |ids| - 1;
      var pre := ids[..n];
      GetMultipleSucceeds(pre, server, render);
      assert ids == pre + [ids[n]];
      assert forall id <- ids :: id in pre || id == ids[n];
    }
  }

  /**
    A batch that succeeds holds one entry per requested ID, in order, each
    the plugin or its error record, and sent one request per ID.
  */
  lemma {:induction false} GetMultipleEntries(ids: seq<string>, server: Server, render: Renderer)
    requires GetMultiple(ids, server, render).result.Success?
    ensures var r := GetMultiple(ids, server, render);
      && |r.result.value| == |ids|
      && (forall i :: 0 <= i < |ids| ==>
            !Escapes(server(GetCall(PluginPath(ids[i]), None))) && r.result.value[i] == EntryFor(ids[i], server, render))
      && r.calls == Lookups(ids)
    decreases |ids|
  {
    if |ids| > 0 {
      var n := |ids| - 1;
      var pre := ids[..n];
      GetMultipleLast(ids, server, render);
      GetMultipleEntries(pre, server, render);
      var p := GetMultiple(pre, server, render);
      var r := GetMultiple(ids, server, render);
      var entries := p.result.value + [EntryFor(ids[n], server, render)];
      assert r.result.value == entries && |p.result.value| == n;
      LookupsSnoc(ids);
      forall i | 0 <= i < |ids|
        ensures !Escapes(server(GetCall(PluginPath(ids[i]), None))) && r.result.value[i] == EntryFor(ids[i], server, render)
      {
        if i < n {
          assert ids[i] == pre[i];
          calc {
            r.result.value[i];
            entries[i];
            p.result.value[i];
          }
        }
      }
    }
  }

  lemma LookupsSnoc(ids: seq<string>)
    requires |ids| > 0
    ensures Lookups(ids) == Lookups(ids[..|ids| - 1]) + [GetCall(PluginPath(ids[|ids| - 1]), None)]
  {
  }

  /** One step of a successful batch: the entries so far, then the last ID's entry after its request. */
  lemma GetMultipleLast(ids: seq<string>, server: Server, render: Renderer)
    requires |ids| > 0 && GetMultiple(ids, server, render).result.Success?
    ensures var pre := GetMultiple(ids[..|ids| - 1], server, render);
      var last := ids[|ids| - 1];
      && pre.result.Success? && !Escapes(server(GetCall(PluginPath(last), None)))
      && GetMultiple(ids, server, render)
         == Exchange(Success(pre.result.value + [EntryFor(last, server, render)]), pre.calls + [GetCall(PluginPath(last), None)])
  {
  }

  /** `flatten_single(plugin_id)`: the plugin, made CSV-safe. */
  function FlattenSingle(pluginId: string, server: Server, render: Renderer): (r: Exchange<Json>)
    ensures r.calls == [GetCall(PluginPath(pluginId), None)]
    ensures var out := server(GetCall(PluginPath(pluginId), None));
      && (out.Failure? ==> r.result == out)
      && (out.Success? ==> r.result == CsvSafe.FlattenObject(out.value, render))
  {
    var got := GetPlugin(pluginId, server);
    match got.result
    case Failure(e) => Exchange(Failure(e), got.calls)
    case Success(obj) => Exchange(CsvSafe.FlattenObject(obj, render), got.calls)
  }

  /** `flatten_all()`: every listed plugin, made CSV-safe, in listing order. */
  function FlattenAll(server: Server, render: Renderer): (r: Exchange<seq<Json>>)
    ensures r.calls == ListPlugins(server).calls
    ensures ListPlugins(server).result.Failure? ==> r.result == Failure(ListPlugins(server).result.error)
    ensures ListPlugins(server).result.Success? && ListPlugins(server).result.value.JList? ==>
      r.result == CsvSafe.FlattenEach(ListPlugins(server).result.value.items, render)
    // a listing that is not a list is a truthy string, dict, number or boolean: its
    // characters and keys are not dicts, and the scalars do not iterate
    ensures ListPlugins(server).result.Success? && !ListPlugins(server).result.value.JList? ==> r.result.Failure?
  {
    var listed := ListPlugins(server);
    match listed.result
    case Failure(e) => Exchange(Failure(e), listed.calls)
    case Success(items) =>
      match Models.Iterate(items)
      case Failure(e) => Exchange(Failure(e), listed.calls)
      case Success(ps) =>
        assert !items.JList? ==> Truthy(items) && |ps| > 0 && !ps[0].JObj?;
        Exchange(CsvSafe.FlattenEach(ps, render), listed.calls)
  }

  /** `flatten_multiple(plugin_ids)`: the batch lookup, each entry made CSV-safe. */
  function FlattenMultiple(ids: seq<string>, server: Server, render: Renderer): (r: Exchange<seq<Json>>)
    ensures r.calls == GetMultiple(ids, server, render).calls
    ensures GetMultiple(ids, server, render).result.Failure? ==> r.result == GetMultiple(ids, server, render).result
    ensures GetMultiple(ids, server, render).result.Success? ==>
      r.result == CsvSafe.FlattenEach(GetMultiple(ids, server, render).result.value, render)
  {
    var got := GetMultiple(ids, server, render);
    match got.result
    case Failure(e) => Exchange(Failure(e), got.calls)
    case Success(objs) => Exchange(CsvSafe.FlattenEach(objs, render), got.calls)
  }

  /** An error record is already CSV-safe: flattening leaves it as it is. */
  lemma ErrorEntryIsFlat(pluginId: string, e: Error, render: Renderer)
    requires e.ApiError?
    ensures CsvSafe.FlattenObject(ErrorEntry(pluginId, e, render), render) == Success(ErrorEntry(pluginId, e, render))
  {
    CsvSafe.FlattenFieldsOfCells(ErrorEntry(pluginId, e, render).fields, render);
  }

  /**
    When every plugin lookup answers with a dict or fails with
    `TenableAPIError`, `flatten_multiple` returns one CSV-safe row per
    requested ID, in order, with the keys of that ID's entry.
  */
  lemma FlattenMultipleRows(ids: seq<string>, server: Server, render: Renderer)
    requires forall id <- ids :: var out := server(GetCall(PluginPath(id), None));
      (out.Success? && out.value.JObj?) || (out.Failure? && out.error.ApiError?)
    ensures var r := FlattenMultiple(ids, server, render);
      && r.result.Success? && |r.result.value| == |ids|
      && forall i :: 0 <= i < |ids| ==> Success(r.result.value[i]) == CsvSafe.FlattenObject(EntryFor(ids[i], server, render), render)
  {
    GetMultipleSucceeds(ids, server, render);
    GetMultipleEntries(ids, server, render);
    var objs := GetMultiple(ids, server, render).result.value;
    forall o <- objs
      ensures o.JObj?
    {
      var i :| 0 <= i < |objs| && objs[i] == o;
      assert ids[i] in ids;
    }
  }
}

=== FILE: scans.dfy ===
/**
  `ScansAPI` (scans.py): cache-fronted scan fetches, status classification,
  and the launch-then-poll orchestration. The server, the cache and the
  clock are explicit: every operation takes the cache and the time and
  returns the cache it leaves behind with the calls it sent.
*/
module Scans {
  import opened Wrappers
  import opened Text
  import opened Json
  import opened Errors
  import Cache
  import opened Models
  import opened Api

  const ScansPath: string := "/was/v2/scans"

  function ScanPath(id: string): string {
    ScansPath + "/" + id
  }

  function LaunchPath(id: string): string {
    ScanPath(id) + "/launch"
  }

  const TerminalStates: seq<string> := ["completed", "failed", "cancelled"]

  /** `scan.status in TERMINAL_STATES`: exact, case-sensitive membership. */
  predicate IsTerminal(scan: Json) {
    StrField(scan, "status").Some? && StrField(scan, "status").value in TerminalStates
  }

  // ---------------------------------------------------------------------
  // Cache-fronted fetches
  // ---------------------------------------------------------------------

  /** Scans are cached for five minutes under their id, as parsed by `parse_model`. */
  const Scan: Resource := Resource("scans", Some(300), ParseModel)

  /**
    `get_scan(scan_id, use_cache)`: a live cache entry answers without a
    call; otherwise the scan is fetched and, when it has an id, cached.
  */
  function GetScan(store: Cache.Store<Json>, id: string, useCache: bool, now: real, server: Server): (r: Effect<Json>)
    ensures useCache && LiveHit(Scan, store, id, now) ==>
      r == Effect(Success(Cache.Find(store, "scans", id).value.value), store, [])
    ensures !(useCache && LiveHit(Scan, store, id, now)) ==>
      var out := server(GetCall(ScanPath(id), None));
      r.calls == [GetCall(ScanPath(id), None)]
      && (r.result.Success? <==> out.Success? && (out.value.JNull? || out.value.JObj?))
      && (out.Failure? ==> r.result == out)
      && (r.result.Success? ==> r.result.value == out.value)
    // a fetch writes the model back over the store the lookup left, which without the cache is the store itself
    ensures !(useCache && LiveHit(Scan, store, id, now)) ==>
      var base := if useCache then Cache.Get(store, "scans", id, now).store else store;
      (r.result.Success? ==> r.store == Remember(base, "scans", r.result.value, Some(300), now))
      && (r.result.Failure? ==> r.store == base)
  {
    CachedGet(Scan, store, id, ScanPath(id), useCache, now, server)
  }

  /**
    `list_all(use_cache)`: the stored scans when the namespace is non-empty,
    otherwise the "scans" (else "items") list of the listing, parsed and cached.
  */
  function ListAll(store: Cache.Store<Json>, useCache: bool, now: real, server: Server): (r: Effect<seq<Json>>)
    ensures useCache && Stocked(Scan, store) ==>
      r == Effect(Success(Cache.StoredValues(store, "scans")), store, [])
    ensures !(useCache && Stocked(Scan, store)) ==> r.calls == [GetCall(ScansPath, None)]
  {
    CachedList(Scan, store, ScansPath, ["scans", "items"], useCache, now, server)
  }

  /**
    A listing that reaches the server succeeds exactly when its items form a
    list of dicts and nulls, which come back unchanged.
  */
  lemma ListAllListing(store: Cache.Store<Json>, useCache: bool, now: real, server: Server)
    requires ListAll(store, useCache, now, server).calls != []
    requires server(GetCall(ScansPath, None)).Success? && server(GetCall(ScansPath, None)).value.JObj?
    ensures var r := ListAll(store, useCache, now, server);
      var items := FirstTruthy(server(GetCall(ScansPath, None)).value, ["scans", "items"], JList([]));
      && (r.result.Success? <==> items.JList? && forall x <- items.items :: x.JNull? || x.JObj?)
      && (r.result.Success? ==> items == JList(r.result.value))
  {
    var r := ListAll(store, useCache, now, server);
    var items := FirstTruthy(server(GetCall(ScansPath, None)).value, ["scans", "items"], JList([]));
    if !items.JList? && Iterate(items).Success? {
      // a string's characters and a dict's keys are strings, never a model
      var xs := Iterate(items).value;
      assert |xs| > 0 && xs[0].JStr?;
      assert ParseModel(xs[0]).Failure?;
    }
    if r.result.Success? {
      assert items.items == r.result.value;
    }
  }

  // ---------------------------------------------------------------------
  // Status classification
  // ---------------------------------------------------------------------

  /** The human-readable description of a lower-cased status, when it is one of the six known. */
  function Describe(l: string): Option<string> {
    if l == "queued" then Some("Queued (waiting to start)")
    else if l == "running" then Some("Running")
    else if l == "processing" then Some("Processing results")
    else if l == "completed" then Some("Completed successfully")
    else if l == "failed" then Some("Failed")
    else if l == "cancelled" then Some("Cancelled")
    else None
  }

  /** `classify_status(status)`. */
  function ClassifyStatus(status: Option<string>): (r: string)
    // "unknown" exactly for a missing or empty status
    ensures r == "unknown" <==> status.None? || status.value == ""
    ensures status.Some? && status.value != "" && Describe(Lower(status.value)).Some? ==>
      r == Describe(Lower(status.value)).value
    ensures status.Some? && status.value != "" && Describe(Lower(status.value)).None? ==>
      r == "unknown (" + status.value + ")"
  {
    match status
    case None => "unknown"
    case Some(s) =>
      if s == "" then "unknown"
      else match Describe(Lower(s))
        case Some(d) => d
        case None =>
          assert |"unknown (" + s + ")"| > |"unknown"|;
          "unknown (" + s + ")"
  }

  /** Known statuses are matched case-insensitively: any casing of one classifies like its lower-case form. */
  lemma ClassifyIgnoresCase(s: string)
    requires Describe(Lower(s)).Some?
    ensures ClassifyStatus(Some(s)) == ClassifyStatus(Some(Lower(s))) == ClassifyStatus(Some(Upper(s)))
  {
    LowerIdempotent(s);
    LowerUpper(s);
    assert s != "";
    assert Lower(s) != "";
    assert Upper(s) != "" by { assert |Upper(s)| == |s|; }
  }

  /** Classification lower-cases, terminal membership does not: "COMPLETED" is described as completed but is not terminal. */
  lemma TerminalIsCaseSensitive()
    ensures ClassifyStatus(Some("COMPLETED")) == "Completed successfully"
    ensures !IsTerminal(JObj([("status", JStr("COMPLETED"))]))
    ensures IsTerminal(JObj([("status", JStr("completed"))]))
  {
    assert Lower("COMPLETED") == "completed";
    var a := [("status", JStr("COMPLETED"))];
    var b := [("status", JStr("completed"))];
    Dict.GetAt(a, 0);
    Dict.GetAt(b, 0);
    assert "COMPLETED" !in TerminalStates;
  }

  /** Every terminal status classifies as completed, failed or cancelled. */
  lemma TerminalClassification(t: string)
    requires t in TerminalStates
    ensures ClassifyStatus(Some(t)) in ["Completed successfully", "Failed", "Cancelled"]
  {
    LowerOfLowercaseTerminal(t);
  }

  lemma LowerOfLowercaseTerminal(t: string)
    requires t in TerminalStates
    ensures Lower(t) == t
  {
  }

  // ---------------------------------------------------------------------
  // Orchestration
  // ---------------------------------------------------------------------

  /** `launch_scan(scan_id)`: the launch call, then the scan's cache entry is evicted. */
  function LaunchScan(store: Cache.Store<Json>, id: string, server: Server): (r: Effect<()>)
    ensures r.calls == [PostCall(LaunchPath(id), None)]
    ensures r.result.Success? <==> server(PostCall(LaunchPath(id), None)).Success?
    ensures r.result.Failure? ==>
      r.result.error == server(PostCall(LaunchPath(id), None)).error && r.store == store
    ensures r.result.Success? ==>
      Cache.Find(r.store, "scans", id).None?
      && (forall k :: k != id ==> Cache.Find(r.store, "scans", k) == Cache.Find(store, "scans", k))
      && r.store.Keys == store.Keys
  {
    var call := PostCall(LaunchPath(id), None);
    match server(call)
    case Failure(e) => Effect(Failure(e), store, [call])
    case Success(_) => Effect(Success(()), Cache.Delete(store, "scans", id), [call])
  }

  /** After a launch, `get_scan` cannot answer from the cache: it fetches the fresh scan. */
  lemma LaunchThenGetFetches(store: Cache.Store<Json>, id: string, now: real, server: Server)
    requires LaunchScan(store, id, server).result.Success?
    ensures GetScan(LaunchScan(store, id, server).store, id, true, now, server).calls
      == [GetCall(ScanPath(id), None)]
  {
  }

  /** One poll: the scan's fetch outcome, the time it was cached, and the time read after it. */
  datatype Poll = Poll(outcome: Result<Json, Error>, fetchedAt: real, checkedAt: real)

  function TimeoutText(id: string): string {
    "Scan " + id + " did not complete within timeout."
  }

  /**
    What one poll decides: `None` to sleep and poll again, otherwise how the
    wait ends. The terminal check comes first, so a terminal scan is returned
    whatever the clock says; the deadline is strict.
  */
  function Verdict(id: string, p: Poll, start: real, timeout: int): (r: Option<Result<Json, Error>>)
    // polling never goes on once the deadline has passed
    ensures r.None? ==> p.checkedAt - start <= timeout as real
  {
    match p.outcome
    case Failure(e) => Some(Failure(e))
    case Success(raw) =>
      if raw.JNull? then Some(Failure(RuntimeFault("AttributeError", "status")))
      else if !raw.JObj? then Some(Failure(RuntimeFault("ValidationError", "model")))
      else if IsTerminal(raw) then Some(Success(raw))
      else if p.checkedAt - start > timeout as real then Some(Failure(TimeoutError(TimeoutText(id))))
      else None
  }

  /**
    The order of the checks: a failed fetch ends the wait with its error; a
    terminal scan is returned whatever the clock says; a timeout needs a
    non-terminal scan and a strictly passed deadline; and polling goes on
    exactly while a scan is non-terminal and the deadline not passed.
  */
  lemma VerdictOrder(id: string, p: Poll, start: real, timeout: int)
    ensures p.outcome.Failure? ==> Verdict(id, p, start, timeout) == Some(p.outcome)
    ensures p.outcome.Success? && IsTerminal(p.outcome.value) ==> Verdict(id, p, start, timeout) == Some(p.outcome)
    ensures p.outcome.Success? ==>
      (Verdict(id, p, start, timeout) == Some(Failure(TimeoutError(TimeoutText(id)))) <==>
        p.outcome.value.JObj? && !IsTerminal(p.outcome.value) && p.checkedAt - start > timeout as real)
    ensures Verdict(id, p, start, timeout).None? <==>
      p.outcome.Success? && p.outcome.value.JObj? && !IsTerminal(p.outcome.value)
      && p.checkedAt - start <= timeout as real
  {
  }

  /** The cache after one poll: the fetched scan is written back when it has an id. */
  function AfterPoll(st: Cache.Store<Json>, id: string, p: Poll): Cache.Store<Json> {
    Received(Scan, st, ScanPath(id), p.fetchedAt, p.outcome).store
  }

  /** The cache after the first `n` polls. */
  function PolledStore(store: Cache.Store<Json>, id: string, polls: nat -> Poll, n: nat): Cache.Store<Json> {
    if n == 0 then store else AfterPoll(PolledStore(store, id, polls, n - 1), id, polls(n - 1))
  }

  /** The checks the poll loop makes on a fetched scan, in its order, agree with `Verdict`. */
  lemma ReceivedDecides(st: Cache.Store<Json>, id: string, p: Poll, start: real, timeout: int)
    ensures var e := Received(Scan, st, ScanPath(id), p.fetchedAt, p.outcome);
      var v := Verdict(id, p, start, timeout);
      (e.result.Failure? ==> v == Some(e.result))
      && (e.result.Success? && e.result.value.JNull? ==> v == Some(Failure(RuntimeFault("AttributeError", "status"))))
      && (e.result.Success? && !e.result.value.JNull? ==>
            (IsTerminal(e.result.value) ==> v == Some(e.result))
            && (!IsTerminal(e.result.value) && p.checkedAt - start > timeout as real ==>
                  v == Some(Failure(TimeoutError(TimeoutText(id)))))
            && (!IsTerminal(e.result.value) && p.checkedAt - start <= timeout as real ==> v.None?))
  {
  }

  /** The error `time.sleep` raises on a negative interval. */
  const NegativeSleep: Error := ValueError("sleep length must be non-negative")

  /** How a wait ended, the cache it left, the calls it sent, and the sleeps between them. */
  datatype Wait = Wait(result: Result<Json, Error>, store: Cache.Store<Json>, calls: seq<Call>, sleeps: seq<int>)

  /**
    `wait_until_complete(scan_id, interval, timeout)`. Poll `k` returns
    `polls(k)`; the clock passes the deadline by poll `horizon` at the
    latest, which bounds the loop.
  */
  method WaitUntilComplete(store: Cache.Store<Json>, id: string, interval: int, timeout: int, start: real,
                           polls: nat -> Poll, ghost horizon: nat)
    returns (w: Wait)
    requires polls(horizon).checkedAt - start > timeout as real
    ensures 1 <= |w.calls| <= horizon + 1
    // every poll goes to the server: the cache is never consulted
    ensures forall c <- w.calls :: c == GetCall(ScanPath(id), None)
    // the wait ends at the first poll that decides, and with what that poll decides,
    // unless that poll leaves the loop at `time.sleep` with a negative interval
    ensures forall k :: 0 <= k < |w.calls| - 1 ==> Verdict(id, polls(k), start, timeout).None?
    ensures var last := Verdict(id, polls(|w.calls| - 1), start, timeout);
      w.result == (if last.Some? then last.value else Failure(NegativeSleep))
    ensures Verdict(id, polls(|w.calls| - 1), start, timeout).None? ==> interval < 0
    // a negative interval never reaches a second poll
    ensures interval < 0 ==> |w.calls| == 1
    // one sleep of `interval` between consecutive polls, none after the last
    ensures |w.sleeps| == |w.calls| - 1 && forall x <- w.sleeps :: x == interval
    ensures w.store == PolledStore(store, id, polls, |w.calls|)
  {
    var k: nat := 0;
    var sleeps: seq<int> := [];
    while true
      invariant k <= horizon
      invariant interval < 0 ==> k == 0
      invariant forall j :: 0 <= j < k ==> Verdict(id, polls(j), start, timeout).None?
      invariant |sleeps| == k && forall x <- sleeps :: x == interval
      decreases horizon - k
    {
      var decided := Verdict(id, polls(k), start, timeout);
      var calls := seq(k + 1, _ => GetCall(ScanPath(id), None));
      if decided.Some? {
        return Wait(decided.value, PolledStore(store, id, polls, k + 1), calls, sleeps);
      }
      if interval < 0 {
        return Wait(Failure(NegativeSleep), PolledStore(store, id, polls, k + 1), calls, sleeps);
      }
      sleeps := sleeps + [interval];
      k := k + 1;
    }
  }

  /**
    `launch_and_wait`: exactly one launch, and only when it succeeds, the
    polling, which starts from the cache the launch left.
  */
  method LaunchAndWait(store: Cache.Store<Json>, id: string, interval: int, timeout: int, server: Server,
                       start: real, polls: nat -> Poll, ghost horizon: nat)
    returns (w: Wait)
    requires polls(horizon).checkedAt - start > timeout as real
    ensures |w.calls| >= 1 && w.calls[0] == PostCall(LaunchPath(id), None)
    ensures forall c <- w.calls[1..] :: c == GetCall(ScanPath(id), None)
    ensures var l := LaunchScan(store, id, server);
      l.result.Failure? ==> w == Wait(Failure(l.result.error), store, [PostCall(LaunchPath(id), None)], [])
    ensures var l := LaunchScan(store, id, server);
      l.result.Success? ==>
        |w.calls| >= 2
        && (forall k :: 0 <= k < |w.calls| - 2 ==> Verdict(id, polls(k), start, timeout).None?)
        && (var last := Verdict(id, polls(|w.calls| - 2), start, timeout);
            w.result == (if last.Some? then last.value else Failure(NegativeSleep))
            && (last.None? ==> interval < 0))
        && (interval < 0 ==> |w.calls| == 2)
        && |w.sleeps| == |w.calls| - 2 && (forall x <- w.sleeps :: x == interval)
        && w.store == PolledStore(l.store, id, polls, |w.calls| - 1)
  {
    var l := LaunchScan(store, id, server);
    if l.result.Failure? {
      return Wait(Failure(l.result.error), l.store, l.calls, []);
    }
    var v := WaitUntilComplete(l.store, id, interval, timeout, start, polls, horizon);
    w := Wait(v.result, v.store, l.calls + v.calls, v.sleeps);
    assert w.calls[1..] == v.calls;
  }
}

=== FILE: sorting.dfy ===
/**
  Python's `sorted(xs, key=...)` with an integer key: a stable sort. With
  `reverse=True` Python still keeps equal elements in input order, which is
  a stable sort on the negated key.
*/
module Sorting {

  /** Keys never decrease along `s`. */
  predicate SortedBy<T>(s: seq<T>, key: T -> int) {
    forall i, j :: 0 <= i < j < |s| ==> key(s[i]) <= key(s[j])
  }

  /** The elements of `s` whose key is `v`, in their order in `s`. */
  function WithKey<T>(s: seq<T>, key: T -> int, v: int): (r: seq<T>)
    ensures |r| <= |s|
  {
    if |s| == 0 then []
    else (if key(s[0]) == v then [s[0]] else []) + WithKey(s[1..], key, v)
  }

  /** `x` placed before the first element whose key is not smaller than its own. */
  function Insert<T(==)>(x: T, s: seq<T>, key: T -> int): (r: seq<T>)
    ensures |r| == |s| + 1
    ensures multiset(r) == multiset(s) + multiset{x}
  {
    if |s| == 0 || key(x) <= key(s[0]) then [x] + s
    else
      assert s == [s[0]] + s[1..];
      [s[0]] + Insert(x, s[1..], key)
  }

  /** Every element of `Insert(x, s)` is `x` or an element of `s`. */
  lemma InsertElements<T>(x: T, s: seq<T>, key: T -> int, i: nat)
    requires i < |Insert(x, s, key)|
    ensures Insert(x, s, key)[i] == x || Insert(x, s, key)[i] in s
  {
    var e := Insert(x, s, key)[i];
    assert e in multiset(Insert(x, s, key));
  }

  /** The tail of a sorted sequence is sorted. */
  lemma SortedTail<T>(s: seq<T>, key: T -> int)
    requires SortedBy(s, key) && |s| > 0
    ensures SortedBy(s[1..], key)
  {
    forall i, j | 0 <= i < j < |s| - 1 ensures key(s[1..][i]) <= key(s[1..][j]) {
      assert s[1..][i] == s[i + 1] && s[1..][j] == s[j + 1];
    }
  }

  lemma {:induction false} InsertSorted<T>(x: T, s: seq<T>, key: T -> int)
    requires SortedBy(s, key)
    ensures SortedBy(Insert(x, s, key), key)
    decreases |s|
  {
    var r := Insert(x, s, key);
    if |s| == 0 || key(x) <= key(s[0]) {
      assert r == [x] + s;
      forall i, j | 0 <= i < j < |r|
        ensures key(r[i]) <= key(r[j])
      {
        if i == 0 {
          assert r[j] == s[j - 1];
          assert key(s[0]) <= key(s[j - 1]);
        } else {
          assert r[i] == s[i - 1] && r[j] == s[j - 1];
        }
      }
    } else {
      var t := Insert(x, s[1..], key);
      SortedTail(s, key);
      InsertSorted(x, s[1..], key);
      forall i | 0 <= i < |t|
        ensures key(s[0]) <= key(t[i])
      {
        InsertElements(x, s[1..], key, i);
        if t[i] != x {
          var j :| 0 <= j < |s[1..]| && s[1..][j] == t[i];
          assert s[j + 1] == t[i];
        }
      }
      assert r == [s[0]] + t;
      forall i, j | 0 <= i < j < |r|
        ensures key(r[i]) <= key(r[j])
      {
        if i > 0 {
          assert r[i] == t[i - 1] && r[j] == t[j - 1];
        } else {
          assert r[j] == t[j - 1];
        }
      }
    }
  }

  /** `WithKey` of a sequence with a known head. */
  lemma WithKeyCons<T>(y: T, t: seq<T>, key: T -> int, v: int)
    ensures WithKey([y] + t, key, v) == (if key(y) == v then [y] else []) + WithKey(t, key, v)
  {
    assert ([y] + t)[0] == y && ([y] + t)[1..] == t;
  }

  /** Insertion places `x` ahead of every element with the same key. */
  lemma {:induction false} InsertWithKey<T>(x: T, s: seq<T>, key: T -> int, v: int)
    ensures WithKey(Insert(x, s, key), key, v) == (if key(x) == v then [x] else []) + WithKey(s, key, v)
    decreases |s|
  {
    if |s| == 0 || key(x) <= key(s[0]) {
      assert Insert(x, s, key) == [x] + s;
      WithKeyCons(x, s, key, v);
    } else {
      var t := Insert(x, s[1..], key);
      var rest := WithKey(s[1..], key, v);
      assert Insert(x, s, key) == [s[0]] + t;
      WithKeyCons(s[0], t, key, v);
      InsertWithKey(x, s[1..], key, v);
      assert WithKey(s, key, v) == (if key(s[0]) == v then [s[0]] else []) + rest;
      // the keys of `x` and `s[0]` differ, so at most one of them is kept
      if key(x) == v {
        assert WithKey(t, key, v) == [x] + rest;
        assert WithKey(s, key, v) == [] + rest;
      } else if key(s[0]) == v {
        assert WithKey(t, key, v) == [] + rest;
      } else {
        assert WithKey(t, key, v) == [] + rest;
        assert WithKey(s, key, v) == [] + rest;
      }
    }
  }

  /** Insertion sort from the back: every element lands before equal-keyed later ones. */
  function StableSort<T(==)>(s: seq<T>, key: T -> int): (r: seq<T>)
    ensures |r| == |s|
    ensures SortedBy(r, key)
    ensures multiset(r) == multiset(s)
    // stability: the elements sharing a key keep their relative order
    ensures forall v :: WithKey(r, key, v) == WithKey(s, key, v)
  {
    if |s| == 0 then []
    else
      assert s == [s[0]] + s[1..];
      var t := StableSort(s[1..], key);
      InsertSorted(s[0], t, key);
      assert forall v :: WithKey(Insert(s[0], t, key), key, v) == WithKey(s, key, v) by {
        forall v ensures WithKey(Insert(s[0], t, key), key, v) == WithKey(s, key, v) {
          InsertWithKey(s[0], t, key, v);
        }
      }
      Insert(s[0], t, key)
  }

  // ---------------------------------------------------------------------
  // sorted() on strings: code-point lexicographic order
  // ---------------------------------------------------------------------

  /** Python's `a <= b` on strings: compare code points left to right; a prefix comes first. */
  predicate StrLe(a: string, b: string)
    decreases |a|
  {
    |a| == 0 || (|b| > 0 && (a[0] < b[0] || (a[0] == b[0] && StrLe(a[1..], b[1..]))))
  }

  lemma {:induction false} StrLeTotal(a: string, b: string)
    ensures StrLe(a, b) || StrLe(b, a)
    decreases |a|
  {
    if |a| > 0 && |b| > 0 && a[0] == b[0] {
      StrLeTotal(a[1..], b[1..]);
    }
  }

  lemma {:induction false} StrLeTrans(a: string, b: string, c: string)
    requires StrLe(a, b) && StrLe(b, c)
    ensures StrLe(a, c)
    decreases |a|
  {
    if |a| > 0 && a[0] == b[0] && b[0] == c[0] {
      StrLeTrans(a[1..], b[1..], c[1..]);
    }
  }

  lemma {:induction false} StrLeAntisym(a: string, b: string)
    requires StrLe(a, b) && StrLe(b, a)
    ensures a == b
    decreases |a|
  {
    if |a| > 0 {
      StrLeAntisym(a[1..], b[1..]);
      assert a == [a[0]] + a[1..] && b == [b[0]] + b[1..];
    }
  }

  predicate StrSorted(s: seq<string>) {
    forall i, j :: 0 <= i < j < |s| ==> StrLe(s[i], s[j])
  }

  /** `x` placed before the first element not smaller than it. */
  function InsertStr(x: string, s: seq<string>): (r: seq<string>)
    ensures |r| == |s| + 1
    ensures multiset(r) == multiset(s) + multiset{x}
  {
    if |s| == 0 || StrLe(x, s[0]) then [x] + s
    else
      assert s == [s[0]] + s[1..];
      [s[0]] + InsertStr(x, s[1..])
  }

  /** Every element of `InsertStr(x, s)` is `x` or an element of `s`. */
  lemma InsertStrElements(x: string, s: seq<string>, i: nat)
    requires i < |InsertStr(x, s)|
    ensures InsertStr(x, s)[i] == x || InsertStr(x, s)[i] in s
  {
    var e := InsertStr(x, s)[i];
    assert e in multiset(InsertStr(x, s));
  }

  lemma {:induction false} InsertStrSorted(x: string, s: seq<string>)
    requires StrSorted(s)
    ensures StrSorted(InsertStr(x, s))
    decreases |s|
  {
    var r := InsertStr(x, s);
    if |s| == 0 || StrLe(x, s[0]) {
      assert r == [x] + s;
      forall i, j | 0 <= i < j < |r|
        ensures StrLe(r[i], r[j])
      {
        if i == 0 {
          assert r[j] == s[j - 1];
          if j > 1 {
            StrLeTrans(x, s[0], s[j - 1]);
          }
        } else {
          assert r[i] == s[i - 1] && r[j] == s[j - 1];
        }
      }
    } else {
      StrLeTotal(x, s[0]);
      var t := InsertStr(x, s[1..]);
      StrSortedTail(s);
      InsertStrSorted(x, s[1..]);
      forall i | 0 <= i < |t|
        ensures StrLe(s[0], t[i])
      {
        InsertStrElements(x, s[1..], i);
        if t[i] != x {
          var j :| 0 <= j < |s[1..]| && s[1..][j] == t[i];
          assert s[j + 1] == t[i];
        }
      }
      assert r == [s[0]] + t;
      forall i, j | 0 <= i < j < |r|
        ensures StrLe(r[i], r[j])
      {
        if i > 0 {
          assert r[i] == t[i - 1] && r[j] == t[j - 1];
        } else {
          assert r[j] == t[j - 1];
        }
      }
    }
  }

  /** `sorted(strings)`: the same strings, in ascending order. */
  function SortStrings(s: seq<string>): (r: seq<string>)
    ensures |r| == |s|
    ensures multiset(r) == multiset(s)
    ensures StrSorted(r)
  {
    if |s| == 0 then []
    else
      assert s == [s[0]] + s[1..];
      var t := SortStrings(s[1..]);
      InsertStrSorted(s[0], t);
      InsertStr(s[0], t)
  }

  /** Two sorted orderings of the same non-empty strings start with the same string. */
  lemma SortedHeads(a: seq<string>, b: seq<string>)
    requires StrSorted(a) && StrSorted(b) && multiset(a) == multiset(b) && |a| > 0
    ensures |b| > 0 && a[0] == b[0]
  {
    assert a[0] in multiset(b);
    var i :| 0 <= i < |b| && b[i] == a[0];
    assert b[0] in multiset(a);
    var j :| 0 <= j < |a| && a[j] == b[0];
    if i > 0 && j > 0 {
      assert StrLe(b[0], b[i]) && StrLe(a[0], a[j]);
      StrLeAntisym(a[0], b[0]);
    }
  }

  /** The tail of a sorted non-empty sequence is sorted and holds the other strings. */
  lemma StrSortedTail(a: seq<string>)
    requires StrSorted(a) && |a| > 0
    ensures StrSorted(a[1..])
    ensures multiset(a[1..]) == multiset(a) - multiset{a[0]}
  {
    assert a == [a[0]] + a[1..];
  }

  /** Sorting is determined by the strings alone: two sorted orderings of the same strings coincide. */
  lemma {:induction false} SortedUnique(a: seq<string>, b: seq<string>)
    requires StrSorted(a) && StrSorted(b) && multiset(a) == multiset(b)
    ensures a == b
    decreases |a|
  {
    if |a| == 0 {
      assert |b| == |multiset(b)|;
    } else {
      SortedHeads(a, b);
      StrSortedTail(a);
      StrSortedTail(b);
      SortedUnique(a[1..], b[1..]);
      assert a == [a[0]] + a[1..] && b == [b[0]] + b[1..];
    }
  }
}

=== FILE: text.dfy ===
/**
  Python string primitives the SDK leans on: `str.strip()`, `str.lower()`/`upper()`,
  `str.split(sep)`, `sep.join(parts)`, `str(int)` and `int(str)`.
  Strings are `seq<char>`; case mapping covers ASCII letters only.
*/
module Text {
  import opened Wrappers

  /** The characters Python's `str.isspace()` accepts, which `strip()` removes. */
  predicate IsSpace(c: char) {
    || c == ' '
    || ('\t' <= c <= '\r')
    || ('\U{1C}' <= c <= '\U{1F}')
    || c == '\U{85}'
    || c == '\U{A0}'
    || c == '\U{1680}'
    || ('\U{2000}' <= c <= '\U{200A}')
    || c == '\U{2028}'
    || c == '\U{2029}'
    || c == '\U{202F}'
    || c == '\U{205F}'
    || c == '\U{3000}'
  }

  /** Neither end of `s` is whitespace: what `strip()` leaves behind. */
  predicate NoEdgeSpace(s: string) {
    |s| == 0 || (!IsSpace(s[0]) && !IsSpace(s[|s| - 1]))
  }

  function TrimLeft(s: string): (r: string)
    ensures |r| <= |s| && r == s[|s| - |r|..]
    ensures forall i :: 0 <= i < |s| - |r| ==> IsSpace(s[i])
    ensures |r| == 0 || !IsSpace(r[0])
    decreases |s|
  {
    if |s| > 0 && IsSpace(s[0]) then TrimLeft(s[1..]) else s
  }

  function TrimRight(s: string): (r: string)
    ensures |r| <= |s| && r == s[..|r|]
    ensures forall i :: |r| <= i < |s| ==> IsSpace(s[i])
    ensures |r| == 0 || !IsSpace(r[|r| - 1])
    decreases |s|
  {
    if |s| > 0 && IsSpace(s[|s| - 1]) then TrimRight(s[..|s| - 1]) else s
  }

  /** Python's `s.strip()` with no argument. */
  function Strip(s: string): (r: string)
    ensures |r| <= |s|
    ensures NoEdgeSpace(r)
  {
    var l := TrimLeft(s);
    var r := TrimRight(l);
    assert |r| == 0 || r[0] == l[0];
    r
  }

  /** A string with no whitespace at either end is its own `strip()`. */
  lemma StripOfNoEdgeSpace(s: string)
    requires NoEdgeSpace(s)
    ensures Strip(s) == s
  {
    assert TrimLeft(s) == s;
    assert TrimRight(s) == s;
  }

  /** `strip()` is idempotent. */
  lemma StripIdempotent(s: string)
    ensures Strip(Strip(s)) == Strip(s)
  {
    StripOfNoEdgeSpace(Strip(s));
  }

  function LowerChar(c: char): char {
    if 'A' <= c <= 'Z' then (c as int + 32) as char else c
  }

  function UpperChar(c: char): char {
    if 'a' <= c <= 'z' then (c as int - 32) as char else c
  }

  /** `s.lower()` on the ASCII letters. */
  function Lower(s: string): string {
    seq(|s|, i requires 0 <= i < |s| => LowerChar(s[i]))
  }

  /** `s.upper()` on the ASCII letters. */
  function Upper(s: string): string {
    seq(|s|, i requires 0 <= i < |s| => UpperChar(s[i]))
  }

  lemma LowerIdempotent(s: string)
    ensures Lower(Lower(s)) == Lower(s)
  {
  }

  /** Upper-casing first makes no difference to the lower-cased result. */
  lemma LowerUpper(s: string)
    ensures Lower(Upper(s)) == Lower(s)
  {
    assert forall i :: 0 <= i < |s| ==> LowerChar(UpperChar(s[i])) == LowerChar(s[i]);
  }

  /** Lower-casing never touches whitespace, so it commutes with `strip()`. */
  lemma {:induction false} LowerStripCommute(s: string)
    ensures Lower(Strip(s)) == Strip(Lower(s))
  {
    LowerTrimLeft(s);
    LowerTrimRight(TrimLeft(s));
  }

  lemma LowerCharSpace(c: char)
    ensures IsSpace(LowerChar(c)) == IsSpace(c)
  {
  }

  lemma {:induction false} LowerTrimLeft(s: string)
    ensures Lower(TrimLeft(s)) == TrimLeft(Lower(s))
    decreases |s|
  {
    var ls := Lower(s);
    if |s| > 0 {
      assert ls[0] == LowerChar(s[0]);
      LowerCharSpace(s[0]);
      if IsSpace(s[0]) {
        assert ls[1..] == Lower(s[1..]);
        LowerTrimLeft(s[1..]);
        assert TrimLeft(ls) == TrimLeft(ls[1..]);
      } else {
        assert TrimLeft(ls) == ls;
      }
    }
  }

  lemma {:induction false} LowerTrimRight(s: string)
    ensures Lower(TrimRight(s)) == TrimRight(Lower(s))
    decreases |s|
  {
    var ls := Lower(s);
    if |s| > 0 {
      assert ls[|s| - 1] == LowerChar(s[|s| - 1]);
      LowerCharSpace(s[|s| - 1]);
      if IsSpace(s[|s| - 1]) {
        assert ls[..|s| - 1] == Lower(s[..|s| - 1]);
        LowerTrimRight(s[..|s| - 1]);
        assert TrimRight(ls) == TrimRight(ls[..|s| - 1]);
      } else {
        assert TrimRight(ls) == ls;
      }
    }
  }

  function Repeat(c: char, n: nat): (r: string)
    ensures |r| == n
    ensures forall i :: 0 <= i < n ==> r[i] == c
  {
    seq(n, _ => c)
  }

  predicate StartsWith(s: string, prefix: string) {
    |prefix| <= |s| && s[..|prefix|] == prefix
  }

  // ------------------------------------------------------------------
  // split / join
  // ------------------------------------------------------------------

  /**
    Python's `s.split(sep)` for a one-character separator: the pieces between
    separators, empty pieces included, so there is always at least one.
  */
  function Split(s: string, sep: char): (r: seq<string>)
    ensures |r| >= 1
    ensures forall p <- r :: sep !in p
    decreases |s|
  {
    if |s| == 0 then [""]
    else
      var rest := Split(s[1..], sep);
      if s[0] == sep then [""] + rest
      else [[s[0]] + rest[0]] + rest[1..]
  }

  /** Python's `sep.join(parts)`. */
  function Join(sep: string, parts: seq<string>): string
    decreases |parts|
  {
    if |parts| == 0 then ""
    else if |parts| == 1 then parts[0]
    else parts[0] + sep + Join(sep, parts[1..])
  }

  /** Joining the pieces of a split with the separator gives the string back. */
  lemma {:induction false} JoinSplit(s: string, sep: char)
    ensures Join([sep], Split(s, sep)) == s
    decreases |s|
  {
    if |s| > 0 {
      var rest := Split(s[1..], sep);
      JoinSplit(s[1..], sep);
      if s[0] == sep {
        assert Split(s, sep) == [""] + rest;
        assert Join([sep], [""] + rest) == "" + [sep] + Join([sep], rest);
        assert s == [s[0]] + s[1..];
      } else {
        var parts := [[s[0]] + rest[0]] + rest[1..];
        assert Split(s, sep) == parts;
        if |rest| == 1 {
          assert Join([sep], parts) == [s[0]] + rest[0];
          assert s == [s[0]] + s[1..];
        } else {
          assert parts[1..] == rest[1..];
          assert Join([sep], rest) == rest[0] + [sep] + Join([sep], rest[1..]);
          assert Join([sep], parts) == [s[0]] + rest[0] + [sep] + Join([sep], rest[1..]);
          assert s == [s[0]] + s[1..];
        }
      }
    }
  }

  /** Splitting `p + t` where `p` holds no separator glues `p` onto the first piece of `t`. */
  lemma {:induction false} SplitPrefix(p: string, t: string, sep: char)
    requires sep !in p
    ensures Split(p + t, sep) == [p + Split(t, sep)[0]] + Split(t, sep)[1..]
    decreases |p|
  {
    if |p| > 0 {
      assert (p + t)[1..] == p[1..] + t;
      assert p[0] in p;
      SplitPrefix(p[1..], t, sep);
      assert [p[0]] + (p[1..] + Split(t, sep)[0]) == p + Split(t, sep)[0];
    } else {
      var r := Split(t, sep);
      assert p + t == t;
      assert p + r[0] == r[0];
      assert r == [r[0]] + r[1..];
    }
  }

  /** Splitting a join of separator-free pieces gives the pieces back. */
  lemma {:induction false} SplitJoin(parts: seq<string>, sep: char)
    requires |parts| >= 1
    requires forall p <- parts :: sep !in p
    ensures Split(Join([sep], parts), sep) == parts
    decreases |parts|
  {
    if |parts| == 1 {
      SplitPrefix(parts[0], "", sep);
      assert parts[0] + "" == parts[0];
    } else {
      var t := Join([sep], parts[1..]);
      SplitJoin(parts[1..], sep);
      assert Join([sep], parts) == parts[0] + ([sep] + t);
      SplitPrefix(parts[0], [sep] + t, sep);
      assert ([sep] + t)[1..] == t;
      assert Split([sep] + t, sep) == [""] + Split(t, sep);
      assert parts[0] + "" == parts[0];
      assert parts == [parts[0]] + parts[1..];
    }
  }

  // ------------------------------------------------------------------
  // str(int) and int(str)
  // ------------------------------------------------------------------

  predicate IsDigit(c: char) {
    '0' <= c <= '9'
  }

  function DigitChar(d: nat): (c: char)
    requires d < 10
    ensures IsDigit(c)
  {
    (48 + d) as char
  }

  /** Decimal digits of `n`, most significant first, no leading zeros. */
  function DigitsOf(n: nat): (r: string)
    ensures |r| >= 1
    ensures forall i :: 0 <= i < |r| ==> IsDigit(r[i])
  {
    if n < 10 then [DigitChar(n)] else DigitsOf(n / 10) + [DigitChar(n % 10)]
  }

  /** Python's `str(i)` for an int. */
  function IntToDecimal(i: int): string {
    if i < 0 then "-" + DigitsOf(-i) else DigitsOf(i)
  }

  /** The value of an all-digit string. */
  function DigitValue(ds: string): nat
    requires forall i :: 0 <= i < |ds| ==> IsDigit(ds[i])
  {
    if |ds| == 0 then 0
    else
      var last := ds[|ds| - 1];
      assert IsDigit(last);
      DigitValue(ds[..|ds| - 1]) * 10 + (last as int - 48)
  }

  /** Digits, with single underscores allowed between two digits (Python 3.6+ literals). */
  predicate DigitGroups(s: string) {
    |s| > 0 && forall i :: 0 <= i < |s| ==> DigitOrSeparator(s, i)
  }

  predicate DigitOrSeparator(s: string, i: nat)
    requires i < |s|
  {
    IsDigit(s[i]) || (s[i] == '_' && 0 < i < |s| - 1 && IsDigit(s[i - 1]) && IsDigit(s[i + 1]))
  }

  function RemoveUnderscores(s: string): (r: string)
    ensures (forall i :: 0 <= i < |s| ==> IsDigit(s[i]) || s[i] == '_') ==>
              forall i :: 0 <= i < |r| ==> IsDigit(r[i])
  {
    if |s| == 0 then ""
    else (if s[0] == '_' then "" else [s[0]]) + RemoveUnderscores(s[1..])
  }

  lemma DigitGroupsChars(s: string)
    requires DigitGroups(s)
    ensures forall i :: 0 <= i < |s| ==> IsDigit(s[i]) || s[i] == '_'
  {
    forall i | 0 <= i < |s|
      ensures IsDigit(s[i]) || s[i] == '_'
    {
      assert DigitOrSeparator(s, i);
    }
  }

  /** An unsigned digit-group string's value, or None when it is not one. */
  function ParseUnsigned(body: string): Option<nat> {
    if !DigitGroups(body) then None
    else
      DigitGroupsChars(body);
      Some(DigitValue(RemoveUnderscores(body)))
  }

  /** Python's `int(s)` for a string: surrounding whitespace, an optional sign, digit groups. */
  function ParseInt(s: string): Option<int> {
    var t := Strip(s);
    if |t| > 0 && (t[0] == '-' || t[0] == '+') then
      match ParseUnsigned(t[1..])
      case None => None
      case Some(n) =>
        var v: int := if t[0] == '-' then -(n as int) else n;
        Some(v)
    else
      match ParseUnsigned(t)
      case None => None
      case Some(n) => Some(n)
  }

  lemma {:induction false} DigitValueOfDigits(n: nat)
    ensures DigitValue(DigitsOf(n)) == n
  {
    if n >= 10 {
      var ds := DigitsOf(n / 10) + [DigitChar(n % 10)];
      assert ds[..|ds| - 1] == DigitsOf(n / 10);
      DigitValueOfDigits(n / 10);
    }
  }

  lemma {:induction false} RemoveUnderscoresOfDigits(ds: string)
    requires forall i :: 0 <= i < |ds| ==> IsDigit(ds[i])
    ensures RemoveUnderscores(ds) == ds
  {
    if |ds| > 0 {
      RemoveUnderscoresOfDigits(ds[1..]);
      assert ds == [ds[0]] + ds[1..];
    }
  }

  lemma ParseUnsignedOfDigits(n: nat)
    ensures ParseUnsigned(DigitsOf(n)) == Some(n)
  {
    RemoveUnderscoresOfDigits(DigitsOf(n));
    DigitValueOfDigits(n);
  }

  /** Decimal text has no surrounding whitespace, so `strip()` keeps it. */
  lemma StripOfDecimal(i: int)
    ensures Strip(IntToDecimal(i)) == IntToDecimal(i)
  {
    var t := IntToDecimal(i);
    var n: nat := if i < 0 then -i else i;
    var ds := DigitsOf(n);
    assert IsDigit(ds[0]) && IsDigit(ds[|ds| - 1]);
    assert t[|t| - 1] == ds[|ds| - 1];
    StripOfNoEdgeSpace(t);
  }

  /** `int(str(i)) == i`: the decimal text of an int parses back to it. */
  lemma ParseIntOfDecimal(i: int)
    ensures ParseInt(IntToDecimal(i)) == Some(i)
  {
    var t := IntToDecimal(i);
    var n: nat := if i < 0 then -i else i;
    var ds := DigitsOf(n);
    assert IsDigit(ds[0]) && IsDigit(ds[|ds| - 1]);
    assert t[|t| - 1] == ds[|ds| - 1];
    StripOfNoEdgeSpace(t);
    ParseUnsignedOfDigits(n);
    if i < 0 {
      assert t[1..] == ds;
    } else {
      assert t == ds;
    }
  }
}

=== FILE: users.dfy ===
/**
  `UsersAPI`: the user list, one user's details, and scan-owner
  enrichment. The owner map is kept as the list of assignments
  `owner_map[uid] = {...}` in the order they happen; looking a key up takes
  the last assignment to it, which is what the Python dict holds.
*/
module Users {
  import opened Wrappers
  import opened Json
  import opened Errors
  import opened Api

  const UsersPath: string := "/was/v2/users"

  function UserPath(userId: string): string {
    "/was/v2/users/" + userId
  }

  /**
    `fetch_all_users()`: the answer's "items", else its "users", else `[]`;
    anything but a list is a malformed response.
  */
  function FetchAllUsers(server: Server): (r: Exchange<seq<Json>>)
    ensures r.calls == [GetCall(UsersPath, None)]
    ensures var out := server(GetCall(UsersPath, None));
      && (out.Failure? ==> r.result == Failure(out.error))
      && (out.Success? && !out.value.JObj? ==> r.result == Failure(RuntimeFault("AttributeError", "get")))
      && (out.Success? && out.value.JObj? ==>
            var items := FirstTruthy(out.value, ["items", "users"], JList([]));
            (r.result.Success? <==> items.JList?)
            && (r.result.Success? ==> r.result.value == items.items)
            && (r.result.Failure? ==> r.result.error == Errors.Api("Malformed /users response")))
  {
    var call := GetCall(UsersPath, None);
    var result :=
      match server(call)
      case Failure(e) => Failure(e)
      case Success(raw) =>
        if !raw.JObj? then Failure(RuntimeFault("AttributeError", "get"))
        else
          var items := FirstTruthy(raw, ["items", "users"], JList([]));
          if items.JList? then Success(items.items) else Failure(Errors.Api("Malformed /users response"));
    Exchange(result, [call])
  }

  /** `get_user_details(user_id)`: the answer must be a dict. */
  function GetUserDetails(userId: string, server: Server): (r: Exchange<Json>)
    ensures r.calls == [GetCall(UserPath(userId), None)]
    ensures var out := server(GetCall(UserPath(userId), None));
      && (out.Failure? ==> r.result == out)
      && (out.Success? && out.value.JObj? ==> r.result == out)
      && (out.Success? && !out.value.JObj? ==> r.result == Failure(Errors.Api("Malformed user details for " + userId)))
  {
    var call := GetCall(UserPath(userId), None);
    var result :=
      match server(call)
      case Failure(e) => Failure(e)
      case Success(raw) => if raw.JObj? then Success(raw) else Failure(Errors.Api("Malformed user details for " + userId));
    Exchange(result, [call])
  }

  /** What the owner map holds for a user: `{"email": ..., "name": ...}`. */
  datatype Owner = Owner(email: Json, name: Json)

  /** A value Python can use as a dict key: not a list and not a dict. */
  predicate Hashable(v: Json) {
    !v.JList? && !v.JObj?
  }

  /** One assignment `owner_map[uid] = owner`. */
  type Entry = (Json, Owner)

  /** The info `build_owner_map` records for a user dict. */
  function OwnerInfo(u: Json): Owner
    requires u.JObj?
  {
    Owner(Get(u, "email"), Get(u, "name"))
  }

  /** The assignment a user makes, if any: users without a truthy `user_id` are skipped. */
  function EntryOf(u: Json): (r: Result<Option<Entry>, Error>)
    ensures r.Success? <==> u.JObj? && (Truthy(Get(u, "user_id")) ==> Hashable(Get(u, "user_id")))
    ensures r.Success? && r.value.Some? ==>
      r.value.value == (Get(u, "user_id"), OwnerInfo(u)) && Truthy(Get(u, "user_id"))
    ensures r.Success? && r.value.None? ==> !Truthy(Get(u, "user_id"))
  {
    if !u.JObj? then Failure(RuntimeFault("AttributeError", "get"))
    else
      var uid := Get(u, "user_id");
      if !Truthy(uid) then Success(None)
      else if !Hashable(uid) then Failure(RuntimeFault("TypeError", "unhashable type"))
      else Success(Some((uid, OwnerInfo(u))))
  }

  /** The loop of `build_owner_map` over `users`: the assignments made, in order, or the error that ends it. */
  function OwnerEntries(users: seq<Json>): (r: Result<seq<Entry>, Error>)
    ensures r.Success? ==> |r.value| <= |users|
    ensures r.Success? ==> forall e <- r.value :: Truthy(e.0) && Hashable(e.0)
    decreases |users|
  {
    if |users| == 0 then Success([])
    else
      var pre :- OwnerEntries(users[..|users| - 1]);
      var one :- EntryOf(users[|users| - 1]);
      Success(if one.Some? then pre + [one.value] else pre)
  }

  /** `owner_map.get(k)`: the last assignment to `k`. */
  function OwnerOf(entries: seq<Entry>, k: Json): (r: Option<Owner>)
    ensures r.Some? ==> exists i :: 0 <= i < |entries| && entries[i] == (k, r.value)
    ensures r.None? <==> forall e <- entries :: e.0 != k
    decreases |entries|
  {
    if |entries| == 0 then None
    else
      var last := entries[|entries| - 1];
      if last.0 == k then Some(last.1)
      else
        var r := OwnerOf(entries[..|entries| - 1], k);
        assert forall e <- entries :: e in entries[..|entries| - 1] || e == last;
        r
  }

  /** `build_owner_map()`: the user list, then one assignment per user with a truthy `user_id`. */
  function BuildOwnerMap(server: Server): (r: Exchange<seq<Entry>>)
    ensures r.calls == FetchAllUsers(server).calls
    ensures FetchAllUsers(server).result.Failure? ==> r.result == Failure(FetchAllUsers(server).result.error)
    ensures FetchAllUsers(server).result.Success? ==> r.result == OwnerEntries(FetchAllUsers(server).result.value)
  {
    var fetched := FetchAllUsers(server);
    match fetched.result
    case Failure(e) => Exchange(Failure(e), fetched.calls)
    case Success(users) => Exchange(OwnerEntries(users), fetched.calls)
  }

  /** The assignments of all users are those of all but the last, then the last one's, if it makes one. */
  lemma EntriesStep(users: seq<Json>)
    requires |users| > 0 && OwnerEntries(users).Success?
    ensures OwnerEntries(users[..|users| - 1]).Success? && EntryOf(users[|users| - 1]).Success?
    ensures var one := EntryOf(users[|users| - 1]).value;
      OwnerEntries(users).value
        == OwnerEntries(users[..|users| - 1]).value + (if one.Some? then [one.value] else [])
  {
  }

  /** Looking up after one more assignment: the new one if it is for `k`, else what was there. */
  lemma OwnerOfSnoc(entries: seq<Entry>, e: Entry, k: Json)
    ensures OwnerOf(entries + [e], k) == if e.0 == k then Some(e.1) else OwnerOf(entries, k)
  {
    assert (entries + [e])[..|entries|] == entries;
  }

  /** Every user in a list that builds an owner map is a dict. */
  lemma {:induction false} UsersAreDicts(users: seq<Json>)
    requires OwnerEntries(users).Success?
    ensures forall u <- users :: u.JObj?
    decreases |users|
  {
    if |users| > 0 {
      var n := |users| - 1;
      EntriesStep(users);
      UsersAreDicts(users[..n]);
      assert forall u <- users :: u in users[..n] || u == users[n];
    }
  }

  /**
    The position of the last user whose `user_id` is `k`, or -1 when there
    is none: the user whose info a lookup of `k` should find.
  */
  function LastWith(users: seq<Json>, k: Json): (i: int)
    requires forall u <- users :: u.JObj?
    ensures -1 <= i < |users|
    ensures i >= 0 ==> Get(users[i], "user_id") == k
    ensures forall j :: i < j < |users| ==> Get(users[j], "user_id") != k
    decreases |users|
  {
    if |users| == 0 then -1
    else
      var n := |users| - 1;
      if Get(users[n], "user_id") == k then n
      else
        assert forall u <- users[..n] :: u in users;
        LastWith(users[..n], k)
  }

  /**
    Looking a truthy `k` up in the owner map finds the info of the last user
    whose `user_id` is `k`, and nothing when no user has that `user_id`.
  */
  lemma {:induction false} OwnerOfLastUser(users: seq<Json>, k: Json)
    requires OwnerEntries(users).Success? && Truthy(k)
    ensures forall u <- users :: u.JObj?
    ensures var i := LastWith(users, k);
      OwnerOf(OwnerEntries(users).value, k) == if i >= 0 then Some(OwnerInfo(users[i])) else None
    decreases |users|
  {
    UsersAreDicts(users);
    if |users| > 0 {
      var n := |users| - 1;
      var pre, last := users[..n], users[n];
      EntriesStep(users);
      OwnerOfLastUser(pre, k);
      var one := EntryOf(last).value;
      if one.Some? {
        OwnerOfSnoc(OwnerEntries(pre).value, one.value, k);
      }
      assert forall u <- pre :: u in users;
      if Get(last, "user_id") != k {
        assert LastWith(users, k) == LastWith(pre, k);
      }
    }
  }

  /** The owner fields a scan receives: the owner's email and name, both `None` for an unknown owner. */
  function OwnerFields(o: Option<Owner>): (Json, Json) {
    if o.Some? then (o.value.email, o.value.name) else (JNull, JNull)
  }

  /** One pass of the loop of `enrich_scans`: `owner_email` and `owner_name` from the owner map. */
  function EnrichOne(s: Json, entries: seq<Entry>): (r: Result<Json, Error>)
    ensures r.Success? <==> s.JObj? && Hashable(Get(s, "owner_id"))
    ensures r.Success? ==> (r.value.JObj?
      && Get(r.value, "owner_email") == OwnerFields(OwnerOf(entries, Get(s, "owner_id"))).0
      && Get(r.value, "owner_name") == OwnerFields(OwnerOf(entries, Get(s, "owner_id"))).1)
  {
    if !s.JObj? then Failure(RuntimeFault("AttributeError", "get"))
    else
      var ownerId := Get(s, "owner_id");
      if !Hashable(ownerId) then Failure(RuntimeFault("TypeError", "unhashable type"))
      else
        var (email, name) := OwnerFields(OwnerOf(entries, ownerId));
        Success(Put(Put(s, "owner_email", email), "owner_name", name))
  }

  /** Enrichment touches only the two owner fields. */
  lemma EnrichOneKeeps(s: Json, entries: seq<Entry>, k: string)
    requires EnrichOne(s, entries).Success? && k != "owner_email" && k != "owner_name"
    ensures Get(EnrichOne(s, entries).value, k) == Get(s, k)
  {
  }

  /** The loop of `enrich_scans`: every scan enriched, in order, or the error that ends it. */
  function EnrichAll(scans: seq<Json>, entries: seq<Entry>): (r: Result<seq<Json>, Error>)
    ensures r.Success? ==> |r.value| == |scans|
    decreases |scans|
  {
    if |scans| == 0 then Success([])
    else
      var n := |scans| - 1;
      var pre := EnrichAll(scans[..n], entries);
      var last := EnrichOne(scans[n], entries);
      if pre.Failure? then Failure(pre.error)
      else if last.Failure? then Failure(last.error)
      else Success(pre.value + [last.value])
  }

  /** The loop succeeds exactly when every scan enriches. */
  lemma {:induction false} EnrichAllSucceeds(scans: seq<Json>, entries: seq<Entry>)
    ensures EnrichAll(scans, entries).Success? <==> forall i :: 0 <= i < |scans| ==> EnrichOne(scans[i], entries).Success?
    decreases |scans|
  {
    if |scans| > 0 {
      var n := |scans| - 1;
      var pre := scans[..n];
      EnrichAllSucceeds(pre, entries);
      var q, last := EnrichAll(pre, entries), EnrichOne(scans[n], entries);
      assert EnrichAll(scans, entries).Success? <==> q.Success? && last.Success?;
      if EnrichAll(scans, entries).Success? {
        forall i | 0 <= i < |scans| ensures EnrichOne(scans[i], entries).Success? {
          if i < n {
            assert scans[i] == pre[i] && EnrichOne(pre[i], entries).Success?;
          } else {
            assert i == n;
          }
        }
      } else if EnrichAll(pre, entries).Success? {
        assert !EnrichOne(scans[n], entries).Success?;
      } else {
        var i :| 0 <= i < n && !EnrichOne(pre[i], entries).Success?;
        assert scans[i] == pre[i] && !EnrichOne(scans[i], entries).Success?;
      }
    }
  }

  /** A successful loop gives, in each place, the enrichment of the scan in that place. */
  lemma {:induction false} EnrichAllEach(scans: seq<Json>, entries: seq<Entry>)
    requires EnrichAll(scans, entries).Success?
    ensures forall i :: 0 <= i < |scans| ==>
      EnrichOne(scans[i], entries).Success? && EnrichAll(scans, entries).value[i] == EnrichOne(scans[i], entries).value
    decreases |scans|
  {
    if |scans| > 0 {
      var n := |scans| - 1;
      var pre := scans[..n];
      var q := EnrichAll(pre, entries);
      var last := EnrichOne(scans[n], entries);
      assert q.Success? && last.Success?;
      EnrichAllEach(pre, entries);
      var r := EnrichAll(scans, entries);
      assert r == Success(q.value + [last.value]);
      assert |q.value| == n;
      forall i | 0 <= i < |scans|
        ensures EnrichOne(scans[i], entries).Success? && r.value[i] == EnrichOne(scans[i], entries).value
      {
        if i < n {
          assert scans[i] == pre[i] && r.value[i] == q.value[i];
          assert EnrichOne(pre[i], entries).Success? && q.value[i] == EnrichOne(pre[i], entries).value;
        } else {
          assert i == n;
        }
      }
    }
  }

  /** `enrich_scans(scans)`: the owner map is built first; then every scan gets its owner's email and name. */
  function EnrichScans(scans: seq<Json>, server: Server): (r: Exchange<seq<Json>>)
    ensures r.calls == FetchAllUsers(server).calls
    ensures BuildOwnerMap(server).result.Failure? ==> r.result == Failure(BuildOwnerMap(server).result.error)
    ensures BuildOwnerMap(server).result.Success? ==> r.result == EnrichAll(scans, BuildOwnerMap(server).result.value)
  {
    var owners := BuildOwnerMap(server);
    match owners.result
    case Failure(e) => Exchange(Failure(e), owners.calls)
    case Success(entries) => Exchange(EnrichAll(scans, entries), owners.calls)
  }

  /**
    With every scan a dict whose `owner_id` is a plain value, enrichment
    returns the same scans, in the same order and number, each with the
    owner fields of its owner and everything else as it was.
  */
  lemma EnrichKeepsScans(scans: seq<Json>, entries: seq<Entry>)
    requires forall s <- scans :: s.JObj? && Hashable(Get(s, "owner_id"))
    ensures EnrichAll(scans, entries).Success?
    ensures var r := EnrichAll(scans, entries).value;
      && |r| == |scans|
      && forall i :: 0 <= i < |scans| ==>
           && r[i].JObj?
           && Get(r[i], "owner_email") == OwnerFields(OwnerOf(entries, Get(scans[i], "owner_id"))).0
           && Get(r[i], "owner_name") == OwnerFields(OwnerOf(entries, Get(scans[i], "owner_id"))).1
           && forall k :: k != "owner_email" && k != "owner_name" ==> Get(r[i], k) == Get(scans[i], k)
  {
    EnrichAllSucceeds(scans, entries);
    EnrichAllEach(scans, entries);
    var r := EnrichAll(scans, entries).value;
    forall i, k | 0 <= i < |scans| && k != "owner_email" && k != "owner_name"
      ensures Get(r[i], k) == Get(scans[i], k)
    {
      EnrichOneKeeps(scans[i], entries, k);
    }
  }
}

=== FILE: utils.dfy ===
/**
  The legacy `utils` module's helpers that are not copies of the v2 ones.
  Its `group_by_severity` starts with the five known labels only, adds
  `"unknown"` on the first finding that matches none of them, and
  lower-cases the severity without `str()`, so it needs a string. Its
  `parse_timestamp` agrees with the v2 one on JSON values, and its
  `flatten_model` is what `FindingsAPI.flatten` applies to each finding.
*/
module Utils {
  import opened Wrappers
  import Dict
  import Text
  import opened Json
  import opened WasUtils
  import opened Errors

  /** The findings it accepts: objects whose `severity` is a string or absent (read as `""`). */
  predicate Groupable(f: Json) {
    f.JObj? && GetOr(f, "severity", JStr("")).JStr?
  }

  /** The severity text of a groupable finding. */
  function SeverityOf(f: Json): string {
    if Groupable(f) then GetOr(f, "severity", JStr("")).s else ""
  }

  function LegacyBucket(): Json -> string {
    f => Bucket(SeverityOf(f))
  }

  /**
    `group_by_severity(findings)`: critical, high, medium, low and info
    always, each with its findings in input order; `"unknown"` last, and
    only when some finding belongs there.
  */
  method GroupBySeverity(findings: seq<Json>) returns (groups: Dict.Dict<seq<Json>>)
    requires forall f <- findings :: Groupable(f)
    ensures Dict.NoDupKeys(groups)
    ensures var unknown := Members(findings, LegacyBucket(), "unknown");
      Dict.Keys(groups) == SeverityNames + (if |unknown| > 0 then ["unknown"] else [])
    ensures forall name <- SeverityNames :: Dict.Get(groups, name) == Some(Members(findings, LegacyBucket(), name))
    ensures "unknown" in Dict.KeySet(groups) <==> exists f <- findings :: LegacyBucket()(f) == "unknown"
    ensures "unknown" in Dict.KeySet(groups) ==> Dict.Get(groups, "unknown") == Some(Members(findings, LegacyBucket(), "unknown"))
  {
    var acc := Collect(findings, LegacyBucket());
    MembersNonEmpty(findings, LegacyBucket(), "unknown");
    groups := LegacyGroups(acc);
  }

  /** The five known groups, then `"unknown"` only when it is non-empty. */
  function LegacyGroups(acc: seq<seq<Json>>): (groups: Dict.Dict<seq<Json>>)
    requires |acc| == |GroupNames|
    ensures Dict.NoDupKeys(groups)
    ensures Dict.Keys(groups) == SeverityNames + (if |acc[5]| > 0 then ["unknown"] else [])
    ensures forall name <- SeverityNames :: Dict.Get(groups, name) == Some(acc[GroupIndex(name)])
    ensures "unknown" in Dict.KeySet(groups) <==> |acc[5]| > 0
    ensures "unknown" in Dict.KeySet(groups) ==> Dict.Get(groups, "unknown") == Some(acc[5])
  {
    var all := GroupsDict(acc);
    if |acc[5]| > 0 then
      assert Dict.Keys(all) == GroupNames;
      assert all[5].0 == "unknown";
      Dict.GetAt(all, 5);
      all
    else
      var groups := all[..5];
      assert Dict.Keys(all) == GroupNames;
      assert forall i :: 0 <= i < 5 ==> groups[i] == all[i];
      assert forall i :: 0 <= i < 5 ==> all[i].0 == SeverityNames[i];
      assert "unknown" !in Dict.KeySet(groups);
      assert Dict.NoDupKeys(groups);
      assert forall name <- SeverityNames :: Dict.Get(groups, name) == Some(acc[GroupIndex(name)]) by {
        forall name <- SeverityNames
          ensures Dict.Get(groups, name) == Some(acc[GroupIndex(name)])
        {
          Dict.GetAt(all, GroupIndex(name));
          Dict.GetAt(groups, GroupIndex(name));
        }
      }
      groups
  }

  /**
    The legacy `parse_timestamp`. Its ISO branch calls `ts.replace` on the
    value itself, where the v2 helper calls it on `str(ts)`: on a list or a
    dict that raises AttributeError, which the surrounding `except` turns
    into `None`. The result is the v2 helper's on every JSON value.
  */
  function LegacyParseTimestamp(ts: Json, iso: string -> Option<int>): (r: Option<int>)
    ensures ts.JList? || ts.JObj? ==> r.None?
    ensures r == WasUtils.ParseTimestamp(ts, iso)
  {
    match ts
    case JNull => None
    case JBool(b) => Some(if b then 1 else 0)
    case JInt(i) => Some(i)
    case JFloat(f) => Some(TruncateReal(f))
    case JStr(s) => if Text.ParseInt(s).Some? then Text.ParseInt(s) else iso(s)
    case JList(_) => None
    case JObj(_) => None
  }

  /**
    `flatten_model(model)`: a model is the object it was parsed from, so an
    object is flattened from the root with `"."`, and anything else raises
    ValueError.
  */
  function FlattenModel(model: Json): (r: Result<Dict.Dict<Json>, Error>)
    ensures r.Success? <==> model.JObj?
    ensures r.Success? ==> Flat(r.value) && Dict.KeySet(r.value) == LeafPaths(model, "", ".", 0)
    ensures r.Success? ==> forall p :: Dict.Get(r.value, p) == LeafAt(model, "", ".", 0, p)
    ensures r.Failure? ==> r.error == ValueError("flatten_model requires dict or Pydantic model")
  {
    if model.JObj? then Success(FlattenDict(model.fields, "", "."))
    else Failure(ValueError("flatten_model requires dict or Pydantic model"))
  }

  /** The legacy groups are the v2 groups with an empty `"unknown"` dropped; the labels agree on string severities. */
  lemma BucketsAgree(f: Json, render: Renderer)
    requires Groupable(f)
    ensures LegacyBucket()(f) == FindingBucket(render)(f)
  {
  }
}

=== FILE: vulns.dfy ===
/**
  `VulnsAPI`: vulnerability search, single and batch lookups, the search
  filter builder and the expansion of a vulnerability into one CSV row per
  affected URL.
*/
module Vulns {
  import opened Wrappers
  import opened Json
  import opened Errors
  import Text
  import Dict
  import Ids
  import Models
  import WasUtils
  import opened Api

  const SearchPath: string := "/was/v2/vulns/search"

  function VulnPath(vulnId: string): string {
    "/was/v2/vulns/" + vulnId
  }

  // ---------------------------------------------------------------------
  // Search and lookups
  // ---------------------------------------------------------------------

  /** The body `search` posts: the caller's `filters` list (or `[]`), the page size and the offset. */
  function SearchBody(filters: Json, size: int, offset: int): (r: Json)
    requires filters.JObj?
    ensures r.JObj?
    ensures Get(r, "filters") == GetOr(filters, "filters", JList([]))
  {
    JObj([("filters", GetOr(filters, "filters", JList([]))), ("size", JInt(size)), ("offset", JInt(offset))])
  }

  /** The answer's "vulns", else its "items", else `[]`: the list `search` hands to `len()` and returns. */
  function Chosen(out: Json): (v: Json)
    requires out.JObj?
    ensures Truthy(Get(out, "vulns")) ==> v == Get(out, "vulns")
    ensures !Truthy(Get(out, "vulns")) && Truthy(Get(out, "items")) ==> v == Get(out, "items")
    ensures !Truthy(Get(out, "vulns")) && !Truthy(Get(out, "items")) ==> v == JList([])
  {
    if Truthy(Get(out, "vulns")) then Get(out, "vulns")
    else if Truthy(Get(out, "items")) then Get(out, "items")
    else JList([])
  }

  /**
    `search(filters, size, offset)`: one POST; the answer's "vulns", else
    its "items", else `[]`, whose `len()` is logged before it is returned,
    so a chosen value without a length (a number or `True`) raises
    `TypeError`.
  */
  function Search(filters: Json, size: int, offset: int, server: Server): (r: Exchange<Json>)
    ensures !filters.JObj? ==> r == Exchange(Failure(RuntimeFault("AttributeError", "get")), [])
    ensures filters.JObj? ==> r.calls == [PostCall(SearchPath, Some(SearchBody(filters, size, offset)))]
    ensures filters.JObj? ==>
      var out := server(PostCall(SearchPath, Some(SearchBody(filters, size, offset))));
      && (out.Failure? ==> r.result == out)
      && (out.Success? && !out.value.JObj? ==> r.result == Failure(RuntimeFault("AttributeError", "get")))
      && (out.Success? && out.value.JObj? ==>
            (r.result.Success? <==> Sized(Chosen(out.value)))
            && (r.result.Success? ==> r.result.value == Chosen(out.value))
            && (r.result.Failure? ==> r.result.error == RuntimeFault("TypeError", "len")))
  {
    if !filters.JObj? then Exchange(Failure(RuntimeFault("AttributeError", "get")), [])
    else
      var call := PostCall(SearchPath, Some(SearchBody(filters, size, offset)));
      var out := server(call);
      var result :=
        match out
        case Failure(e) => Failure(e)
        case Success(v) =>
          if !v.JObj? then Failure(RuntimeFault("AttributeError", "get"))
          else if Sized(Chosen(v)) then Success(Chosen(v))
          else Failure(RuntimeFault("TypeError", "len"));
      Exchange(result, [call])
  }

  /** A search answer whose chosen entry is a truthy number or `True` raises, whatever else it holds. */
  lemma SearchRejectsUnsized(filters: Json, size: int, offset: int, server: Server, n: int)
    requires filters.JObj? && n != 0
    requires server(PostCall(SearchPath, Some(SearchBody(filters, size, offset)))) == Success(JObj([("vulns", JInt(n))]))
    ensures Search(filters, size, offset, server).result == Failure(RuntimeFault("TypeError", "len"))
  {
    var out := JObj([("vulns", JInt(n))]);
    Dict.GetAt(out.fields, 0);
    assert Chosen(out) == JInt(n);
  }

  /** `get_vuln(vuln_id)`: an empty ID is rejected before any request. */
  function GetVuln(vulnId: string, server: Server): (r: Exchange<Json>)
    ensures vulnId == "" ==> r == Exchange(Failure(Errors.Api("vuln_id is required")), [])
    ensures vulnId != "" ==>
      r.calls == [GetCall(VulnPath(vulnId), None)] && r.result == server(GetCall(VulnPath(vulnId), None))
  {
    if vulnId == "" then Exchange(Failure(Errors.Api("vuln_id is required")), [])
    else
      var call := GetCall(VulnPath(vulnId), None);
      Exchange(server(call), [call])
  }

  /** The argument of `get_many`/`export_many`: comma-separated text, or a list. */
  datatype VulnIds = Joined(text: string) | Listed(ids: seq<string>)

  function IdsOf(arg: VulnIds): seq<string> {
    match arg
    case Joined(text) => Ids.MultiIds(text)
    case Listed(ids) => ids
  }

  /**
    `get_many(vuln_ids)` over a list: each ID looked up in turn; a
    `TenableAPIError` (including the empty-ID rejection) drops that ID, any
    other error ends the batch.
  */
  function GetMany(ids: seq<string>, server: Server): (r: Exchange<seq<Json>>)
    ensures |r.calls| <= |ids|
    ensures r.result.Success? ==> |r.result.value| <= |ids|
    ensures r.result.Failure? ==> !r.result.error.ApiError?
    decreases |ids|
  {
    if |ids| == 0 then Exchange(Success([]), [])
    else
      var pre := GetMany(ids[..|ids| - 1], server);
      if pre.result.Failure? then pre
      else
        var one := GetVuln(ids[|ids| - 1], server);
        if Escapes(one.result) then Exchange(Failure(one.result.error), pre.calls + one.calls)
        else
          var kept := if one.result.Success? then [one.result.value] else [];
          Exchange(Success(pre.result.value + kept), pre.calls + one.calls)
  }

  function GetManyOf(arg: VulnIds, server: Server): Exchange<seq<Json>> {
    GetMany(IdsOf(arg), server)
  }

  /** What a batch should return: the answers of the IDs whose lookup succeeded, in order. */
  function Answers(ids: seq<string>, server: Server): seq<Json> {
    if |ids| == 0 then []
    else
      var out := GetVuln(ids[0], server).result;
      (if out.Success? then [out.value] else []) + Answers(ids[1..], server)
  }

  /** The requests a batch sends when nothing escapes: one per non-empty ID. */
  function Requests(ids: seq<string>): seq<Call> {
    if |ids| == 0 then []
    else (if ids[0] != "" then [GetCall(VulnPath(ids[0]), None)] else []) + Requests(ids[1..])
  }

  lemma {:induction false} AnswersAppend(a: seq<string>, b: seq<string>, server: Server)
    ensures Answers(a + b, server) == Answers(a, server) + Answers(b, server)
    ensures Requests(a + b) == Requests(a) + Requests(b)
    decreases |a|
  {
    if |a| > 0 {
      assert (a + b)[0] == a[0];
      assert (a + b)[1..] == a[1..] + b;
      AnswersAppend(a[1..], b, server);
    } else {
      assert a + b == b;
    }
  }

  /**
    A batch fails exactly when some lookup raises something other than
    `TenableAPIError`; otherwise it returns the successful answers in input
    order, having sent one request per non-empty ID.
  */
  lemma {:induction false} GetManyMeaning(ids: seq<string>, server: Server)
    ensures GetMany(ids, server).result.Success? <==> forall id <- ids :: !Escapes(GetVuln(id, server).result)
    ensures GetMany(ids, server).result.Success? ==>
      GetMany(ids, server).result.value == Answers(ids, server) && GetMany(ids, server).calls == Requests(ids)
    decreases |ids|
  {
    if |ids| > 0 {
      var n := |ids| - 1;
      var pre := ids[..n];
      GetManyMeaning(pre, server);
      AnswersAppend(pre, [ids[n]], server);
      assert ids == pre + [ids[n]];
      assert [ids[n]][1..] == [];
      assert forall id <- ids :: id in pre || id == ids[n];
    }
  }

  /** Every answer a batch returns is the server's reply to the request for one of the IDs. */
  lemma {:induction false} AnswersAreReplies(ids: seq<string>, server: Server, v: Json)
    requires v in Answers(ids, server)
    ensures exists id <- ids :: id != "" && server(GetCall(VulnPath(id), None)) == Success(v)
    decreases |ids|
  {
    var out := GetVuln(ids[0], server).result;
    var head := if out.Success? then [out.value] else [];
    assert Answers(ids, server) == head + Answers(ids[1..], server);
    if v !in head {
      AnswersAreReplies(ids[1..], server, v);
      var id :| id in ids[1..] && id != "" && server(GetCall(VulnPath(id), None)) == Success(v);
      assert id in ids;
    } else {
      assert ids[0] in ids;
    }
  }

  // ---------------------------------------------------------------------
  // Filter construction
  // ---------------------------------------------------------------------

  /** The arguments of `build_filters`. */
  datatype FilterArgs = FilterArgs(
    severity: Option<string>,
    pluginId: Json,
    scanId: Json,
    applicationId: Json,
    state: Option<string>,
    since: Option<string>,
    until: Option<string>)

  /** Python truthiness of an optional string. */
  predicate Given(o: Option<string>) {
    o.Some? && o.value != ""
  }

  function FilterFor(field: string, operator: string, value: Json): Json {
    JObj([("field", JStr(field)), ("operator", JStr(operator)), ("value", value)])
  }

  /** The filter fields and operators, in the order the builder emits them. */
  const Fields: seq<string> := ["severity", "plugin_id", "scan_id", "application_id", "state", "last_seen", "last_seen"]
  const Operators: seq<string> := ["eq", "in", "in", "in", "eq", "gte", "lte"]

  /** Whether argument `k` (in the order above) is truthy. */
  predicate Present(a: FilterArgs, k: nat)
    requires k < 7
  {
    match k
    case 0 => Given(a.severity)
    case 1 => Truthy(a.pluginId)
    case 2 => Truthy(a.scanId)
    case 3 => Truthy(a.applicationId)
    case 4 => Given(a.state)
    case 5 => Given(a.since)
    case _ => Given(a.until)
  }

  /**
    The filter value argument `k` produces when present: severity lower-cased,
    a plugin ID wrapped in a list unless it already is one, scan and
    application IDs always wrapped, the rest as given.
  */
  function ValueOf(a: FilterArgs, k: nat): Json
    requires k < 7 && Present(a, k)
  {
    match k
    case 0 => JStr(Text.Lower(a.severity.value))
    case 1 => if a.pluginId.JList? then a.pluginId else JList([a.pluginId])
    case 2 => JList([a.scanId])
    case 3 => JList([a.applicationId])
    case 4 => JStr(a.state.value)
    case 5 => JStr(a.since.value)
    case _ => JStr(a.until.value)
  }

  /** Each argument's contribution, in emission order: a filter when it is truthy, nothing otherwise. */
  function Candidates(a: FilterArgs): (r: seq<Option<Json>>)
    ensures |r| == 7
    ensures forall k :: 0 <= k < 7 ==> (r[k].Some? <==> Present(a, k))
    ensures forall k :: 0 <= k < 7 && Present(a, k) ==> r[k] == Some(FilterFor(Fields[k], Operators[k], ValueOf(a, k)))
  {
    seq(7, k requires 0 <= k < 7 =>
      if Present(a, k) then Some(FilterFor(Fields[k], Operators[k], ValueOf(a, k))) else None)
  }

  /** How many of `os` are present. */
  function CountSome<T>(os: seq<Option<T>>): nat {
    if |os| == 0 then 0 else (if os[0].Some? then 1 else 0) + CountSome(os[1..])
  }

  /** The present values of `os`, in order. */
  function Compact<T>(os: seq<Option<T>>): (r: seq<T>)
    ensures |r| == CountSome(os)
    ensures forall x <- r :: Some(x) in os
  {
    if |os| == 0 then []
    else
      var rest := Compact(os[1..]);
      assert forall x <- rest :: Some(x) in os by {
        forall x <- rest ensures Some(x) in os {
          assert Some(x) in os[1..];
        }
      }
      (if os[0].Some? then [os[0].value] else []) + rest
  }

  /** A present entry lands after exactly the present entries before it. */
  lemma {:induction false} CompactAt<T>(os: seq<Option<T>>, k: nat)
    requires k < |os| && os[k].Some?
    ensures CountSome(os[..k]) < |Compact(os)|
    ensures Compact(os)[CountSome(os[..k])] == os[k].value
    decreases k
  {
    if k == 0 {
      assert os[..0] == [];
    } else {
      CompactAt(os[1..], k - 1);
      assert os[1..][..k - 1] == os[..k][1..];
      assert os[..k][0] == os[0];
    }
  }

  /** `build_filters(...)`: `{"filters": [...]}`. */
  function BuildFilters(a: FilterArgs): (r: Json)
    ensures r.JObj? && Get(r, "filters").JList?
  {
    JObj([("filters", JList(Compact(Candidates(a))))])
  }

  function FiltersOf(a: FilterArgs): seq<Json> {
    Get(BuildFilters(a), "filters").items
  }

  /**
    One filter per truthy argument and none for the others; the filter of
    argument `k` is preceded by exactly the filters of the truthy arguments
    before it, so the emission order is severity, plugin_id, scan_id,
    application_id, state, since, until.
  */
  lemma FilterPositions(a: FilterArgs, k: nat)
    requires k < 7 && Present(a, k)
    ensures var before := CountSome(Candidates(a)[..k]);
      before < |FiltersOf(a)| && FiltersOf(a)[before] == FilterFor(Fields[k], Operators[k], ValueOf(a, k))
  {
    CompactAt(Candidates(a), k);
  }

  /** Every emitted filter is the filter of some truthy argument. */
  lemma FiltersComeFromArguments(a: FilterArgs, f: Json)
    requires f in FiltersOf(a)
    ensures exists k :: 0 <= k < 7 && Present(a, k) && f == FilterFor(Fields[k], Operators[k], ValueOf(a, k))
  {
    var cs := Candidates(a);
    assert Some(f) in cs;
    var k :| 0 <= k < 7 && cs[k] == Some(f);
    assert Present(a, k);
  }

  /** With every argument falsy the builder returns `{"filters": []}`. */
  lemma NoArgumentsNoFilters(a: FilterArgs)
    requires forall k :: 0 <= k < 7 ==> !Present(a, k)
    ensures BuildFilters(a) == JObj([("filters", JList([]))])
  {
    var cs := Candidates(a);
    if |Compact(cs)| > 0 {
      FiltersComeFromArguments(a, Compact(cs)[0]);
    }
  }

  /** The severity filter does not depend on the case the severity was given in. */
  lemma SeverityIgnoresCase(a: FilterArgs, s: string)
    requires a.severity == Some(s)
    ensures BuildFilters(a) == BuildFilters(a.(severity := Some(Text.Upper(s))))
  {
    Text.LowerUpper(s);
    assert |Text.Upper(s)| == |s|;
    assert Candidates(a) == Candidates(a.(severity := Some(Text.Upper(s))));
  }

  // ---------------------------------------------------------------------
  // Row expansion
  // ---------------------------------------------------------------------

  /** The row every expansion of `vuln` starts from: the vulnerability with its nested dicts flattened. */
  function Base(vuln: Json): (r: Json)
    requires vuln.JObj?
    ensures r.JObj? && WasUtils.Flat(r.fields)
  {
    JObj(WasUtils.FlattenDict(vuln.fields, "", "."))
  }

  /** `Base(vuln)` with `affected_url` set: one output row. */
  function RowFor(vuln: Json, url: Json): (r: Json)
    requires vuln.JObj?
    ensures r.JObj? && Get(r, "affected_url") == url
    ensures forall k :: k != "affected_url" ==> Get(r, k) == Get(Base(vuln), k)
  {
    Put(Base(vuln), "affected_url", url)
  }

  /** `vuln.get("affected_urls") or []`. */
  function UrlsOf(vuln: Json): Json
    requires vuln.JObj?
  {
    FirstTruthy(vuln, ["affected_urls"], JList([]))
  }

  /** `flatten_single(vuln)`: one row per affected URL, or one URL-less row when there are none. */
  function FlattenSingle(vuln: Json): (r: Result<seq<Json>, Error>)
    ensures r.Success? ==> forall row <- r.value :: row.JObj?
  {
    if !Truthy(vuln) then Success([])
    else if !vuln.JObj? then Failure(RuntimeFault("AttributeError", "get"))
    else
      var urls := UrlsOf(vuln);
      if !Truthy(urls) then Success([RowFor(vuln, JNull)])
      else
        var us :- Models.Iterate(urls);
        Success(seq(|us|, i requires 0 <= i < |us| => RowFor(vuln, us[i])))
  }

  /**
    An empty vulnerability gives no rows and a non-dict one fails; without
    affected URLs there is exactly one row, with `affected_url` None;
    with a list of URLs there is one row per URL, in order, each the
    flattened vulnerability with that URL.
  */
  lemma FlattenSingleMeaning(vuln: Json)
    ensures !Truthy(vuln) ==> FlattenSingle(vuln) == Success([])
    ensures Truthy(vuln) && !vuln.JObj? ==> FlattenSingle(vuln) == Failure(RuntimeFault("AttributeError", "get"))
    ensures Truthy(vuln) && vuln.JObj? && !Truthy(Get(vuln, "affected_urls")) ==>
      FlattenSingle(vuln) == Success([RowFor(vuln, JNull)])
    ensures Truthy(vuln) && vuln.JObj? && Get(vuln, "affected_urls").JList? && Truthy(Get(vuln, "affected_urls")) ==>
      var urls := Get(vuln, "affected_urls").items;
      var r := FlattenSingle(vuln);
      r.Success? && |r.value| == |urls| && forall i :: 0 <= i < |urls| ==> r.value[i] == RowFor(vuln, urls[i])
  {
  }

  /** How one vulnerability becomes rows; `FlattenSingle` in the SDK. */
  type Expander = Json -> Result<seq<Json>, Error>

  /** The rows of `vulns`, each vulnerability's rows in turn; the first failure ends it. */
  function RowsOf(vulns: seq<Json>, expand: Expander): (r: Result<seq<Json>, Error>)
    decreases |vulns|
  {
    if |vulns| == 0 then Success([])
    else
      var pre := RowsOf(vulns[..|vulns| - 1], expand);
      var last := expand(vulns[|vulns| - 1]);
      if pre.Failure? then pre
      else if last.Failure? then Failure(last.error)
      else Success(pre.value + last.value)
  }

  /** How many rows `vulns` expand into. */
  function RowCount(vulns: seq<Json>, expand: Expander): nat {
    if |vulns| == 0 then 0
    else (if expand(vulns[0]).Success? then |expand(vulns[0]).value| else 0) + RowCount(vulns[1..], expand)
  }

  lemma {:induction false} RowCountAppend(a: seq<Json>, b: seq<Json>, expand: Expander)
    ensures RowCount(a + b, expand) == RowCount(a, expand) + RowCount(b, expand)
    decreases |a|
  {
    if |a| > 0 {
      assert (a + b)[0] == a[0];
      assert (a + b)[1..] == a[1..] + b;
      RowCountAppend(a[1..], b, expand);
    } else {
      assert a + b == b;
    }
  }

  /**
    The expansion succeeds exactly when every vulnerability does, and then
    has as many rows as the vulnerabilities expand into one by one.
  */
  lemma {:induction false} RowsOfMeaning(vulns: seq<Json>, expand: Expander)
    ensures RowsOf(vulns, expand).Success? <==> forall v <- vulns :: expand(v).Success?
    ensures RowsOf(vulns, expand).Success? ==> |RowsOf(vulns, expand).value| == RowCount(vulns, expand)
    decreases |vulns|
  {
    if |vulns| > 0 {
      var n := |vulns| - 1;
      var pre := vulns[..n];
      RowsOfMeaning(pre, expand);
      RowCountAppend(pre, [vulns[n]], expand);
      assert vulns == pre + [vulns[n]];
      assert [vulns[n]][1..] == [];
      assert forall v <- vulns :: v in pre || v == vulns[n];
    }
  }

  /** One step of the expansion: the rows so far, then the last vulnerability's rows. */
  lemma {:induction false} RowsOfLast(vulns: seq<Json>, expand: Expander)
    requires |vulns| > 0
    requires RowsOf(vulns[..|vulns| - 1], expand).Success? && expand(vulns[|vulns| - 1]).Success?
    ensures RowsOf(vulns, expand) == Success(RowsOf(vulns[..|vulns| - 1], expand).value + expand(vulns[|vulns| - 1]).value)
  {
  }

  /** The inductive step of `RowsOfAppend`: appending `b`'s last vulnerability on both sides. */
  lemma {:induction false} RowsOfAppendStep(a: seq<Json>, b: seq<Json>, expand: Expander)
    requires |b| > 0 && RowsOf(a, expand).Success? && RowsOf(b, expand).Success?
    requires RowsOf(a + b[..|b| - 1], expand) == Success(RowsOf(a, expand).value + RowsOf(b[..|b| - 1], expand).value)
    ensures RowsOf(a + b, expand) == Success(RowsOf(a, expand).value + RowsOf(b, expand).value)
  {
    var n := |b| - 1;
    var ab := a + b;
    assert ab[..|ab| - 1] == a + b[..n];
    assert ab[|ab| - 1] == b[n];
    RowsOfLast(b, expand);
    RowsOfLast(ab, expand);
    var x, y, z := RowsOf(a, expand).value, RowsOf(b[..n], expand).value, expand(b[n]).value;
    assert x + (y + z) == (x + y) + z;
  }

  /** The expansion of a concatenation is the concatenation of the expansions: order is kept. */
  lemma {:induction false} RowsOfAppend(a: seq<Json>, b: seq<Json>, expand: Expander)
    requires RowsOf(a, expand).Success? && RowsOf(b, expand).Success?
    ensures RowsOf(a + b, expand) == Success(RowsOf(a, expand).value + RowsOf(b, expand).value)
    decreases |b|
  {
    if |b| == 0 {
      assert a + b == a;
      assert RowsOf(a, expand).value + RowsOf(b, expand).value == RowsOf(a, expand).value;
    } else {
      assert RowsOf(b[..|b| - 1], expand).Success?;
      RowsOfAppend(a, b[..|b| - 1], expand);
      RowsOfAppendStep(a, b, expand);
    }
  }

  /** Once the expansion has failed, expanding more vulnerabilities does not change the error. */
  lemma {:induction false} RowsOfFailureSticks(a: seq<Json>, b: seq<Json>, expand: Expander)
    requires RowsOf(a, expand).Failure?
    ensures RowsOf(a + b, expand) == RowsOf(a, expand)
    decreases |b|
  {
    if |b| == 0 {
      assert a + b == a;
    } else {
      var n := |b| - 1;
      assert (a + b)[..|a + b| - 1] == a + b[..n];
      RowsOfFailureSticks(a, b[..n], expand);
    }
  }

  /** `flatten_multi(vulns)`: the rows of each vulnerability, appended in turn. */
  method FlattenMulti(vulns: seq<Json>) returns (r: Result<seq<Json>, Error>)
    ensures r == RowsOf(vulns, FlattenSingle)
  {
    var rows: seq<Json> := [];
    var i := 0;
    while i < |vulns|
      invariant 0 <= i <= |vulns|
      invariant RowsOf(vulns[..i], FlattenSingle) == Success(rows)
    {
      assert vulns[..i + 1][..i] == vulns[..i];
      var one := FlattenSingle(vulns[i]);
      if one.Failure? {
        assert RowsOf(vulns[..i + 1], FlattenSingle) == Failure(one.error);
        RowsOfFailureSticks(vulns[..i + 1], vulns[i + 1..], FlattenSingle);
        assert vulns[..i + 1] + vulns[i + 1..] == vulns;
        return Failure(one.error);
      }
      rows := rows + one.value;
      i := i + 1;
    }
    assert vulns[..i] == vulns;
    return Success(rows);
  }

  /** `export_one(vuln_id)`: look the vulnerability up and expand it. */
  function ExportOne(vulnId: string, server: Server): (r: Exchange<seq<Json>>)
    ensures r.calls == GetVuln(vulnId, server).calls
    ensures GetVuln(vulnId, server).result.Failure? ==> r.result == Failure(GetVuln(vulnId, server).result.error)
    ensures GetVuln(vulnId, server).result.Success? ==> r.result == FlattenSingle(GetVuln(vulnId, server).result.value)
  {
    var got := GetVuln(vulnId, server);
    match got.result
    case Failure(e) => Exchange(Failure(e), got.calls)
    case Success(v) => Exchange(FlattenSingle(v), got.calls)
  }

  /** `export_many(vuln_ids)`: the batch lookup, then the expansion of what it returned. */
  method ExportMany(arg: VulnIds, server: Server) returns (r: Exchange<seq<Json>>)
    ensures r.calls == GetManyOf(arg, server).calls
    ensures GetManyOf(arg, server).result.Failure? ==> r.result == Failure(GetManyOf(arg, server).result.error)
    ensures GetManyOf(arg, server).result.Success? ==>
      var vulns := GetManyOf(arg, server).result.value;
      vulns == Answers(IdsOf(arg), server)
      && (r.result.Success? <==> forall v <- vulns :: FlattenSingle(v).Success?)
      && (r.result.Success? ==> |r.result.value| == RowCount(vulns, FlattenSingle))
  {
    var got := GetMany(IdsOf(arg), server);
    if got.result.Failure? {
      return Exchange(Failure(got.result.error), got.calls);
    }
    GetManyMeaning(IdsOf(arg), server);
    RowsOfMeaning(got.result.value, FlattenSingle);
    var rows := FlattenMulti(got.result.value);
    return Exchange(rows, got.calls);
  }
}

=== FILE: wascli.dfy ===
/**
  The input rules of the SDK's command-line interface: which scan IDs
  `scans set-owner-bulk` acts on, and which files `findings export` and
  `findings export-all` write. The file system is a parameter (the text of
  a file, or `None` when it does not exist); the API calls and the printing
  are not modelled.
*/
module WasCli {
  import opened Wrappers
  import opened Errors
  import Text
  import Ids

  /** A Click option or argument counts as given only when it is a non-empty string. */
  predicate Given(x: Option<string>) {
    x.Some? && x.value != ""
  }

  const BothSources: string := "Use either scan_ids OR --from-file, not both."
  const NoSource: string := "Provide scan_ids or --from-file."
  const NoIds: string := "No scan IDs provided."

  /**
    `_load_ids_from_file(path)`, given the file's text when it exists: a
    missing file is an error, otherwise the stripped non-blank lines, a
    line ending at `'\n'`, `'\r'` or `"\r\n"` as text-mode reading has it.
  */
  function LoadIdsFromFile(path: string, readFile: string -> Option<string>): (r: Result<seq<string>, Error>)
    ensures r.Failure? <==> readFile(path).None?
    ensures r.Failure? ==> r.error == ClickException("File not found: " + path)
    ensures r.Success? ==> r.value == Ids.FileIds(readFile(path).value)
  {
    match readFile(path)
    case None => Failure(ClickException("File not found: " + path))
    case Some(content) => Success(Ids.FileIds(content))
  }

  /**
    The scan IDs `scans set-owner-bulk` changes the owner of: exactly one
    of the comma-separated argument and `--from-file` must be given, and
    the list it yields must not be empty.
  */
  function OwnerBulkIds(scanIds: Option<string>, idsFile: Option<string>,
                        readFile: string -> Option<string>): (r: Result<seq<string>, Error>)
    ensures Given(scanIds) && Given(idsFile) ==> r == Failure(ClickException(BothSources))
    ensures !Given(scanIds) && !Given(idsFile) ==> r == Failure(ClickException(NoSource))
    ensures Given(scanIds) && !Given(idsFile) ==>
      r == (if Ids.CommaIds(scanIds.value) == [] then Failure(ClickException(NoIds)) else Success(Ids.CommaIds(scanIds.value)))
    ensures !Given(scanIds) && Given(idsFile) && readFile(idsFile.value).Some? ==>
      r == (if Ids.FileIds(readFile(idsFile.value).value) == [] then Failure(ClickException(NoIds))
            else Success(Ids.FileIds(readFile(idsFile.value).value)))
    ensures !Given(scanIds) && Given(idsFile) && readFile(idsFile.value).None? ==>
      r == Failure(ClickException("File not found: " + idsFile.value))
    ensures r.Success? ==> |r.value| > 0 && forall x <- r.value :: Ids.Clean(x)
  {
    if Given(scanIds) && Given(idsFile) then Failure(ClickException(BothSources))
    else if !Given(scanIds) && !Given(idsFile) then Failure(ClickException(NoSource))
    else
      var ids :- if Given(scanIds) then Success(Ids.CommaIds(scanIds.value)) else LoadIdsFromFile(idsFile.value, readFile);
      if |ids| == 0 then Failure(ClickException(NoIds)) else Success(ids)
  }

  /**
    Any non-empty list of clean, comma-free IDs typed as one comma-joined
    argument reaches the bulk change unchanged, whatever file system there is.
  */
  lemma OwnerBulkIdsRoundTrip(ids: seq<string>, readFile: string -> Option<string>)
    requires |ids| > 0 && forall x <- ids :: Ids.Clean(x) && ',' !in x
    ensures OwnerBulkIds(Some(Text.Join([','], ids)), None, readFile) == Success(ids)
  {
    var arg := Text.Join([','], ids);
    Ids.ParseJoin(ids, ',');
    JoinLength(ids);
    assert Given(Some(arg)) && !Given(None);
    assert Ids.CommaIds(arg) == ids;
  }

  /** The joined argument is at least as long as its first ID. */
  lemma JoinLength(ids: seq<string>)
    requires |ids| > 0
    ensures |Text.Join([','], ids)| >= |ids[0]|
  {
  }

  /**
    Which of the two exports a findings command runs, and where each writes:
    `None` is not run, `Some(None)` is run with an automatic file name, and
    `Some(Some(p))` is run writing to `p`.
  */
  datatype Targets = Targets(json: Option<Option<string>>, csv: Option<Option<string>>)

  /** `None if out == "auto" else out`. */
  function PathOf(out: string): (p: Option<string>)
    ensures p.None? <==> out == "auto"
    ensures p.Some? ==> p.value == out
  {
    if out == "auto" then None else Some(out)
  }

  /**
    The output rule of `findings export` and `findings export-all`: with
    neither `--json-out` nor `--csv-out` given, CSV to an automatic file
    name; otherwise each given option runs its export, "auto" meaning an
    automatic file name.
  */
  function ExportTargets(jsonOut: Option<string>, csvOut: Option<string>): (r: Targets)
    ensures r.json.Some? || r.csv.Some?
    ensures r.json.Some? <==> Given(jsonOut)
    ensures r.csv.Some? <==> Given(csvOut) || !Given(jsonOut)
    ensures r.json.Some? ==> r.json.value == PathOf(jsonOut.value)
    ensures r.csv.Some? ==> r.csv.value == (if Given(csvOut) then PathOf(csvOut.value) else None)
  {
    var (j, c) := if !Given(jsonOut) && !Given(csvOut) then (None, Some("auto")) else (jsonOut, csvOut);
    Targets(if Given(j) then Some(PathOf(j.value)) else None,
            if Given(c) then Some(PathOf(c.value)) else None)
  }

  /** The option value that asks for a target: "auto" for an automatic name, the path otherwise. */
  function OptionFor(t: Option<Option<string>>): (o: Option<string>)
    ensures o.Some? <==> t.Some?
  {
    match t
    case None => None
    case Some(None) => Some("auto")
    case Some(Some(p)) => Some(p)
  }

  /** A target the commands can be asked for: a path is never empty and never the word "auto". */
  predicate Reachable(t: Option<Option<string>>) {
    t.Some? && t.value.Some? ==> t.value.value != "" && t.value.value != "auto"
  }

  /**
    Every choice of exports that runs at least one is what the commands do
    for the options that name it, so the option rule is onto those choices
    and loses nothing.
  */
  lemma ExportTargetsRoundTrip(t: Targets)
    requires (t.json.Some? || t.csv.Some?) && Reachable(t.json) && Reachable(t.csv)
    ensures ExportTargets(OptionFor(t.json), OptionFor(t.csv)) == t
  {
  }
}

=== FILE: wasconfig.dfy ===
/**
  The SDK's own `config` command group. Its proxy-URL normaliser,
  `set-proxy` and `clear-proxy-auth` are the stand-alone CLI's (module
  `Config`) line for line; what differs is the order of the default
  document, the order `clear-proxy` writes its keys, the proxy-auth
  message, and `set-proxy-auth`, which asks for both answers before
  rejecting either.
*/
module WasConfig {
  import opened Wrappers
  import opened Json
  import opened Errors
  import Text
  import Dict
  import Config

  /** The settings of `_default_config()`, in its order: the stand-alone CLI's, with `proxy_auth` third. */
  const DefaultFields: Dict.Dict<Json> :=
    [("api_key", JNull), ("proxy_url", JNull), ("proxy_auth", JBool(false)),
     ("proxy_username", JNull), ("proxy_password", JNull)]

  /** `_default_config()`: five settings, each once, the proxy block among them. */
  function DefaultConfig(): (r: Json)
    ensures r.JObj? && Dict.NoDupKeys(r.fields) && |r.fields| == 5
    ensures Config.HasProxyBlock(r) && "api_key" in Dict.KeySet(r.fields) && "proxy_url" in Dict.KeySet(r.fields)
  {
    var d := DefaultFields;
    assert Dict.NoDupKeys(d);
    assert d[0].0 == "api_key" && d[1].0 == "proxy_url" && d[2].0 == "proxy_auth";
    assert d[3].0 == "proxy_username" && d[4].0 == "proxy_password";
    JObj(d)
  }

  /** In the default document authentication is off and every other setting is `None`. */
  lemma DefaultValues()
    ensures Get(DefaultConfig(), "api_key") == JNull && Get(DefaultConfig(), "proxy_url") == JNull
    ensures Get(DefaultConfig(), "proxy_username") == JNull && Get(DefaultConfig(), "proxy_password") == JNull
    ensures Get(DefaultConfig(), "proxy_auth") == JBool(false)
  {
    var c := DefaultConfig();
    var d := DefaultFields;
    assert c == JObj(d);
    Dict.GetAt(d, 0);
    Dict.GetAt(d, 1);
    Dict.GetAt(d, 2);
    Dict.GetAt(d, 3);
    Dict.GetAt(d, 4);
    assert Get(c, "api_key") == JNull && Get(c, "proxy_url") == JNull;
    assert Get(c, "proxy_auth") == JBool(false);
  }

  const InvalidProxyBlock: string := "Proxy authentication enabled but username/password are missing."

  /** `_validate_proxy_block(cfg)`: the shared proxy-auth rule, with this CLI's message. */
  function ValidateProxyBlock(cfg: Json): (r: Option<Error>)
    ensures Config.HasProxyBlock(cfg) ==> (r.None? <==> Config.ProxyBlockValid(cfg))
    ensures Config.HasProxyBlock(cfg) && r.Some? ==> r.value == ClickException(InvalidProxyBlock)
  {
    Config.CheckProxyBlock(cfg, InvalidProxyBlock)
  }

  /** The default document passes the proxy-auth rule. */
  lemma DefaultValid()
    ensures ValidateProxyBlock(DefaultConfig()).None?
  {
    DefaultValues();
  }

  /** `clear-proxy`: URL, then authentication off, then username and password. */
  function ClearProxy(cfg: Json): (r: Result<Json, Error>)
    ensures r.Success? <==> cfg.JObj?
    ensures r.Success? ==> (r.value.JObj?
      && Dict.Get(r.value.fields, "proxy_url") == Some(JNull)
      && Dict.Get(r.value.fields, "proxy_auth") == Some(JBool(false))
      && Dict.Get(r.value.fields, "proxy_username") == Some(JNull)
      && Dict.Get(r.value.fields, "proxy_password") == Some(JNull))
  {
    if !cfg.JObj? then Failure(Config.NotADict)
    else
      var d := Config.Store(cfg.fields, "proxy_url", JNull);
      var d := Config.Store(d, "proxy_auth", JBool(false));
      var d := Config.Store(d, "proxy_username", JNull);
      Success(JObj(Config.Store(d, "proxy_password", JNull)))
  }

  /** Whatever order they write in, both `clear-proxy` commands leave every setting with the same value. */
  lemma ClearProxyAgrees(cfg: Json, k: string)
    requires cfg.JObj?
    ensures Dict.Get(ClearProxy(cfg).value.fields, k) == Dict.Get(Config.ClearProxy(cfg).value.fields, k)
  {
    if !Config.ProxyKey(k) {
      Config.ClearProxyKeeps(cfg, k);
      var d1 := Config.Store(cfg.fields, "proxy_url", JNull);
      var d2 := Config.Store(d1, "proxy_auth", JBool(false));
      var d3 := Config.Store(d2, "proxy_username", JNull);
      assert ClearProxy(cfg).value.fields == Config.Store(d3, "proxy_password", JNull);
      assert k != "proxy_url" && k != "proxy_username" && k != "proxy_password" && k != "proxy_auth";
      assert Dict.Get(d3, k) == Dict.Get(d2, k) == Dict.Get(d1, k) == Dict.Get(cfg.fields, k);
    } else if k == "proxy_url" {
    } else if k == "proxy_auth" {
    } else if k == "proxy_username" {
    } else {
      assert k == "proxy_password";
    }
  }

  const MissingCredentials: string := "Username and password required."

  /** The document `set-proxy-auth` validates: authentication on, then the credentials. */
  function WithProxyAuth(user: string, pw: string, cfg: Json): (r: Result<Json, Error>)
    ensures r.Success? <==> cfg.JObj?
    ensures r.Success? ==> (r.value.JObj?
      && Dict.Get(r.value.fields, "proxy_auth") == Some(JBool(true))
      && Dict.Get(r.value.fields, "proxy_username") == Some(JStr(user))
      && Dict.Get(r.value.fields, "proxy_password") == Some(JStr(pw)))
  {
    if !cfg.JObj? then Failure(Config.NotADict)
    else
      var d := Config.Store(cfg.fields, "proxy_auth", JBool(true));
      var d := Config.Store(d, "proxy_username", JStr(user));
      Success(JObj(Config.Store(d, "proxy_password", JStr(pw))))
  }

  /**
    `set-proxy-auth`, given the two prompted answers: both are stripped and
    both asked for before either is checked; a blank one raises, otherwise
    the credentials are stored with authentication on and the document is
    validated before it is saved.
  */
  function SetProxyAuth(username: string, password: string, cfg: Json): (r: Result<Json, Error>)
    ensures Text.Strip(username) == "" || Text.Strip(password) == "" ==> r == Failure(ClickException(MissingCredentials))
    ensures r.Success? ==> r == WithProxyAuth(Text.Strip(username), Text.Strip(password), cfg)
  {
    var user := Text.Strip(username);
    var pw := Text.Strip(password);
    if user == "" || pw == "" then Failure(ClickException(MissingCredentials))
    else
      var updated :- WithProxyAuth(user, pw, cfg);
      match ValidateProxyBlock(updated)
      case Some(e) => Failure(e)
      case None => Success(updated)
  }

  /** Stored non-blank credentials with authentication on pass the proxy-auth rule. */
  lemma WithProxyAuthValid(user: string, pw: string, cfg: Json)
    requires user != "" && pw != "" && cfg.JObj?
    ensures Config.HasProxyBlock(WithProxyAuth(user, pw, cfg).value)
    ensures Config.ProxyBlockValid(WithProxyAuth(user, pw, cfg).value)
    ensures ValidateProxyBlock(WithProxyAuth(user, pw, cfg).value).None?
  {
    var c := WithProxyAuth(user, pw, cfg).value;
    Config.SettingsOf(c, JBool(true), JStr(user), JStr(pw));
    assert Truthy(JStr(user)) && Truthy(JStr(pw));
  }

  /**
    The validation inside `set-proxy-auth` never fires: the command
    succeeds exactly when both answers are non-blank and the document is a
    dict, and the block it saves always passes the proxy-auth rule.
  */
  lemma SetProxyAuthValid(username: string, password: string, cfg: Json)
    ensures SetProxyAuth(username, password, cfg).Success? <==>
      Text.Strip(username) != "" && Text.Strip(password) != "" && cfg.JObj?
    ensures SetProxyAuth(username, password, cfg).Success? ==>
      (Config.HasProxyBlock(SetProxyAuth(username, password, cfg).value)
       && Config.ProxyBlockValid(SetProxyAuth(username, password, cfg).value))
  {
    var user, pw := Text.Strip(username), Text.Strip(password);
    if user != "" && pw != "" {
      if cfg.JObj? {
        WithProxyAuthValid(user, pw, cfg);
        assert SetProxyAuth(username, password, cfg) == WithProxyAuth(user, pw, cfg);
      } else {
        assert WithProxyAuth(user, pw, cfg).Failure?;
      }
    }
  }

  /** Both `set-proxy-auth` commands store the same settings when they succeed. */
  lemma SetProxyAuthAgrees(username: string, password: string, cfg: Json, k: string)
    requires SetProxyAuth(username, password, cfg).Success?
    ensures Config.SetProxyAuth(username, password, cfg).Success?
    ensures Dict.Get(SetProxyAuth(username, password, cfg).value.fields, k)
      == Dict.Get(Config.SetProxyAuth(username, password, cfg).value.fields, k)
  {
    var user, pw := Text.Strip(username), Text.Strip(password);
    SetProxyAuthValid(username, password, cfg);
    Config.SetProxyAuthValid(username, password, cfg);
    if !Config.AuthKey(k) {
      Config.WithProxyAuthKeeps(user, pw, cfg, k);
      var d1 := Config.Store(cfg.fields, "proxy_auth", JBool(true));
      var d2 := Config.Store(d1, "proxy_username", JStr(user));
      assert WithProxyAuth(user, pw, cfg).value.fields == Config.Store(d2, "proxy_password", JStr(pw));
      assert k != "proxy_username" && k != "proxy_password" && k != "proxy_auth";
      assert Dict.Get(d2, k) == Dict.Get(d1, k) == Dict.Get(cfg.fields, k);
    }
  }
}

=== FILE: wasfindings.dfy ===
/**
  The v2 package's `FindingsAPI` (pytenable_was/findings.py): one scan's
  findings by GET or by the bulk export endpoint, and the export of every
  scan's findings, raw or flattened, skipping scans whose export fails.
*/
module WasFindings {
  import opened Wrappers
  import opened Json
  import opened Errors
  import Dict
  import opened Api
  import WasUtils

  const ExportPath := "/was/v2/export/findings"

  function FindingsPath(scanId: string): string {
    "/was/v2/scans/" + scanId + "/findings"
  }

  /**
    `payload.get("findings", [])`, which must be a list: a non-dict payload
    raises `AttributeError`, a non-list value the given `TenableAPIError`.
  */
  function FindingsList(payload: Json, malformed: string): (r: Result<seq<Json>, Error>)
    ensures r.Success? <==> payload.JObj? && GetOr(payload, "findings", JList([])).JList?
    ensures r.Success? && "findings" !in Dict.KeySet(payload.fields) ==> r.value == []
    ensures r.Success? ==> JList(r.value) == GetOr(payload, "findings", JList([]))
    ensures payload.JObj? && r.Failure? ==> r.error == Errors.Api(malformed)
  {
    if !payload.JObj? then Failure(RuntimeFault("AttributeError", "get"))
    else
      match GetOr(payload, "findings", JList([]))
      case JList(items) => Success(items)
      case _ => Failure(Errors.Api(malformed))
  }

  /** `list_findings(scan_id)`: GET the scan's findings; any client error becomes one `TenableAPIError`. */
  function ListFindings(scanId: string, server: Server): (r: Exchange<seq<Json>>)
    ensures r.calls == [GetCall(FindingsPath(scanId), None)]
    ensures var out := server(GetCall(FindingsPath(scanId), None));
      (out.Failure? ==> r.result == Failure(Errors.Api("Failed retrieving findings for scan " + scanId)))
      && (out.Success? ==> r.result == FindingsList(out.value, "Malformed findings payload"))
  {
    var call := GetCall(FindingsPath(scanId), None);
    match server(call)
    case Failure(_) => Exchange(Failure(Errors.Api("Failed retrieving findings for scan " + scanId)), [call])
    case Success(payload) => Exchange(FindingsList(payload, "Malformed findings payload"), [call])
  }

  /** The bulk-export request for one scan: its id is sent as given. */
  function ExportCall(scanId: Json): Call {
    PostCall(ExportPath, Some(JObj([("scan_id", scanId)])))
  }

  /**
    `export_findings_full(scan_id)`: POST to the export endpoint. The id is
    a JSON value because `export_all_findings` passes whatever the scan
    record holds; it is rendered with `str()` in the error message.
  */
  function ExportFull(scanId: Json, server: Server, render: Renderer): (r: Result<seq<Json>, Error>)
    ensures var out := server(ExportCall(scanId));
      (out.Failure? ==> r == Failure(Errors.Api("Failed exporting findings for scan " + PyStr(scanId, render))))
      && (out.Success? ==> r == FindingsList(out.value, "Malformed export-findings payload"))
    // the only errors besides `TenableAPIError` come from a payload that is not a dict
    ensures r.Failure? && !r.error.ApiError? ==>
      server(ExportCall(scanId)).Success? && !server(ExportCall(scanId)).value.JObj?
  {
    match server(ExportCall(scanId))
    case Failure(_) => Failure(Errors.Api("Failed exporting findings for scan " + PyStr(scanId, render)))
    case Success(payload) => FindingsList(payload, "Malformed export-findings payload")
  }

  /** `sc.get("scan_id") or sc.get("id")`; a scan record that is not a dict raises. */
  function ScanIdOf(sc: Json): (r: Result<Json, Error>)
    ensures r.Success? <==> sc.JObj?
    ensures r.Success? && Truthy(Get(sc, "scan_id")) ==> r.value == Get(sc, "scan_id")
    ensures r.Success? && !Truthy(Get(sc, "scan_id")) ==> r.value == Get(sc, "id")
  {
    if !sc.JObj? then Failure(RuntimeFault("AttributeError", "get"))
    else Success(FirstTruthy(sc, ["scan_id"], Get(sc, "id")))
  }

  /** One exported scan: its id and its findings. */
  datatype Export = Export(scanId: Json, findings: seq<Json>)

  /** What the export loop does with one scan record. */
  datatype Step =
    | Skip                                         // no id: no call
    | Called(call: Call, done: Option<Export>)   // exported, or its `TenableAPIError` swallowed
    | Abort(error: Error, calls: seq<Call>)        // any other error propagates

  function ExportStep(sc: Json, server: Server, render: Renderer): (r: Step)
    ensures r.Abort? ==> |r.calls| <= 1
  {
    match ScanIdOf(sc)
    case Failure(e) => Abort(e, [])
    case Success(id) =>
      if !Truthy(id) then Skip
      else
        match ExportFull(id, server, render)
        case Failure(e) => if e.ApiError? then Called(ExportCall(id), None) else Abort(e, [ExportCall(id)])
        case Success(fs) => Called(ExportCall(id), Some(Export(id, fs)))
  }

  /** Which scans are skipped, which are asked for, and which errors end the export. */
  lemma ExportStepMeaning(sc: Json, server: Server, render: Renderer)
    ensures var r := ExportStep(sc, server, render);
      (r.Skip? <==> ScanIdOf(sc).Success? && !Truthy(ScanIdOf(sc).value))
      && (r.Called? ==> ScanIdOf(sc).Success? && Truthy(ScanIdOf(sc).value) && r.call == ExportCall(ScanIdOf(sc).value))
      && (r.Called? && r.done.None? ==>
            ExportFull(ScanIdOf(sc).value, server, render).Failure?
            && ExportFull(ScanIdOf(sc).value, server, render).error.ApiError?)
      && (r.Called? && r.done.Some? ==>
            r.done.value.scanId == ScanIdOf(sc).value
            && ExportFull(r.done.value.scanId, server, render) == Success(r.done.value.findings))
      && (r.Abort? ==> !r.error.ApiError?)
  {
  }

  function AsSeq(o: Option<Export>): seq<Export> {
    if o.Some? then [o.value] else []
  }

  /**
    The scans `export_all_findings` exports, in order, with the calls made:
    a scan without an id is skipped without a call, a scan whose export
    raises `TenableAPIError` is skipped after its call, and any other
    error ends the whole export.
  */
  function Exports(scans: seq<Json>, server: Server, render: Renderer): (r: Exchange<seq<Export>>)
    ensures r.result.Success? ==> |r.result.value| <= |r.calls| <= |scans|
    decreases |scans|
  {
    if |scans| == 0 then Exchange(Success([]), [])
    else
      match ExportStep(scans[0], server, render)
      case Skip => Exports(scans[1..], server, render)
      case Abort(e, cs) => Exchange(Failure(e), cs)
      case Called(c, o) =>
        var rest := Exports(scans[1..], server, render);
        Exchange(if rest.result.Success? then Success(AsSeq(o) + rest.result.value) else rest.result, [c] + rest.calls)
  }

  /** Every exported scan had a truthy id, was asked for, and answered with exactly its findings list. */
  lemma {:induction false} ExportsAreAnswers(scans: seq<Json>, server: Server, render: Renderer)
    ensures var r := Exports(scans, server, render);
      r.result.Success? ==>
        forall e <- r.result.value ::
          Truthy(e.scanId) && ExportCall(e.scanId) in r.calls
          && ExportFull(e.scanId, server, render) == Success(e.findings)
    decreases |scans|
  {
    if |scans| > 0 {
      ExportsAreAnswers(scans[1..], server, render);
      ExportStepMeaning(scans[0], server, render);
    }
  }

  /**
    A scan record the export loop gets past: a dict whose export, when it
    has a truthy id, either answers or raises `TenableAPIError`.
  */
  predicate Passable(sc: Json, server: Server, render: Renderer) {
    sc.JObj?
    && (Truthy(ScanIdOf(sc).value) ==>
          ExportFull(ScanIdOf(sc).value, server, render).Success?
          || ExportFull(ScanIdOf(sc).value, server, render).error.ApiError?)
  }

  /** Reference: the scans with a truthy id whose export answers, in scan order, each with its answer. */
  function Answered(scans: seq<Json>, server: Server, render: Renderer): seq<Export>
    decreases |scans|
  {
    if |scans| == 0 then []
    else
      var sc := scans[0];
      var rest := Answered(scans[1..], server, render);
      if sc.JObj? && Truthy(ScanIdOf(sc).value) && ExportFull(ScanIdOf(sc).value, server, render).Success? then
        [Export(ScanIdOf(sc).value, ExportFull(ScanIdOf(sc).value, server, render).value)] + rest
      else rest
  }

  /**
    The export succeeds exactly when every scan record is passable, and
    then holds every scan whose export answered, in scan order, and no
    other: none is lost and none is invented.
  */
  lemma {:induction false} ExportsAreAllAnswered(scans: seq<Json>, server: Server, render: Renderer)
    ensures var r := Exports(scans, server, render);
      (r.result.Success? <==> forall sc <- scans :: Passable(sc, server, render))
      && (r.result.Success? ==> r.result.value == Answered(scans, server, render))
    decreases |scans|
  {
    if |scans| > 0 {
      var sc := scans[0];
      ExportsAreAllAnswered(scans[1..], server, render);
      ExportStepMeaning(sc, server, render);
      assert forall x <- scans :: x == sc || x in scans[1..];
      assert forall x <- scans[1..] :: x in scans;
      var rest := Exports(scans[1..], server, render);
      match ExportStep(sc, server, render) {
        case Skip =>
          assert Exports(scans, server, render) == rest;
        case Abort(_, _) =>
          assert !Passable(sc, server, render);
        case Called(c, None) =>
          if rest.result.Success? {
            assert AsSeq(None) + rest.result.value == rest.result.value;
          }
        case Called(c, Some(e)) =>
          assert AsSeq(Some(e)) == [e];
      }
    }
  }

  /** A scan record that is not a dict ends the export with `AttributeError`. */
  lemma {:induction false} ExportNeedsDicts(scans: seq<Json>, server: Server, render: Renderer)
    requires Exports(scans, server, render).result.Success?
    ensures forall sc <- scans :: sc.JObj?
    decreases |scans|
  {
    if |scans| > 0 {
      ExportStepMeaning(scans[0], server, render);
      ExportNeedsDicts(scans[1..], server, render);
      assert forall sc <- scans :: sc == scans[0] || sc in scans[1..];
    }
  }

  /** The record `export_all_findings` appends for an exported scan. */
  function RecordOf(e: Export): (r: Json)
    ensures r.JObj? && Get(r, "scan_id") == e.scanId && Get(r, "findings") == JList(e.findings)
  {
    var d := [("scan_id", e.scanId), ("findings", JList(e.findings))];
    Dict.GetAt(d, 0);
    Dict.GetAt(d, 1);
    JObj(d)
  }

  /** `export_all_findings()` over the scan list `list_scans()` returned. */
  function ExportAllFindings(scans: seq<Json>, server: Server, render: Renderer): (r: Exchange<seq<Json>>)
    ensures var x := Exports(scans, server, render);
      r.calls == x.calls
      && (x.result.Failure? ==> r.result == Failure(x.result.error))
      && (x.result.Success? ==>
            r.result.Success? && |r.result.value| == |x.result.value|
            && forall i :: 0 <= i < |r.result.value| ==> r.result.value[i] == RecordOf(x.result.value[i]))
  {
    var x := Exports(scans, server, render);
    match x.result
    case Failure(e) => Exchange(Failure(e), x.calls)
    case Success(ex) => Exchange(Success(seq(|ex|, i requires 0 <= i < |ex| => RecordOf(ex[i]))), x.calls)
  }

  /** `flatten_dict(f)` with the scan's id written over any flattened `scan_id`; a non-dict finding raises. */
  function FlatRow(f: Json, scanId: Json): (r: Result<Json, Error>)
    ensures r.Success? <==> f.JObj?
    ensures r.Success? ==> r.value.JObj? && Get(r.value, "scan_id") == scanId
    ensures r.Success? ==> forall k :: k != "scan_id" ==>
      Get(r.value, k) == Get(JObj(WasUtils.FlattenDict(f.fields, "", ".")), k)
  {
    if !f.JObj? then Failure(RuntimeFault("AttributeError", "items"))
    else Success(Put(JObj(WasUtils.FlattenDict(f.fields, "", ".")), "scan_id", scanId))
  }

  /** The rows of one exported scan, in order; the first non-dict finding raises. */
  function FlatRows(fs: seq<Json>, scanId: Json): (r: Result<seq<Json>, Error>)
    ensures r.Success? <==> forall f <- fs :: f.JObj?
    ensures r.Success? ==> |r.value| == |fs|
    ensures r.Success? ==> forall row <- r.value :: row.JObj? && Get(row, "scan_id") == scanId
    // row i is finding i flattened
    ensures r.Success? ==> forall i :: 0 <= i < |fs| ==> FlatRow(fs[i], scanId) == Success(r.value[i])
  {
    if |fs| == 0 then Success([])
    else
      assert forall f <- fs :: f == fs[0] || f in fs[1..];
      match FlatRow(fs[0], scanId)
      case Failure(e) => Failure(e)
      case Success(row) =>
        match FlatRows(fs[1..], scanId)
        case Failure(e) => Failure(e)
        case Success(rest) => Success([row] + rest)
  }

  /** The number of findings over the exported scans. */
  function TotalFindings(ex: seq<Export>): (n: nat)
    ensures n == 0 <==> forall e <- ex :: e.findings == []
    ensures forall e <- ex :: |e.findings| <= n
  {
    if |ex| == 0 then 0
    else
      assert forall e <- ex :: e == ex[0] || e in ex[1..];
      assert forall e <- ex[1..] :: e in ex;
      |ex[0].findings| + TotalFindings(ex[1..])
  }

  /** The rows of every exported scan, scan by scan. */
  function FlatAll(ex: seq<Export>): (r: Result<seq<Json>, Error>)
    ensures r.Success? ==> |r.value| == TotalFindings(ex)
    decreases |ex|
  {
    if |ex| == 0 then Success([])
    else
      match FlatRows(ex[0].findings, ex[0].scanId)
      case Failure(err) => Failure(err)
      case Success(rows) =>
        match FlatAll(ex[1..])
        case Failure(err) => Failure(err)
        case Success(rest) => Success(rows + rest)
  }

  /**
    Flattening fails exactly when some exported finding is not a dict;
    otherwise there is one row per finding.
  */
  lemma {:induction false} FlatAllMeaning(ex: seq<Export>)
    ensures var r := FlatAll(ex);
      (r.Success? <==> forall e <- ex :: FlatRows(e.findings, e.scanId).Success?)
      && (r.Success? ==> |r.value| == TotalFindings(ex))
    decreases |ex|
  {
    if |ex| > 0 {
      FlatAllMeaning(ex[1..]);
      var ok := (e: Export) => FlatRows(e.findings, e.scanId).Success?;
      assert (forall e <- ex :: ok(e)) <==> ok(ex[0]) && forall e <- ex[1..] :: ok(e) by {
        assert forall e <- ex :: e == ex[0] || e in ex[1..];
        assert forall e <- ex[1..] :: e in ex;
      }
    }
  }

  /** Every flattened row is a dict carrying the id of the scan it was exported from. */
  lemma {:induction false} FlatAllRowsTagged(ex: seq<Export>)
    ensures var r := FlatAll(ex);
      r.Success? ==> forall row <- r.value :: row.JObj? && exists e <- ex :: Get(row, "scan_id") == e.scanId
    decreases |ex|
  {
    if |ex| > 0 {
      FlatAllRowsTagged(ex[1..]);
      assert ex[0] in ex;
      assert forall e <- ex[1..] :: e in ex;
    }
  }

  /**
    `export_all_findings_flat()`: the same walk over the scans, appending
    each exported scan's rows as it goes; a finding that is not a dict
    raises there and then, so no later scan is asked for.
  */
  function ExportAllFindingsFlat(scans: seq<Json>, server: Server, render: Renderer): (r: Exchange<seq<Json>>)
    ensures |r.calls| <= |scans|
    ensures r.result.Success? ==> forall row <- r.result.value :: row.JObj?
    decreases |scans|
  {
    if |scans| == 0 then Exchange(Success([]), [])
    else
      match ExportStep(scans[0], server, render)
      case Skip => ExportAllFindingsFlat(scans[1..], server, render)
      case Abort(e, cs) => Exchange(Failure(e), cs)
      case Called(c, None) =>
        var rest := ExportAllFindingsFlat(scans[1..], server, render);
        Exchange(rest.result, [c] + rest.calls)
      case Called(c, Some(e)) =>
        match FlatRows(e.findings, e.scanId)
        case Failure(err) => Exchange(Failure(err), [c])
        case Success(rows) =>
          var rest := ExportAllFindingsFlat(scans[1..], server, render);
          Exchange(if rest.result.Success? then Success(rows + rest.result.value) else rest.result, [c] + rest.calls)
  }

  /**
    Whenever the flat export succeeds, it is the raw export flattened scan
    by scan, after the same calls.
  */
  lemma {:induction false} FlatIsFlattenedExport(scans: seq<Json>, server: Server, render: Renderer)
    ensures var f := ExportAllFindingsFlat(scans, server, render);
      var x := Exports(scans, server, render);
      f.result.Success? ==> x.result.Success? && f.calls == x.calls && FlatAll(x.result.value) == f.result
    decreases |scans|
  {
    if |scans| > 0 {
      FlatIsFlattenedExport(scans[1..], server, render);
      var rest := Exports(scans[1..], server, render);
      var frest := ExportAllFindingsFlat(scans[1..], server, render);
      match ExportStep(scans[0], server, render) {
        case Skip =>
          assert Exports(scans, server, render) == rest;
          assert ExportAllFindingsFlat(scans, server, render) == frest;
        case Abort(_, _) =>
        case Called(c, None) =>
          if frest.result.Success? {
            assert AsSeq(None) + rest.result.value == rest.result.value;
          }
        case Called(c, Some(e)) =>
          if frest.result.Success? {
            var ex := [e] + rest.result.value;
            assert AsSeq(Some(e)) == [e];
            assert ex[0] == e && ex[1..] == rest.result.value;
          }
      }
    }
  }

  /** Conversely, when the raw export succeeds and all its findings flatten, so does the flat export. */
  lemma {:induction false} FlattenableExportIsFlat(scans: seq<Json>, server: Server, render: Renderer)
    ensures var x := Exports(scans, server, render);
      x.result.Success? && FlatAll(x.result.value).Success? ==> ExportAllFindingsFlat(scans, server, render).result.Success?
    decreases |scans|
  {
    if |scans| > 0 {
      FlattenableExportIsFlat(scans[1..], server, render);
      var rest := Exports(scans[1..], server, render);
      var frest := ExportAllFindingsFlat(scans[1..], server, render);
      match ExportStep(scans[0], server, render) {
        case Skip =>
          assert Exports(scans, server, render) == rest;
          assert ExportAllFindingsFlat(scans, server, render) == frest;
        case Abort(_, _) =>
        case Called(c, None) =>
          if rest.result.Success? {
            assert AsSeq(None) + rest.result.value == rest.result.value;
          }
        case Called(c, Some(e)) =>
          if rest.result.Success? {
            var ex := [e] + rest.result.value;
            assert AsSeq(Some(e)) == [e];
            assert ex[0] == e && ex[1..] == rest.result.value;
          }
      }
    }
  }

  /** The flat export's row count is the number of findings over the successfully exported scans. */
  lemma FlatRowCount(scans: seq<Json>, server: Server, render: Renderer)
    requires ExportAllFindingsFlat(scans, server, render).result.Success?
    ensures var x := Exports(scans, server, render);
      x.result.Success?
      && |ExportAllFindingsFlat(scans, server, render).result.value| == TotalFindings(x.result.value)
  {
    FlatIsFlattenedExport(scans, server, render);
    FlatAllMeaning(Exports(scans, server, render).result.value);
  }
}

=== FILE: wasutils.dfy ===
/**
  The helpers of the v2 `utils` module. The legacy `utils` module defines
  the same normalisation, `safe_get`, timestamp, severity and flattening
  helpers with the same behaviour; they are modelled once, here, and only
  its different `group_by_severity` gets a module of its own (`Utils`).
*/
module WasUtils {
  import opened Wrappers
  import opened Text
  import Dict
  import opened Json
  import Sorting
  import opened Errors

  // ---------------------------------------------------------------------
  // Normalisation and identifiers
  // ---------------------------------------------------------------------

  /** `normalize_id(value)`: `None` stays `None`; anything else is `str(value).strip()`. */
  function NormalizeId(value: Json, render: Renderer): (r: Option<string>)
    ensures r.None? <==> value.JNull?
    ensures r.Some? ==> NoEdgeSpace(r.value) && |r.value| <= |PyStr(value, render)|
    ensures value.JStr? ==> r == Some(Strip(value.s))
  {
    if value.JNull? then None else Some(Strip(PyStr(value, render)))
  }

  /** Normalising an id a second time changes nothing. */
  lemma NormalizeIdIdempotent(value: Json, render: Renderer)
    requires !value.JNull?
    ensures NormalizeId(JStr(NormalizeId(value, render).value), render) == NormalizeId(value, render)
  {
    StripIdempotent(PyStr(value, render));
  }

  /** An integer id normalises to its decimal text, which reads back as the same integer. */
  lemma NormalizeIntId(i: int, render: Renderer)
    ensures NormalizeId(JInt(i), render).Some?
    ensures ParseInt(NormalizeId(JInt(i), render).value) == Some(i)
  {
    var t := IntToDecimal(i);
    StripOfDecimal(i);
    ParseIntOfDecimal(i);
    assert NormalizeId(JInt(i), render) == Some(t);
  }

  /** `normalize_url(url)`: falsy gives `None`, else stripped and lower-cased. */
  function NormalizeUrl(url: Option<string>): (r: Option<string>)
    ensures r.None? <==> url.None? || url.value == ""
    ensures r.Some? ==> NoEdgeSpace(r.value) && Lower(r.value) == r.value
    ensures r.Some? ==> |r.value| <= |url.value|
  {
    if url.None? || url.value == "" then None
    else
      var t := Lower(Strip(url.value));
      LowerStripCommute(url.value);
      LowerIdempotent(Strip(url.value));
      Some(t)
  }

  /**
    Normalising a normalised URL gives it back, unless the first pass
    produced the empty string (an all-whitespace input), which is falsy the
    second time and becomes `None`.
  */
  lemma NormalizeUrlIdempotent(url: Option<string>)
    ensures var r := NormalizeUrl(url);
      r.Some? && r.value != "" ==> NormalizeUrl(r) == r
    ensures NormalizeUrl(url) == Some("") ==> NormalizeUrl(NormalizeUrl(url)) == None
  {
    var r := NormalizeUrl(url);
    if r.Some? && r.value != "" {
      StripOfNoEdgeSpace(r.value);
    }
  }

  /** `normalize_list(value)`: `None` is `[]`, a list is itself, anything else a singleton. */
  function NormalizeList(value: Json): (r: seq<Json>)
    ensures value.JNull? ==> r == []
    ensures value.JList? ==> r == value.items
    ensures !value.JNull? && !value.JList? ==> r == [value]
  {
    match value
    case JNull => []
    case JList(items) => items
    case _ => [value]
  }

  /** A list produced by `normalize_list` is returned unchanged by a second call. */
  lemma NormalizeListIdempotent(value: Json)
    ensures NormalizeList(JList(NormalizeList(value))) == NormalizeList(value)
  {
  }

  predicate IsHex(c: char) {
    ('0' <= c <= '9') || ('a' <= c <= 'f') || ('A' <= c <= 'F')
  }

  predicate AllHex(s: string) {
    forall i :: 0 <= i < |s| ==> IsHex(s[i])
  }

  /** Position `i` of a canonical UUID: a dash at 8, 13, 18 and 23, a hex digit elsewhere. */
  predicate UuidCharAt(s: string, i: nat)
    requires i < |s|
  {
    if i == 8 || i == 13 || i == 18 || i == 23 then s[i] == '-' else IsHex(s[i])
  }

  /** The 36-character 8-4-4-4-12 hex shape. */
  predicate CanonicalUuid(s: string) {
    |s| == 36 && forall i :: 0 <= i < 36 ==> UuidCharAt(s, i)
  }

  /**
    `is_uuid(value)`: false for a falsy value, else whether the UUID regex
    matches from the start. Its `$` also matches just before one final
    newline, so a canonical UUID followed by `"\n"` is accepted too.
  */
  function IsUuid(value: Option<string>): (r: bool)
    ensures value.None? || value.value == "" ==> !r
    ensures r ==> |value.value| == 36 || |value.value| == 37
  {
    if value.None? || value.value == "" then false
    else
      var s := value.value;
      CanonicalUuid(s) || (|s| == 37 && s[36] == '\n' && CanonicalUuid(s[..36]))
  }

  /** The five groups joined with dashes. */
  function JoinUuid(a: string, b: string, c: string, d: string, e: string): string {
    a + "-" + b + "-" + c + "-" + d + "-" + e
  }

  predicate UuidGroups(a: string, b: string, c: string, d: string, e: string) {
    |a| == 8 && |b| == 4 && |c| == 4 && |d| == 4 && |e| == 12
    && AllHex(a) && AllHex(b) && AllHex(c) && AllHex(d) && AllHex(e)
  }

  /** Five hex groups of lengths 8, 4, 4, 4, 12 joined by dashes are a UUID, with or without a final newline. */
  lemma UuidOfGroups(a: string, b: string, c: string, d: string, e: string)
    requires UuidGroups(a, b, c, d, e)
    ensures IsUuid(Some(JoinUuid(a, b, c, d, e)))
    ensures IsUuid(Some(JoinUuid(a, b, c, d, e) + "\n"))
  {
    var s := JoinUuid(a, b, c, d, e);
    assert |s| == 36;
    forall i | 0 <= i < 36
      ensures UuidCharAt(s, i)
    {
      if i < 8 { assert s[i] == a[i]; }
      else if i == 8 { assert s[i] == '-'; }
      else if i < 13 { assert s[i] == b[i - 9]; }
      else if i == 13 { assert s[i] == '-'; }
      else if i < 18 { assert s[i] == c[i - 14]; }
      else if i == 18 { assert s[i] == '-'; }
      else if i < 23 { assert s[i] == d[i - 19]; }
      else if i == 23 { assert s[i] == '-'; }
      else { assert s[i] == e[i - 24]; }
    }
    assert (s + "\n")[..36] == s;
  }

  /** Every string `is_uuid` accepts is five such groups, optionally followed by one newline. */
  lemma GroupsOfUuid(s: string)
    requires IsUuid(Some(s))
    ensures var c := s[..36];
      (s == c || s == c + "\n")
      && UuidGroups(c[..8], c[9..13], c[14..18], c[19..23], c[24..])
      && c == JoinUuid(c[..8], c[9..13], c[14..18], c[19..23], c[24..])
  {
    var c := s[..36];
    if |s| == 36 {
      assert c == s;
    }
    assert CanonicalUuid(c);
    assert forall i :: 0 <= i < 36 ==> UuidCharAt(c, i);
    assert AllHex(c[..8]) by {
      forall i | 0 <= i < 8 ensures IsHex(c[..8][i]) { assert UuidCharAt(c, i); }
    }
    assert AllHex(c[9..13]) by {
      forall i | 0 <= i < 4 ensures IsHex(c[9..13][i]) { assert UuidCharAt(c, i + 9); }
    }
    assert AllHex(c[14..18]) by {
      forall i | 0 <= i < 4 ensures IsHex(c[14..18][i]) { assert UuidCharAt(c, i + 14); }
    }
    assert AllHex(c[19..23]) by {
      forall i | 0 <= i < 4 ensures IsHex(c[19..23][i]) { assert UuidCharAt(c, i + 19); }
    }
    assert AllHex(c[24..]) by {
      forall i | 0 <= i < 12 ensures IsHex(c[24..][i]) { assert UuidCharAt(c, i + 24); }
    }
    assert UuidCharAt(c, 8) && UuidCharAt(c, 13) && UuidCharAt(c, 18) && UuidCharAt(c, 23);
    assert c == JoinUuid(c[..8], c[9..13], c[14..18], c[19..23], c[24..]);
    if |s| == 37 {
      assert s == c + "\n";
    }
  }

  // ---------------------------------------------------------------------
  // Nested access
  // ---------------------------------------------------------------------

  /**
    `safe_get(data, *keys, default=default)`: walk the keys through nested
    objects; a non-object on the way, or `None` at the end (which is also
    what a missing key yields), gives `default`.
  */
  function SafeGet(data: Json, keys: seq<string>, default: Json): (r: Json)
    ensures r == default || r != JNull
    ensures |keys| > 0 && !data.JObj? ==> r == default
    ensures |keys| == 0 ==> r == (if data.JNull? then default else data)
    decreases |keys|
  {
    if |keys| == 0 then (if data.JNull? then default else data)
    else if !data.JObj? then default
    else SafeGet(Get(data, keys[0]), keys[1..], default)
  }

  /**
    Walking `a + b` is walking `a` (with `None` as the default) and then,
    from whatever non-`None` value that reached, walking `b`.
  */
  lemma {:induction false} SafeGetConcat(data: Json, a: seq<string>, b: seq<string>, default: Json)
    ensures SafeGet(data, a + b, default) ==
      (var mid := SafeGet(data, a, JNull); if mid.JNull? then default else SafeGet(mid, b, default))
    decreases |a|
  {
    if |a| == 0 {
      assert a + b == b;
      if data.JNull? {
        assert SafeGet(data, b, default) == default;
      }
    } else if data.JObj? {
      assert (a + b)[0] == a[0] && (a + b)[1..] == a[1..] + b;
      SafeGetConcat(Get(data, a[0]), a[1..], b, default);
    }
  }

  /** A key missing from an object gives the default, however many keys follow it. */
  lemma SafeGetMissing(data: Json, k: string, rest: seq<string>, default: Json)
    requires data.JObj? && k !in Dict.KeySet(data.fields)
    ensures SafeGet(data, [k] + rest, default) == default
  {
    assert ([k] + rest)[0] == k && ([k] + rest)[1..] == rest;
    assert Get(data, k) == JNull;
  }

  // ---------------------------------------------------------------------
  // Timestamps
  // ---------------------------------------------------------------------

  /** Python `int(f)` for a finite float: truncation toward zero. */
  function TruncateReal(f: real): (r: int)
    ensures f >= 0.0 ==> r as real <= f < r as real + 1.0
    ensures f < 0.0 ==> r as real - 1.0 < f <= r as real
  {
    if f >= 0.0 then f.Floor else -((-f).Floor)
  }

  /**
    `parse_timestamp(ts)`: `None` stays `None`; `int(ts)` when that
    succeeds (booleans, integers, floats truncated, integer strings);
    otherwise a string is handed to the ISO-8601 reader `iso`, and a list or
    object has no timestamp.
  */
  function ParseTimestamp(ts: Json, iso: string -> Option<int>): (r: Option<int>)
    ensures ts.JNull? ==> r.None?
    ensures ts.JInt? ==> r == Some(ts.i)
    ensures ts.JStr? && ParseInt(ts.s).Some? ==> r == ParseInt(ts.s)
    ensures ts.JStr? && ParseInt(ts.s).None? ==> r == iso(ts.s)
    ensures ts.JList? || ts.JObj? ==> r.None?
  {
    match ts
    case JNull => None
    case JBool(b) => Some(if b then 1 else 0)
    case JInt(i) => Some(i)
    case JFloat(f) => Some(TruncateReal(f))
    case JStr(s) => if ParseInt(s).Some? then ParseInt(s) else iso(s)
    case _ => None
  }

  /** An epoch written as decimal text parses to that epoch, whatever the ISO reader does. */
  lemma ParseTimestampOfText(i: int, iso: string -> Option<int>)
    ensures ParseTimestamp(JStr(IntToDecimal(i)), iso) == Some(i)
  {
    ParseIntOfDecimal(i);
  }

  /** `duration_seconds(start, end)`: `max(0, end - start)`, or `None` if either side fails to parse. */
  function DurationSeconds(start: Json, end: Json, iso: string -> Option<int>): (r: Option<nat>)
    ensures r.None? <==> ParseTimestamp(start, iso).None? || ParseTimestamp(end, iso).None?
    ensures r.Some? ==> (r.value == 0 || r.value == ParseTimestamp(end, iso).value - ParseTimestamp(start, iso).value)
    ensures r.Some? ==> r.value >= ParseTimestamp(end, iso).value - ParseTimestamp(start, iso).value
  {
    var s := ParseTimestamp(start, iso);
    var e := ParseTimestamp(end, iso);
    if s.None? || e.None? then None
    else if e.value - s.value > 0 then Some(e.value - s.value)
    else Some(0)
  }

  /** An interval that does not run backwards measures exactly its length, so `start + duration == end`. */
  lemma DurationOfEpochs(a: int, b: int, iso: string -> Option<int>)
    requires a <= b
    ensures DurationSeconds(JInt(a), JInt(b), iso) == Some(b - a)
    ensures DurationSeconds(JInt(b), JInt(a), iso) == Some(0)
  {
  }

  // ---------------------------------------------------------------------
  // Severity
  // ---------------------------------------------------------------------

  /** `SEVERITY_ORDER`. */
  const SeverityOrder: Dict.Dict<int> :=
    [("critical", 4), ("high", 3), ("medium", 2), ("low", 1), ("info", 0)]

  const SeverityNames: seq<string> := ["critical", "high", "medium", "low", "info"]

  /** `severity_rank(sev)`: the table entry for the lower-cased label, -1 when empty or unknown. */
  function SeverityRank(sev: Option<string>): (r: int)
    ensures -1 <= r <= 4
    ensures r >= 0 <==> sev.Some? && Lower(sev.value) in SeverityNames
    ensures r >= 0 ==> SeverityNames[4 - r] == Lower(sev.value)
  {
    if sev.None? || sev.value == "" then -1
    else
      var l := Lower(sev.value);
      if l == "critical" then 4
      else if l == "high" then 3
      else if l == "medium" then 2
      else if l == "low" then 1
      else if l == "info" then 0
      else -1
  }

  /** The rank agrees with a lookup of the lower-cased label in `SEVERITY_ORDER`. */
  lemma SeverityRankIsTableLookup(s: string)
    requires s != ""
    ensures SeverityRank(Some(s)) == Dict.Get(SeverityOrder, Lower(s)).GetOr(-1)
  {
    var l := Lower(s);
    var t := SeverityOrder;
    assert t[0].0 == "critical" && t[1].0 == "high" && t[2].0 == "medium" && t[3].0 == "low" && t[4].0 == "info";
    assert Dict.NoDupKeys(t);
    if l in SeverityNames {
      var j :| 0 <= j < 5 && SeverityNames[j] == l;
      Dict.GetAt(t, j);
    } else {
      assert l !in Dict.KeySet(t);
    }
  }

  /** A string without upper-case letters is its own `lower()`. */
  lemma LowerOfLowercase(s: string)
    requires forall i :: 0 <= i < |s| ==> !('A' <= s[i] <= 'Z')
    ensures Lower(s) == s
  {
  }

  /** critical > high > medium > low > info >= 0, and unknown or empty labels rank -1. */
  lemma SeverityRanking()
    ensures SeverityRank(Some("critical")) == 4 && SeverityRank(Some("high")) == 3
    ensures SeverityRank(Some("medium")) == 2 && SeverityRank(Some("low")) == 1
    ensures SeverityRank(Some("info")) == 0
    ensures SeverityRank(Some("UNKNOWN")) == -1 && SeverityRank(Some("")) == -1 && SeverityRank(None) == -1
  {
    LowerOfLowercase("critical");
    LowerOfLowercase("high");
    LowerOfLowercase("medium");
    LowerOfLowercase("low");
    LowerOfLowercase("info");
    assert |Lower("UNKNOWN")| == 7;
  }

  /** The rank ignores letter case. */
  lemma SeverityRankIgnoresCase(s: string)
    ensures SeverityRank(Some(s)) == SeverityRank(Some(Lower(s)))
    ensures SeverityRank(Some(s)) == SeverityRank(Some(Upper(s)))
  {
    LowerIdempotent(s);
    LowerUpper(s);
  }

  /** The severity a finding holds under `key`, ranked; anything but a string ranks -1. */
  function RankOf(f: Json, key: string): int {
    if f.JObj? && Get(f, key).JStr? then SeverityRank(Some(Get(f, key).s)) else -1
  }

  /**
    The findings whose sort key `sort_by_severity` can compute: objects
    whose value under `key` is a string or falsy.
  */
  predicate Sortable(f: Json, key: string) {
    f.JObj? && (Get(f, key).JStr? || !Truthy(Get(f, key)))
  }

  /** What computing the key raises otherwise: `f.get` on a non-dict, or `.lower()` on a truthy non-string. */
  function KeyFault(f: Json, key: string): (e: Error)
    requires !Sortable(f, key)
    ensures e.RuntimeFault? && e.kind == "AttributeError"
    ensures !f.JObj? <==> e.detail == "get"
  {
    if !f.JObj? then RuntimeFault("AttributeError", "get") else RuntimeFault("AttributeError", "lower")
  }

  /** The first finding whose key cannot be computed: `sorted` computes every key, in order, before comparing. */
  function FirstUnsortable(findings: seq<Json>, key: string): (r: Option<Json>)
    ensures r.None? <==> forall f <- findings :: Sortable(f, key)
    ensures r.Some? ==> r.value in findings && !Sortable(r.value, key)
  {
    if |findings| == 0 then None
    else if !Sortable(findings[0], key) then Some(findings[0])
    else
      var r := FirstUnsortable(findings[1..], key);
      assert forall f <- findings :: f == findings[0] || f in findings[1..];
      assert forall f <- findings[1..] :: f in findings;
      r
  }

  /** The sort key: the rank, negated when sorting highest first. */
  function RankKey(key: string, reverse: bool): Json -> int {
    f => if reverse then -RankOf(f, key) else RankOf(f, key)
  }

  /**
    `sort_by_severity(findings, key, reverse)`: a stable sort by rank,
    highest first when `reverse` (the default); the first finding whose
    key cannot be computed raises `AttributeError`.
  */
  function SortBySeverity(findings: seq<Json>, key: string, reverse: bool): (r: Result<seq<Json>, Error>)
    ensures r.Failure? <==> exists f <- findings :: !Sortable(f, key)
    ensures r.Failure? ==> r.error == KeyFault(FirstUnsortable(findings, key).value, key)
    ensures r.Success? ==> multiset(r.value) == multiset(findings)
    ensures r.Success? && reverse ==>
      forall i, j :: 0 <= i < j < |r.value| ==> RankOf(r.value[i], key) >= RankOf(r.value[j], key)
    ensures r.Success? && !reverse ==>
      forall i, j :: 0 <= i < j < |r.value| ==> RankOf(r.value[i], key) <= RankOf(r.value[j], key)
    // stable: findings of equal rank keep their input order
    ensures r.Success? ==>
      forall v :: Sorting.WithKey(r.value, RankKey(key, reverse), v) == Sorting.WithKey(findings, RankKey(key, reverse), v)
  {
    match FirstUnsortable(findings, key)
    case Some(f) => Failure(KeyFault(f, key))
    case None =>
      var r := Sorting.StableSort(findings, RankKey(key, reverse));
      assert forall i, j :: 0 <= i < j < |r| ==> RankKey(key, reverse)(r[i]) <= RankKey(key, reverse)(r[j]);
      Success(r)
  }

  /** The bucket a severity text falls in: its lower-cased form if that is a known label, else `"unknown"`. */
  function Bucket(text: string): (b: string)
    ensures b in GroupNames
  {
    var l := Lower(text);
    if l in SeverityNames then l else "unknown"
  }

  const GroupNames: seq<string> := SeverityNames + ["unknown"]

  /** `str()` of a finding's severity: the `severity` entry of an object (`""` when absent), else `""`. */
  function SeverityText(f: Json, render: Renderer): string {
    PyStr(if f.JObj? then GetOr(f, "severity", JStr("")) else JStr(""), render)
  }

  function FindingBucket(render: Renderer): Json -> string {
    f => Bucket(SeverityText(f, render))
  }

  /** The items whose bucket is `name`, in input order. */
  function Members(items: seq<Json>, bucketOf: Json -> string, name: string): (r: seq<Json>)
    ensures |r| <= |items|
    ensures forall x <- r :: x in items && bucketOf(x) == name
  {
    if |items| == 0 then []
    else
      var last := items[|items| - 1];
      Members(items[..|items| - 1], bucketOf, name) + (if bucketOf(last) == name then [last] else [])
  }

  /** A group is non-empty exactly when some item falls in it. */
  lemma {:induction false} MembersNonEmpty(items: seq<Json>, bucketOf: Json -> string, name: string)
    ensures |Members(items, bucketOf, name)| > 0 <==> exists x <- items :: bucketOf(x) == name
    decreases |items|
  {
    if |items| > 0 {
      var init := items[..|items| - 1];
      var last := items[|items| - 1];
      MembersNonEmpty(init, bucketOf, name);
      assert forall x <- init :: x in items;
      assert last in items;
      assert forall x <- items :: x in init || x == last by {
        forall x <- items ensures x in init || x == last {
          var i :| 0 <= i < |items| && items[i] == x;
          if i < |items| - 1 { assert init[i] == x; }
        }
      }
    }
  }

  /** The sizes of the named groups, added up. */
  function SumSizes(items: seq<Json>, bucketOf: Json -> string, names: seq<string>): nat {
    if |names| == 0 then 0
    else |Members(items, bucketOf, names[0])| + SumSizes(items, bucketOf, names[1..])
  }

  function Occurrences(names: seq<string>, x: string): (n: nat) {
    if |names| == 0 then 0 else (if names[0] == x then 1 else 0) + Occurrences(names[1..], x)
  }

  lemma {:induction false} SumSizesStep(items: seq<Json>, bucketOf: Json -> string, names: seq<string>)
    requires |items| > 0
    ensures SumSizes(items, bucketOf, names)
      == SumSizes(items[..|items| - 1], bucketOf, names) + Occurrences(names, bucketOf(items[|items| - 1]))
    decreases |names|
  {
    if |names| > 0 {
      SumSizesStep(items, bucketOf, names[1..]);
    }
  }

  lemma {:induction false} OccursOnce(names: seq<string>, x: string)
    requires x in names
    requires forall i, j :: 0 <= i < j < |names| ==> names[i] != names[j]
    ensures Occurrences(names, x) == 1
    decreases |names|
  {
    if names[0] == x {
      assert x !in names[1..] by {
        forall i | 0 <= i < |names[1..]| ensures names[1..][i] != x {
          assert names[1..][i] == names[i + 1];
        }
      }
      OccursNot(names[1..], x);
    } else {
      assert x in names[1..];
      OccursOnce(names[1..], x);
    }
  }

  lemma {:induction false} OccursNot(names: seq<string>, x: string)
    requires x !in names
    ensures Occurrences(names, x) == 0
    decreases |names|
  {
    if |names| > 0 {
      assert x !in names[1..];
      OccursNot(names[1..], x);
    }
  }

  /** Every item lands in exactly one of the six groups, so their sizes add up to the input's. */
  lemma GroupNamesDistinct()
    ensures forall i, j :: 0 <= i < j < |GroupNames| ==> GroupNames[i] != GroupNames[j]
  {
    assert GroupNames == ["critical", "high", "medium", "low", "info", "unknown"];
  }

  /** The position of a group name in `GroupNames`. */
  function GroupIndex(name: string): (j: nat)
    requires name in GroupNames
    ensures j < |GroupNames| && GroupNames[j] == name
  {
    if name == "critical" then 0
    else if name == "high" then 1
    else if name == "medium" then 2
    else if name == "low" then 3
    else if name == "info" then 4
    else 5
  }

  lemma {:induction false} SumSizesEmpty(bucketOf: Json -> string, names: seq<string>)
    ensures SumSizes([], bucketOf, names) == 0
    decreases |names|
  {
    if |names| > 0 {
      SumSizesEmpty(bucketOf, names[1..]);
    }
  }

  /** Every item lands in exactly one of the six groups, so their sizes add up to the input's. */
  lemma {:induction false} GroupsPartition(items: seq<Json>, bucketOf: Json -> string)
    requires forall x <- items :: bucketOf(x) in GroupNames
    ensures SumSizes(items, bucketOf, GroupNames) == |items|
    decreases |items|
  {
    if |items| == 0 {
      SumSizesEmpty(bucketOf, GroupNames);
    } else {
      var init := items[..|items| - 1];
      assert forall x <- init :: x in items;
      GroupsPartition(init, bucketOf);
      SumSizesStep(items, bucketOf, GroupNames);
      assert items[|items| - 1] in items;
      GroupNamesDistinct();
      OccursOnce(GroupNames, bucketOf(items[|items| - 1]));
    }
  }

  /** The six groups, in order, as a dict. */
  function GroupsDict(acc: seq<seq<Json>>): (d: Dict.Dict<seq<Json>>)
    requires |acc| == |GroupNames|
    ensures Dict.Keys(d) == GroupNames && Dict.NoDupKeys(d)
    ensures forall name <- GroupNames :: Dict.Get(d, name) == Some(acc[GroupIndex(name)])
  {
    var d := seq(|GroupNames|, j requires 0 <= j < |GroupNames| => (GroupNames[j], acc[j]));
    GroupNamesDistinct();
    assert forall name <- GroupNames :: Dict.Get(d, name) == Some(acc[GroupIndex(name)]) by {
      forall name <- GroupNames ensures Dict.Get(d, name) == Some(acc[GroupIndex(name)]) {
        Dict.GetAt(d, GroupIndex(name));
      }
    }
    d
  }

  /**
    `group_by_severity(findings)`: the six groups, in the order critical,
    high, medium, low, info, unknown, each holding its findings in input
    order.
  */
  method GroupBySeverity(findings: seq<Json>, render: Renderer) returns (groups: Dict.Dict<seq<Json>>)
    ensures Dict.Keys(groups) == GroupNames && Dict.NoDupKeys(groups)
    ensures forall name <- GroupNames :: Dict.Get(groups, name) == Some(Members(findings, FindingBucket(render), name))
  {
    var acc := Collect(findings, FindingBucket(render));
    groups := GroupsDict(acc);
  }

  /** The grouping loop: each item appended to the group its bucket names. */
  method Collect(items: seq<Json>, bucketOf: Json -> string) returns (acc: seq<seq<Json>>)
    requires forall x <- items :: bucketOf(x) in GroupNames
    ensures |acc| == |GroupNames|
    ensures forall j :: 0 <= j < |GroupNames| ==> acc[j] == Members(items, bucketOf, GroupNames[j])
  {
    acc := [[], [], [], [], [], []];
    GroupNamesDistinct();
    for i := 0 to |items|
      invariant |acc| == |GroupNames|
      invariant forall j :: 0 <= j < |GroupNames| ==> acc[j] == Members(items[..i], bucketOf, GroupNames[j])
    {
      var x := items[i];
      assert x in items;
      var j := GroupIndex(bucketOf(x));
      assert items[..i + 1][..i] == items[..i];
      assert items[..i + 1][i] == x;
      acc := acc[j := acc[j] + [x]];
    }
    assert items[..|items|] == items;
  }

  // ---------------------------------------------------------------------
  // Flattening
  // ---------------------------------------------------------------------

  /** The flattened key of `k` under `parent`. */
  function JoinKey(parent: string, sep: string, k: string): string {
    if |parent| > 0 then parent + sep + k else k
  }

  /** No value is an object. */
  predicate Flat(d: Dict.Dict<Json>) {
    forall p <- d :: !p.1.JObj?
  }

  /**
    `flatten_dict(data, parent_key, sep)`: nested objects become
    `sep`-joined key paths; every other value, lists included, is kept.
  */
  function FlattenDict(data: Dict.Dict<Json>, parent: string, sep: string): (r: Dict.Dict<Json>)
    ensures Flat(r) && Dict.NoDupKeys(r)
    ensures Dict.KeySet(r) == LeafPaths(JObj(data), parent, sep, 0)
    // each path holds the leaf found there, lists and other non-objects as they were
    ensures forall p :: Dict.Get(r, p) == LeafAt(JObj(data), parent, sep, 0, p)
  {
    FlattenObjValues(JObj(data), parent, sep);
    FlattenObj(JObj(data), parent, sep)
  }

  function FlattenObj(obj: Json, parent: string, sep: string): (r: Dict.Dict<Json>)
    requires obj.JObj?
    ensures Flat(r) && Dict.NoDupKeys(r)
    ensures Dict.KeySet(r) == LeafPaths(obj, parent, sep, 0)
    decreases obj, 1
  {
    FlattenFrom([], obj, 0, parent, sep)
  }

  /** The loop of `flatten_dict` from entry `i` on, writing into `acc`. */
  function FlattenFrom(acc: Dict.Dict<Json>, obj: Json, i: nat, parent: string, sep: string): (r: Dict.Dict<Json>)
    requires obj.JObj? && i <= |obj.fields|
    requires Flat(acc) && Dict.NoDupKeys(acc)
    ensures Flat(r) && Dict.NoDupKeys(r)
    ensures Dict.KeySet(r) == Dict.KeySet(acc) + LeafPaths(obj, parent, sep, i)
    decreases obj, 0, |obj.fields| - i
  {
    if i == |obj.fields| then acc
    else
      var k := obj.fields[i].0;
      var v := obj.fields[i].1;
      var nk := JoinKey(parent, sep, k);
      var acc' := if v.JObj? then Dict.Update(acc, FlattenObj(v, nk, sep)) else Dict.Put(acc, nk, v);
      FlattenFrom(acc', obj, i + 1, parent, sep)
  }

  /**
    Reference definition of the flattened values: the leaf at path `p`
    among entries `i` onwards, where a later leaf with the same path wins,
    as the later write does in `flatten_dict`.
  */
  function LeafAt(obj: Json, parent: string, sep: string, i: nat, p: string): Option<Json>
    requires obj.JObj? && i <= |obj.fields|
    decreases obj, |obj.fields| - i
  {
    if i == |obj.fields| then None
    else
      var later := LeafAt(obj, parent, sep, i + 1, p);
      if later.Some? then later
      else
        var nk := JoinKey(parent, sep, obj.fields[i].0);
        var v := obj.fields[i].1;
        if v.JObj? then LeafAt(v, nk, sep, 0, p)
        else if nk == p then Some(v)
        else None
  }

  /** Reference definition of the flattened keys: one path per non-object leaf; an empty object has none. */
  function LeafPaths(obj: Json, parent: string, sep: string, i: nat): set<string>
    requires obj.JObj? && i <= |obj.fields|
    decreases obj, |obj.fields| - i
  {
    if i == |obj.fields| then {}
    else
      var nk := JoinKey(parent, sep, obj.fields[i].0);
      var v := obj.fields[i].1;
      (if v.JObj? then LeafPaths(v, nk, sep, 0) else {nk}) + LeafPaths(obj, parent, sep, i + 1)
  }

  /** Every flattened path of a nested object holds the leaf `LeafAt` finds there. */
  lemma {:induction false} FlattenObjValues(obj: Json, parent: string, sep: string)
    requires obj.JObj?
    ensures forall p :: Dict.Get(FlattenObj(obj, parent, sep), p) == LeafAt(obj, parent, sep, 0, p)
    decreases obj, 1
  {
    FlattenFromValues([], obj, 0, parent, sep);
  }

  /** From entry `i` on, a path with a leaf gets that leaf; every other key keeps what `acc` held. */
  lemma {:induction false} FlattenFromValues(acc: Dict.Dict<Json>, obj: Json, i: nat, parent: string, sep: string)
    requires obj.JObj? && i <= |obj.fields|
    requires Flat(acc) && Dict.NoDupKeys(acc)
    ensures forall p :: (Dict.Get(FlattenFrom(acc, obj, i, parent, sep), p)
      == if LeafAt(obj, parent, sep, i, p).Some? then LeafAt(obj, parent, sep, i, p) else Dict.Get(acc, p))
    decreases obj, 0, |obj.fields| - i
  {
    if i < |obj.fields| {
      var v := obj.fields[i].1;
      var nk := JoinKey(parent, sep, obj.fields[i].0);
      var acc' := if v.JObj? then Dict.Update(acc, FlattenObj(v, nk, sep)) else Dict.Put(acc, nk, v);
      if v.JObj? {
        FlattenObjValues(v, nk, sep);
        Dict.UpdateGets(acc, FlattenObj(v, nk, sep));
      }
      FlattenFromValues(acc', obj, i + 1, parent, sep);
    }
  }

  /** Flattening an already flat dict (no object values, top level) gives it back unchanged. */
  lemma {:induction false} FlattenFlat(acc: Dict.Dict<Json>, data: Dict.Dict<Json>, i: nat, sep: string)
    requires i <= |data| && Flat(acc) && Flat(data)
    requires Dict.NoDupKeys(acc + data[i..])
    ensures Dict.NoDupKeys(acc)
    ensures FlattenFrom(acc, JObj(data), i, "", sep) == acc + data[i..]
    decreases |data| - i
  {
    var rest := acc + data[i..];
    Dict.NoDupPrefix(acc, data[i..]);
    if i < |data| {
      var k := data[i].0;
      assert data[i..][0] == data[i] && data[i] in data;
      var acc' := acc + [data[i]];
      assert Dict.Put(acc, k, data[i].1) == acc';
      assert forall p <- acc' :: p in acc || p == data[i];
      assert acc' + data[i + 1..] == rest;
      FlattenFlat(acc', data, i + 1, sep);
    } else {
      assert rest == acc;
    }
  }

  /** Flattening is idempotent. */
  lemma FlattenIdempotent(data: Dict.Dict<Json>, sep: string)
    ensures FlattenDict(FlattenDict(data, "", sep), "", sep) == FlattenDict(data, "", sep)
  {
    var f := FlattenDict(data, "", sep);
    assert [] + f[0..] == f;
    FlattenFlat([], f, 0, sep);
  }

  /** An empty nested object leaves no key behind. */
  lemma FlattenEmptyNested(k: string, sep: string)
    ensures FlattenDict([(k, JObj([]))], "", sep) == []
  {
    var obj := JObj([(k, JObj([]))]);
    assert FlattenObj(JObj([]), k, sep) == [];
    assert Dict.Update<Json>([], []) == [];
    assert FlattenFrom([], obj, 1, "", sep) == [];
    assert FlattenFrom([], obj, 0, "", sep) == FlattenFrom([], obj, 1, "", sep);
  }

  /** `{"a": {"b": 1}}` flattens to `{"a.b": 1}`. */
  lemma FlattenExample()
    ensures FlattenDict([("a", JObj([("b", JInt(1))]))], "", ".") == [("a.b", JInt(1))]
  {
    var inner := JObj([("b", JInt(1))]);
    assert JoinKey("a", ".", "b") == "a.b";
    assert FlattenFrom([("a.b", JInt(1))], inner, 1, "a", ".") == [("a.b", JInt(1))];
    assert FlattenObj(inner, "a", ".") == [("a.b", JInt(1))];
  }
}

=== FILE: wrappers.dfy ===
/** Option and Result, the failure-compatible shapes every other module returns. */
module Wrappers {

  datatype Option<+T> = None | Some(value: T) {

    predicate IsFailure() {
      None?
    }

    function PropagateFailure<U>(): Option<U>
      requires None?
    {
      None
    }

    function Extract(): T
      requires Some?
    {
      value
    }

    /** The value, or `default` when absent (Python's `x if x is not None else default`). */
    function GetOr(default: T): T {
      match this
      case Some(v) => v
      case None => default
    }
  }

  /** Either a value or the error the source raises instead of returning. */
  datatype Result<+T, +E> = Success(value: T) | Failure(error: E) {

    predicate IsFailure() {
      Failure?
    }

    function PropagateFailure<U>(): Result<U, E>
      requires Failure?
    {
      Failure(error)
    }

    function Extract(): T
      requires Success?
    {
      value
    }
  }
}
